=== FILE: README.md ===
# Caro (gomoku) client and server, modelled in Dafny

Caro is a networked five-in-a-row game for two players. It has a TCP server
and a desktop client.

The server side consists of:
- a thread bus that numbers connections and keeps the list of open rooms;
- one thread per connection that dispatches the comma-separated text
  commands of the protocol;
- two-seat rooms;
- a user store holding accounts, friendships, bans and win/draw statistics.

The client side consists of:
- a socket handler that frames lines and decodes server messages into view
  calls;
- the networked game view, in two versions;
- the game view against the computer and the computer player itself, a
  depth-limited minimax;
- the sign-up form.

The model is a set of pure functions over immutable values:
- **Board.** A square grid of `int`: 0 empty, 1 the local player, 2 the
  opponent or the computer.
- **Server.** A `State` that holds the connections by client number, the
  room objects by id, the bus, and the user store.
- **Handlers.** Each command handler returns a `Step`: the next state, the
  lines written (each to a client number), and whether the handler raised
  (a Python exception that ends the connection).
- **Client views.** A view returns an `Outcome`: the next view and the
  messages it sends.
- **Dialogs.** The answer to a "play again?" dialog is a parameter.
- **Store failures.** A database error raised after a successful connect
  is a `failing` flag on the store. Each user-store call catches such an
  error and answers its "nothing found" value or changes nothing. A user
  store whose connect failed is not modelled (see "## Left out").

Proved:
- **Wire formats.** Every server message the client decodes round-trips
  (user records, room lists, friend lists, rank charts, moves, chat). Line
  framing survives any chunking of the decoded text on both ends.
- **Server bookkeeping.**
  - Rooms, the bus, the per-account updates, and the game settlement after
    a win, a loss or a draw.
  - A win reported by one player and a loss reported by the other leave the
    same store.
  - Closing a connection twice changes nothing.
- **Board rules.** The local "five through the last move" test agrees with
  the computer's whole-board test. The two boards of a networked game stay
  colour-swapped mirrors, so both ends score the same move the same way.
- **Computer player.**
  - It takes a winning cell first and then blocks the opponent's.
  - Its board evaluation is antisymmetric.
  - Minimax returns the best child value.
  - The candidate moves are the cells nearest the centre.
- **Sign-up form.** Its checks happen in order, and the request it sends
  splits back into the typed fields.

## Model

| member | source | states |
|---|---|---|
| Text.Split | server/server_thread.py:112-118 | `str.split(',')`: never empty, and no piece contains the separator |
| Text.Tok | server/server_thread.py:121-122 | `parts[i] if len(parts) > i else default`: the i-th token when it exists, else the default |
| Text.SplitJoin | caro-python/shared/models.py:23-44 | joining separator-free fields and splitting the result gives back exactly those fields |
| Text.JoinSplit | server/server_thread.py:308-313 | splitting a text and joining the pieces again gives back the text (how a chat line is reassembled) |
| Text.SplitAppend | caro-python/shared/models.py:28-44 | splitting `s + sep + extra` is the pieces of `s` followed by the pieces of `extra` |
| Text.SplitListing | client/socket_handle.py:161-178 | a header followed by separator-free token groups splits into the header and the groups' tokens in order |
| Text.IndexOf | server/server_thread.py:88-99 | the position found holds the character, and no earlier position does |
| Text.NatToStringValue | caro-python/shared/models.py:23-26 | the decimal digits written for `n` have value `n` |
| Text.IntToString | caro-python/shared/models.py:23-26 | `str(n)` is never empty and never contains a comma |
| Text.TrimLeft | client/views/register_view.py:92-95 | only white space is cut from the front, and what remains does not start with white space |
| Text.TrimRight | client/views/register_view.py:92-95 | only white space is cut from the back, and what remains does not end with white space |
| Text.Strip | client/views/register_view.py:92-95 | `str.strip()` gives a contiguous part of the input that neither starts nor ends with white space, and leaves unpadded text unchanged |
| Text.StripCutsOnlySpace | client/views/register_view.py:92-95 | everything `strip()` removes, on either side, is white space |
| Text.ParseInt | client/socket_handle.py:168-169 | `int(t)` succeeds only on text that is not blank after stripping |
| Text.IntRoundTrip | caro-python/shared/models.py:23-44 | `int(str(n)) == n` for every integer, negative ones included |
| Framing.Frame | server/server_thread.py:43-50 | a line on the wire is the message followed by one newline |
| Framing.Drain | server/server_thread.py:88-99 | the receive loop hands on only non-empty, newline-free messages and keeps a newline-free remainder |
| Framing.DrainIsSplit | client/socket_handle.py:72-78 | repeated `split('\n', 1)` equals one full split: every complete non-empty line in order, plus the unfinished last piece |
| Framing.DrainChunks | client/socket_handle.py:62-85 | draining two chunks one after the other yields the same messages and remainder as draining them joined |
| Framing.DrainFrameAll | server/server_thread.py:43-50 | framed messages are received back exactly, whatever follows them |
| Models.ToString | caro-python/shared/models.py:23-26 | a user with comma-free text fields goes on the wire as exactly its nine fields in order |
| Models.FromFields | caro-python/shared/models.py:32-43 | the user built from nine tokens has the textual ones as they are and the numeric ones as `int()` reads them, and it raises iff a numeric token is not an integer |
| Models.FromString | caro-python/shared/models.py:28-44 | fewer than nine tokens give `None`; otherwise the user from the first nine tokens, or an exception |
| Models.UserRoundTrip | caro-python/shared/models.py:23-44 | `from_string(to_string(u))` is `u` with both status flags false, for comma-free text fields |
| Models.ExtraTokensIgnored | caro-python/shared/models.py:31-43 | tokens after the ninth do not change the decoded user |
| Models.PointEquals | caro-python/shared/models.py:57-60 | a point equals exactly the points with the same coordinates and no object of another type |
| Models.PointEqualsEquivalence | caro-python/shared/models.py:57-60 | point equality is reflexive, symmetric and transitive |
| UserDao.EmptyDb | caro-python/server/user_dao.py:30-59 | the empty table satisfies the table constraints and no login succeeds on it |
| UserDao.FindCredentials | caro-python/server/user_dao.py:30-59 | the row found is the first with that username and password; none is found iff no row matches |
| UserDao.VerifyUser | caro-python/server/user_dao.py:30-59 | a user is returned iff the store works and a row matches; it carries the credentials, that row's fields and its rank |
| UserDao.CheckDuplicated | caro-python/server/user_dao.py:75-86 | true iff the store works and some row has the username |
| UserDao.CheckIsBanned | caro-python/server/user_dao.py:88-99 | true iff the store works and the id is in the ban list |
| UserDao.AddUser | caro-python/server/user_dao.py:61-73 | on success exactly one row is appended, with the next id and zeroed statistics, and nothing else changes; on a duplicate or failure nothing changes |
| UserDao.RegisteredCanLogIn | caro-python/server/user_dao.py:61-73 | after a successful add, logging in with the same credentials returns the new row |
| UserDao.Update | caro-python/server/user_dao.py:101-110 | a single-row update touches only rows with that id and no other table; with a failing store it changes nothing |
| UserDao.UpdateToOnline | caro-python/server/user_dao.py:101-110 | only the row with that id becomes online |
| UserDao.UpdateToOffline | caro-python/server/user_dao.py:112-121 | only the row with that id becomes offline and not playing |
| UserDao.UpdateToPlaying | caro-python/server/user_dao.py:123-132 | only the row with that id becomes playing |
| UserDao.UpdateToNotPlaying | caro-python/server/user_dao.py:134-143 | only the row with that id stops playing |
| UserDao.AddGame | caro-python/server/user_dao.py:145-154 | only the row with that id gains one game |
| UserDao.AddWin | caro-python/server/user_dao.py:156-165 | only the row with that id gains one win |
| UserDao.AddDraw | caro-python/server/user_dao.py:167-176 | only the row with that id gains one draw |
| UserDao.UpdateValid | caro-python/server/user_dao.py:101-176 | updates that keep ids and usernames keep the table constraints |
| UserDao.GetRank | caro-python/server/user_dao.py:178-190 | the rank is 0 exactly when the store fails; for a known id it is one more than the number of accounts with strictly more wins, and 1 for an unknown id |
| UserDao.RankOrder | caro-python/server/user_dao.py:178-190 | equal wins give equal ranks, and more wins give a strictly better rank |
| UserDao.InsertByWinsSorted | caro-python/server/user_dao.py:192-220 | inserting into a list ordered by wins keeps it ordered |
| UserDao.SortByWins | caro-python/server/user_dao.py:192-220 | `ORDER BY num_wins DESC` is a permutation of the table |
| UserDao.SortByWinsSorted | caro-python/server/user_dao.py:192-220 | the sorted table is in non-increasing order of wins |
| UserDao.TopRows | caro-python/server/user_dao.py:192-220 | `LIMIT 100` keeps the first 100 sorted rows (or all), still ordered, drawn from the table |
| UserDao.GetRankList | caro-python/server/user_dao.py:192-220 | the chart is empty on failure, holds at most 100 players ordered by wins, and the player in place i is ranked i + 1 |
| UserDao.CheckFriend | caro-python/server/user_dao.py:248-261 | true iff the store works and the pair is recorded in either order |
| UserDao.CheckFriendSymmetric | caro-python/server/user_dao.py:248-261 | friendship is symmetric |
| UserDao.FriendRows | caro-python/server/user_dao.py:222-246 | the join finds at least one friendship row iff the two are friends |
| UserDao.GetListFriend | caro-python/server/user_dao.py:222-246 | the friend list holds exactly the accounts that are friends of the user |
| UserDao.AddFriend | caro-python/server/user_dao.py:263-274 | a new pair of existing accounts is recorded, after which they are friends either way; otherwise nothing changes |
| Rooms.NewRoom | server/room.py:17-22 | a new room has the creator as first player, no second player, no password and one occupant |
| Rooms.SetPassword | server/room.py:26-32 | the password read back is the one set, and the seats are unchanged |
| Rooms.NumberOfUsers | server/room.py:34-40 | the room counts two occupants iff it is full, one otherwise |
| Rooms.AddUser | server/room.py:42-44 | the guest takes the second seat and the room becomes full |
| Rooms.RemoveUser | server/room.py:46-51 | the seat of the leaving client is emptied, the first seat taking precedence; a stranger changes nothing |
| Rooms.AddThenRemove | server/room.py:42-51 | a guest who joins and leaves leaves the second seat empty |
| Rooms.Broadcast | server/room.py:53-61 | the message goes to exactly the seated clients, first seat first |
| Rooms.GetCompetitor | server/room.py:63-67 | the first player's competitor is the second seat; anyone else's is the first seat |
| Rooms.CompetitorSymmetric | server/room.py:63-67 | in a full room each player is the other's competitor |
| Rooms.GetCompetitorId | server/room.py:69-74 | the competitor's account id when the competitor is logged in, nothing otherwise |
| Rooms.IncreaseNumberOfGame | server/room.py:90-95 | every seated, logged-in account gains one game per seat it holds, and no other row changes |
| Rooms.IncreaseDraw | server/room.py:104-109 | every seated, logged-in account gains one draw per seat it holds, and no other row changes |
| Rooms.SetUsersToPlaying | server/room.py:76-81 | exactly the seated, logged-in accounts become playing |
| Rooms.SetUsersToNotPlaying | server/room.py:83-88 | exactly the seated, logged-in accounts stop playing |
| Rooms.IncreaseWin | server/room.py:97-102 | a seated winner's account gains one win; a seated winner without an account raises; a stranger changes nothing |
| Rooms.DrawRow | server/room.py:83-109 | after a draw each seated account has one more game and one more draw and is not playing |
| Rooms.WinRows | server/room.py:83-102 | after a win the winner has one more game and one more win, and the loser one more game |
| Bus.NewBus | caro-python/server/server.py:22-26 | a new bus has no threads and no rooms, and its room ids start at 100 |
| Bus.RemoveFirst | caro-python/server/server.py:33-37 | `list.remove` cuts out the first occurrence (the earliest position holding the item) and keeps every other element in its order; a list without the item is unchanged |
| Bus.AppendThenRemove | caro-python/server/server.py:28-37 | removing a thread just added restores the list |
| Bus.Add | caro-python/server/server.py:28-31 | the thread is appended and the count grows by one |
| Bus.Remove | caro-python/server/server.py:33-37 | the thread's first entry leaves and the other threads keep their order; rooms untouched |
| Bus.AddRoom | caro-python/server/server.py:39-42 | the room is appended and can be found afterwards |
| Bus.RemoveRoom | caro-python/server/server.py:44-48 | the room's first entry leaves and the room list keeps its order; threads untouched |
| Bus.FindRoom | caro-python/server/server.py:50-56 | a room is found iff it is listed |
| Bus.GetNextRoomId | caro-python/server/server.py:58-63 | hands out the counter and advances it by one |
| Bus.Broadcast | caro-python/server/server.py:65-73 | every other thread gets the message, and the sender never does |
| ServerThread.Initial | caro-python/server/server.py:22-26 | the server starts with no connections and consistent state |
| ServerThread.Accept | caro-python/server/server.py:131-147 | a new connection gets the next client number, is registered on the bus, and no existing connection changes |
| ServerThread.Write | server/server_thread.py:43-50 | a line is written to a client iff its connection is open |
| ServerThread.BroadcastFrom | caro-python/server/server.py:65-73 | every other open thread on the bus gets the message; the sender never does |
| ServerThread.Accounts | server/room.py:69-74 | the account of each logged-in connection |
| ServerThread.LogIn | server/server_thread.py:127-134 | after a login the connection holds the user, the row is online, and the others are told |
| ServerThread.ClientVerify | server/server_thread.py:121-141 | a matching, offline, unbanned user is logged in and sent `login-success`; otherwise nothing changes and the reply is `wrong-user`, `banned-user` or `dupplicate-login` in that order |
| ServerThread.Register | server/server_thread.py:144-162 | a taken username is refused with `duplicate-username`; otherwise the account is created and logged in |
| ServerThread.CreateAccount | server/server_thread.py:152-162 | the new row is logged in, set online, and the client's last line is `login-success` with it |
| ServerThread.Offline | server/server_thread.py:165-174 | a logged-in user is set offline, the others are told, and the connection forgets the user |
| ServerThread.ViewFriendList | server/server_thread.py:177-185 | a logged-in user is sent their friend list; no state changes |
| ServerThread.GetRankCharts | server/server_thread.py:188-193 | the client is sent the rank chart; no state changes |
| ServerThread.CheckFriendCommand | server/server_thread.py:196-200 | the answer is `1` iff the two are friends; a non-integer id raises |
| ServerThread.GetListRoom | server/server_thread.py:203-210 | the client is sent the listed rooms; no state changes |
| ServerThread.CreateRoom | server/server_thread.py:213-223 | a room with a fresh id, the creator seated and the given password is listed and entered; the creator is told the id first, then the new-room announcement follows, and without a login nothing is announced |
| ServerThread.BroadcastNewRoom | caro-python/server/server.py:75-80 | when the host is logged in, every other open connection is sent `new-room` with the id, one player, the host's nickname and the password flag, and nobody else is; otherwise nothing is sent |
| ServerThread.GoToPartnerRoom | server/server_thread.py:324-331 | the guest is sent the host's address and account; a host who is not logged in raises |
| ServerThread.GoToOwnRoom | server/server_thread.py:315-322 | the host is sent the guest's address and account; a guest who is not logged in raises |
| ServerThread.JoinCheck | server/server_thread.py:226-243 | a join is accepted iff the room is listed, not full, and open or matched by the password |
| ServerThread.JoinRoom | server/server_thread.py:226-243 | no id does nothing, a non-integer id raises, and otherwise the join proceeds |
| ServerThread.JoinRoomId | server/server_thread.py:228-243 | a refused join answers with the first failing check; an accepted one seats the guest and introduces the two players |
| ServerThread.Enter | server/server_thread.py:240-241 | the guest takes the second seat and the connection enters the room |
| ServerThread.LeaveRoom | server/server_thread.py:246-253 | the leaver is unseated, the room is no longer listed, and the competitor is told |
| ServerThread.Vacate | server/server_thread.py:246-253 | unseats the client and unlists the room, nothing else |
| ServerThread.StartGame | server/server_thread.py:256-259 | in a full room both seats get `start-game` and their accounts become playing |
| ServerThread.UserMove | server/server_thread.py:262-268 | the move's coordinates are forwarded to the competitor; nothing changes |
| ServerThread.Win | server/server_thread.py:271-278 | both accounts gain a game, the reporter a win, both stop playing, and the competitor gets `you-lose` |
| ServerThread.Lose | server/server_thread.py:281-288 | both accounts gain a game, the competitor a win, both stop playing, and the competitor gets `you-win` |
| ServerThread.DrawRequest | server/server_thread.py:291-295 | the draw request is forwarded to the competitor |
| ServerThread.DrawAccept | server/server_thread.py:298-305 | both accounts gain a game and a draw and stop playing, and the competitor is told |
| ServerThread.SendMessage | server/server_thread.py:308-313 | everything after the command is forwarded as the chat text |
| ServerThread.Dispatch | server/server_thread.py:112-313 | every command keeps the server state consistent, and the connection stays open unless the handler raised |
| ServerThread.Close | server/server_thread.py:52-75 | the first close marks the connection closed and takes its first bus entry away, sets a logged-in account offline and tells the others, tells the competitor `competitor-left,` and unseats the client; nothing is written to the closed connection, and an already closed one is left as it is |
| ServerThread.Detach | server/server_thread.py:52-75 | marks the connection closed and removes its thread from the bus, nothing else |
| ServerThread.CloseLogout | server/server_thread.py:57-64 | a logged-in user is set offline and the others are told |
| ServerThread.CloseRoom | server/server_thread.py:66-71 | the competitor, if any and still open, is sent `competitor-left,` and the closing client is unseated from its room; the room stays listed |
| ServerThread.CloseIdempotent | server/server_thread.py:52-75 | closing twice is closing once |
| ServerThread.Process | server/server_thread.py:112-118 | one message keeps the state consistent, and the connection is closed exactly when handling raised |
| ServerThread.Serve | server/server_thread.py:88-99 | the receive loop over decoded chunks keeps the state consistent and stops exactly when a handler raised |
| ServerThread.Run | server/server_thread.py:81-110 | the client's first line is its id, and the connection ends closed and off the bus |
| ServerThread.ProcessAllAppend | server/server_thread.py:95-98 | handling two batches of messages in turn is handling them joined |
| ServerThread.ChunkingIrrelevant | server/server_thread.py:88-99 | two decoded reads give the same result as one read of their concatenation |
| ServerThread.WinSettlement | server/server_thread.py:271-278 | after `win` the reporter has one more game and win, the competitor one more game, and both stop playing |
| ServerThread.WinLoseAgree | server/server_thread.py:271-288 | `win` from one player and `lose` from the other leave the same state |
| ServerThread.DrawSettlement | server/server_thread.py:298-305 | after `draw-accept` both players have one more game and draw and stop playing |
| SocketHandle.Send | client/socket_handle.py:52-60 | a connected client sends the framed message, and a disconnected one sends nothing |
| SocketHandle.Receive | client/socket_handle.py:62-85 | only non-empty, newline-free messages are queued |
| SocketHandle.ReceiveConcat | client/socket_handle.py:62-85 | the queue does not depend on how the decoded text was chunked |
| SocketHandle.WritesReceived | client/socket_handle.py:52-85 | framed messages written are queued back exactly, however the decoded text is chunked |
| SocketHandle.Chunks | client/socket_handle.py:164-176 | the tokens are cut into whole groups of the given size, and a partial tail group is dropped |
| SocketHandle.ChunksFlatten | client/socket_handle.py:164-176 | cutting flattened groups gives the groups back |
| SocketHandle.DecodeAll | client/socket_handle.py:164-176 | all groups decode iff each does, and in order |
| SocketHandle.RoomFrom | client/socket_handle.py:166-172 | a room entry takes id and players by `int()` and `has_password` as the token `1` |
| SocketHandle.FriendFrom | client/socket_handle.py:222-229 | a friend entry takes its id by `int()` and the two flags as the token `1` |
| SocketHandle.DecodePlain | client/socket_handle.py:114-288 | commands that convert nothing never raise, and an unknown command calls nothing |
| SocketHandle.DecodeLoginSuccess | client/socket_handle.py:133-137 | the rest of the line is read as a user; a short record calls nothing |
| SocketHandle.DecodeNewRoom | client/socket_handle.py:181-191 | a room line shorter than four tokens calls nothing; otherwise the host and password flag come from tokens 3 and 4 |
| SocketHandle.DecodeGoToRoom | client/socket_handle.py:200-207 | the room id, competitor address, host flag and competitor record come from tokens 1, 2, 3 and the rest |
| SocketHandle.DecodeMove | client/socket_handle.py:267-272 | a move needs two integer coordinates; a non-integer one raises |
| SocketHandle.UnknownIgnored | client/socket_handle.py:114-288 | a message with an unknown command calls nothing |
| SocketHandle.OnlyConvertingRaises | client/socket_handle.py:114-288 | only commands that call `int()` can raise |
| SocketHandle.CallsFor | client/socket_handle.py:96-112 | a message causes one view call when it decodes to one, and none when it raises or is ignored |
| SocketHandle.ProcessQueue | client/socket_handle.py:96-112 | the queue causes at most one call per message, and no message that is ignored |
| SocketHandle.ProcessQueueAppend | client/socket_handle.py:96-112 | processing two queues in turn is processing them joined |
| SocketHandle.RoomListRoundTrip | client/socket_handle.py:161-178 | a room list sent by the server decodes to the same rooms |
| SocketHandle.FriendListRoundTrip | client/socket_handle.py:218-233 | a friend list sent by the server decodes to the id, nickname and both flags of every friend |
| SocketHandle.FriendEntriesSurvive | client/socket_handle.py:218-233 | the friend list the store produces reaches the client unchanged |
| SocketHandle.RankRoundTrip | client/socket_handle.py:236-256 | a rank chart decodes to the same users, both status flags false |
| SocketHandle.GoToRoomRoundTrip | client/socket_handle.py:200-207 | a `go-to-room` line decodes to the room, competitor address, host flag and competitor |
| SocketHandle.LoginSuccessRoundTrip | client/socket_handle.py:133-137 | a `login-success` line decodes to the user sent |
| SocketHandle.NewRoomRoundTrip | client/socket_handle.py:181-191 | a `new-room` line decodes to a one-player room with that id, host and password flag |
| SocketHandle.ChatServerDecoded | client/socket_handle.py:156 | a server chat line shows the text up to its first comma |
| SocketHandle.ChatRelay | client/socket_handle.py:286-288 | a chat text relayed by the server arrives whole, commas included |
| SocketHandle.MoveRelay | client/socket_handle.py:267-272 | a move relayed by the server arrives as the same coordinates |
| Board.EmptyGrid | client/views/game_view.py:18-54 | a new board is square and all empty |
| Board.Place | client/views/game_view.py:183-217 | placing a mark changes that cell only |
| Board.IsBoardFull | client/views/game_view.py:266-271 | the board is full iff no cell is empty |
| Board.RunCells | client/views/game_view.py:239-264 | the counted run is all the player's and stops at the first other cell |
| Board.Walk | client/views/game_view.py:247-253 | the walk counts the player's consecutive stones in one direction |
| Board.CheckWin | client/views/game_view.py:239-264 | the move wins iff some line through it holds five of the player's stones |
| Board.WinsAtHasFive | client/ai_player.py:222-248 | a win found at a cell is also found by the whole-board scan |
| Board.NewFiveAtMove | client/views/game_view.py:239-264 | a move that creates the first five makes the local test at that move succeed |
| Board.WinsAtMirror | client/views/game_view.py:219-237 | on colour-swapped boards a move wins for one player iff it wins for the other |
| Board.PlaceMirror | client/views/game_view.py:183-237 | placing a mark and its swapped mark on mirrored boards keeps them mirrored |
| Board.FullMirror | client/views/game_view.py:266-271 | mirrored boards are full together |
| GameView.Open | client/views/game_view.py:18-54 | the view opens on an empty board, the host moving first, scores at zero |
| GameView.Tick | client/views/game_view.py:357-369 | on your turn the clock counts down; at zero the turn is lost, `lose` is sent and the competitor scores |
| GameView.StartTimerTicks | client/views/game_view.py:348-351 | starting the timer is setting the clock to 60 seconds |
| GameView.TurnTimesOut | client/views/game_view.py:348-369 | 60 ticks after a turn starts it is lost |
| GameView.ResetGame | client/views/game_view.py:314-333 | a new game clears the board, keeps the scores, gives the first move to the host, restarts the clock only for the host, and sends `new-game` |
| GameView.LeaveRoom | client/views/game_view.py:389-394 | a confirmed leave closes the view and sends `leave-room`; otherwise nothing happens |
| GameView.AfterGame | client/views/game_view.py:273-312 | playing again resets the game; otherwise the final board stays |
| GameView.OnWin | client/views/game_view.py:273-286 | `win` is sent first and your score grows by one |
| GameView.OnLose | client/views/game_view.py:288-300 | the competitor's score grows by one |
| GameView.OnDraw | client/views/game_view.py:302-312 | neither score changes |
| GameView.MakeMove | client/views/game_view.py:183-217 | a move is refused iff the game is over, it is not your turn or the cell is taken; otherwise it is sent first and scores iff it makes five |
| GameView.PyIndex | client/views/game_view.py:219-237 | Python list indexing: negative indices count from the end, out-of-range ones raise |
| GameView.OnCompetitorMove | client/views/game_view.py:219-237 | the competitor's move raises iff out of range; otherwise the competitor scores iff it makes five, and otherwise it is your turn with a fresh timer |
| GameView.RequestDraw | client/views/game_view.py:371-378 | a draw is offered only while the game runs |
| GameView.RequestRevenge | client/views/game_view.py:380-387 | a rematch is asked only after the game ended |
| GameView.MovesAgree | client/views/game_view.py:183-237 | the mover and the receiver of a move agree on whether it wins, and their boards stay mirrored |
| FixedGameView.Open | caro-python/client/views/game_view.py:17-52 | the view opens on an empty 15 by 15 board, the host moving first |
| FixedGameView.CheckWin | caro-python/client/views/game_view.py:214-239 | the move wins iff a line through it holds five of the player's stones |
| FixedGameView.OnWin | caro-python/client/views/game_view.py:248-255 | the game ends, your score grows by one and `win` is sent |
| FixedGameView.OnLose | caro-python/client/views/game_view.py:257-263 | the game ends and the competitor's score grows by one |
| FixedGameView.OnDraw | caro-python/client/views/game_view.py:265-269 | the game ends with no score change |
| FixedGameView.MakeMove | caro-python/client/views/game_view.py:158-192 | a legal move is placed and sent, and the game ends iff it makes five or fills the board |
| FixedGameView.OnCompetitorMove | caro-python/client/views/game_view.py:194-212 | the competitor's move is placed, raises iff out of range, and ends the game iff it makes five or fills the board |
| FixedGameView.AsNetworkedWithoutDialogs | caro-python/client/views/game_view.py:158-212 | this version behaves like the other networked view when every dialog is declined |
| AiPlayer.MaxDepth | client/ai_player.py:21 | depths 0, 1 and 2 for easy, medium and hard; any other level raises |
| AiPlayer.NewAi | client/ai_player.py:12-23 | the computer player is created iff the difficulty is known |
| AiPlayer.CheckWinnerHasFive | client/ai_player.py:222-248 | `check_winner` holds iff five in a row of the symbol lie on the board |
| AiPlayer.EvaluateLine | client/ai_player.py:188-220 | a window holding both symbols scores 0; a positive score means only the computer's stones, a negative one only the player's |
| AiPlayer.EvaluateLineAntisymmetric | client/ai_player.py:188-220 | swapping the symbols negates a window's score |
| AiPlayer.EvaluateBoardMirror | client/ai_player.py:157-186 | swapping the symbols negates the board's score |
| AiPlayer.FindWinningMove | client/ai_player.py:74-84 | returns the first empty cell, in row-major order, that gives the symbol five; none iff no such cell |
| AiPlayer.EmptyCells | client/ai_player.py:32-42 | exactly the empty cells, each once |
| AiPlayer.RandomMove | client/ai_player.py:32-42 | some empty cell, and none iff the board is full |
| AiPlayer.Candidates | client/ai_player.py:86-117 | exactly the empty cells within one step (in any of the eight directions) of a stone, each once, as the members of a set |
| AiPlayer.SortByDistance | client/ai_player.py:109-115 | the candidates reordered by distance from the centre |
| AiPlayer.SmartMoves | client/ai_player.py:86-117 | the centre on an empty board; otherwise at most 15 candidates; with more than 15, exactly the 15 nearest the centre, nearest first; with 15 or fewer, all of them, unsorted |
| AiPlayer.Minimax | client/ai_player.py:119-155 | a won board scores 1000 less the depth, a lost one -1000 plus the depth, a leaf the evaluation; otherwise the best child value for the side to move |
| AiPlayer.FirstBest | client/ai_player.py:60-72 | the first index with the highest score |
| AiPlayer.GetBestMove | client/ai_player.py:44-72 | the first winning cell, else the first cell that blocks the player, else the first candidate with the best minimax score |
| AiPlayer.GetMove | client/ai_player.py:25-30 | easy plays a random empty cell; medium and hard play the best move |
| AiPlayer.GetMoveAsWritten | client/ai_player.py:25-42 | as written, every move raises |
| AiPlayer.BoardFullAgrees | client/ai_player.py:250-256 | the computer's full-board test agrees with the view's |
| AiGameView.DifficultyName | client/views/game_ai_view.py:52-55 | the Vietnamese label for each difficulty, "medium" for anything unknown |
| AiGameView.Open | client/views/game_ai_view.py:21-33 | the view opens on an empty board with you to move, and raises iff the difficulty is unknown |
| AiGameView.NewGame | client/views/game_ai_view.py:337-348 | a new game clears the board and gives you the move, scores kept |
| AiGameView.OnWin | client/views/game_ai_view.py:300-311 | your score grows by one |
| AiGameView.OnLose | client/views/game_ai_view.py:313-324 | the computer's score grows by one |
| AiGameView.OnDraw | client/views/game_ai_view.py:326-335 | neither score changes |
| AiGameView.CheckWin | client/views/game_ai_view.py:215-281 | the move wins iff a line through it holds five of the symbol |
| AiGameView.MakeMove | client/views/game_ai_view.py:153-186 | a refused move changes nothing; otherwise you score iff it makes five, and otherwise it is the computer's turn |
| AiGameView.AiMakeMove | client/views/game_ai_view.py:188-213 | the computer's move raises iff the engine raises or the cell is out of range; it scores iff it makes five, and otherwise it is your turn |
| AiGameView.AiTurn | client/views/game_ai_view.py:188-213 | with the corrected engine, medium and hard take a win when one exists and otherwise block the player |
| AiGameView.TakenWinWins | client/views/game_ai_view.py:194-203 | a winning cell taken by the computer is a win by the view's own test |
| AiGameView.BlockDoesNotWin | client/views/game_ai_view.py:194-213 | without a winning cell, the computer's move does not win |
| AiGameView.ChangeDifficulty | client/views/game_ai_view.py:364-369 | a new difficulty starts a new game with a new engine; an unknown one raises |
| AiGameView.ChangeDifficultyKeepsSize | client/views/game_ai_view.py:364-369 | on a window of the default size 15, a new level gives a new game whose engine scans exactly the window's board, so the computer's turn applies again |
| AiGameView.AiTurnAsWritten | client/views/game_ai_view.py:188-194 | as written, every computer turn raises |
| AiGameView.AsWrittenStalls | client/views/game_ai_view.py:153-194 | after an ordinary move the computer never replies, and no further move is accepted |
| AiGameView.AsWrittenStallsAtOpening | client/views/game_ai_view.py:21-194 | from the opening position any first move of yours leaves the game stuck |
| RegisterView.Register | client/views/register_view.py:90-116 | the first failing check, in order (empty field, short username, short password, mismatch), is reported; otherwise the stripped fields are sent |
| RegisterView.RegisterRoundTrip | client/views/register_view.py:90-116 | the server reads back exactly the stripped fields and the avatar |

## Left out

- **Sockets, threads and timing.**
  - Sockets, `recv`, threads, the message `Queue` and the 0.1 s sleep of the queue thread are left out. A connection is a sequence of received chunks, and the client queue is a sequence of messages. Interleaving between threads is not modelled.
  - A failed `sendall` that closes the connection is left out: a write to an open connection always succeeds.
  - Wall-clock scheduling (`after(1000, …)`, `after(200, …)`) is left out: one tick is one call.
- **tkinter widgets and dialogs.** Button colours, labels and message boxes are left out. A yes/no dialog is a parameter.
- **MySQL plumbing.** Connections, cursors and SQL text are left out. The tables are sequences and sets. A database error raised after a successful connect is the store's `failing` flag; each call catches it and answers "nothing found" or changes nothing.
- **The admin console and `print`.** These are output only.
- **The user store on a failing database.** VerifyUser, GetRankList and GetListFriend return their "nothing found" value when the store fails. The logged message is not modelled.
- **Randomness.** `random.choice` is the `pick` parameter of AiPlayer.RandomMove.
- **The spare constructor size.** `INITIAL_BOARD_SIZE` of the client constants is not part of this model. The board size is a parameter; only the fixed networked view uses 15.
- **`send_chat` and the other socket_handle senders.** They only call `write` with a fixed command. They are covered by SocketHandle.Send and the server-side decoders.
- **The client's reactions to server replies.** The views that pop up windows on `room-list`, `friend-list` and similar replies are not modelled. SocketHandle stops at the view call it decodes.
- **The Python `int()` rules.** Non-ASCII Unicode digits are not accepted by Text.ParseInt. Only ASCII digits with single underscores, an optional sign and surrounding white space are.
- **UTF-8 decoding of each received chunk.** Both ends decode every `recv(4096)` on its own (server/server_thread.py:91, client/socket_handle.py:67). A chunk that ends inside a multi-byte character raises UnicodeDecodeError, which ends the server's loop and closes the connection, and ends the client's receive loop. The model's chunks are text already decoded, so it assumes every chunk boundary falls between characters.
- ServerThread.Serve: stops exactly when a handler raised only under that assumption. A chunk split inside a character also stops it, and this exit is not modelled.
- ServerThread.ChunkingIrrelevant: holds for chunkings at character boundaries only. Splitting the bytes of one character between two reads closes the connection instead.
- SocketHandle.ReceiveConcat: holds for chunkings at character boundaries only. A split character ends the client's receive loop.
- SocketHandle.WritesReceived: holds for chunkings of the framed text at character boundaries only, for the same reason.
- **Tie order in the rank chart.** SQL leaves ties unordered; UserDao.GetRankList keeps accounts with equal wins in id order.
- AiPlayer.Minimax: alpha-beta pruning is not modelled. Plain minimax returns the same value at the root, and that value is what the contract states.
- AiPlayer.SmartMoves: the candidate set of `get_smart_moves` is iterated in row-major order. Python's set order is an implementation detail.
- AiGameView.MakeMove: for a move that fills the board without five, only the computer's score is stated unchanged. The message boxes shown for refused moves are not modelled.
- GameView.MakeMove: the follow-up messages after `win` are stated only as drawn from `new-game` and `leave-room`.
- ServerThread.Announce: states only that the state is unchanged and that an empty host seat raises. The two lines it sends are those of ServerThread.GoToPartnerRoom and ServerThread.GoToOwnRoom.
- ServerThread.Dispatch: states consistency and the raise/close link only. Each command's effect is stated on its own handler.
- Bus.Broadcast: states that every other thread receives the message. It does not state "exactly once" for lists with repeated threads; the server's own list never repeats a thread.
- AiGameView.AiTurn: requires the engine's board size to equal the window's. `select_difficulty` rebuilds the engine as `AIPlayer(level)` at its default size 15, so after a difficulty change the turn is stated only for a window of size 15 (AiGameView.ChangeDifficultyKeepsSize). On another size the engine's scans run over 15 rows and columns: a smaller board raises IndexError unless an early return comes first, and a larger one is searched only in its top-left 15 by 15 corner. Neither case is modelled.
- AiGameView.ChangeDifficulty: the new engine's size is stated (15), but what a later computer turn does on a window of another size is not; see the line above.
- UserDao.FindCredentials: compares username and password with exact string equality. MySQL's `=` uses the column collation, and the schema sets none, so the server's default (case-insensitive, trailing spaces ignored) applies: ("ALICE", "secret ") can match a stored ("alice", "Secret"). The model assumes a case-sensitive binary collation.
- UserDao.VerifyUser: under that same assumption a login succeeds only with the exact stored username and password, and the returned username equals the one typed; with the default collation a case or trailing-space variant also logs in and the stored username comes back.
- UserDao.CheckDuplicated: reports only an exactly equal username; with the default collation a case or trailing-space variant also counts as taken.
- UserDao.AddUser: refuses only an exactly equal username; with the default collation the UNIQUE key also refuses a case or trailing-space variant, which the model would add as a second account.
- UserDao.VerifyUser (and every other UserDao member, Rooms.SetUsersToPlaying, Rooms.SetUsersToNotPlaying, Rooms.IncreaseNumberOfGame, Rooms.IncreaseWin, Rooms.IncreaseDraw and ServerThread.ClientVerify): only errors after a successful connect are modelled. When `UserDAO()` cannot connect (caro-python/server/user_dao.py:22-28) its connection is `None`, and each call then raises AttributeError at `self.connection.cursor()`, which `except Error` does not catch. Every ServerThread (server/server_thread.py:31) and every Room (server/room.py:23) builds its own store. So with the database unreachable, `client-verify` raises and the client is disconnected, where the model answers `wrong-user` and keeps the connection. Likewise `start-game` in a room whose store did not connect raises inside `set_users_to_playing` before `start-game,` is sent, and the sender is disconnected, where the model broadcasts it. The model has one shared store, not a connected flag per thread and per room.
- AiGameView.AiTurn: states nothing about the easy level beyond not raising on a non-empty board. Its random cell is described by AiPlayer.RandomMove.

## Findings

| source | as written | input that shows it | evidently intended | confidence | as-written member | corrected member |
|---|---|---|---|---|---|---|
| client/ai_player.py:35 | `self.self.board_size` in every board scan (lines 35-36, 76-77, 92-93, 163-170, 225-232, 252-253) raises AttributeError, so `get_move` raises at every difficulty | any ordinary first move of yours, e.g. (7, 7) on a 15 by 15 board: the computer never replies, the turn stays with it, and later clicks are refused | `self.board_size` | high, not executed | AiPlayer.GetMoveAsWritten, shown by AiGameView.AsWrittenStallsAtOpening | AiPlayer.GetMove, used by AiGameView.AiTurn |

Behaviour the model keeps as the program has it, although a reader might expect otherwise:
- **create-room does not check login.** The room's host seat may belong to a connection with no account. Joining such a room raises in the joiner's thread.
- **Closing a connection keeps its room listed.** `close` unseats the client but does not remove the room from the bus; only `leave-room` does.
- **get_competitor falls back to the first seat.** A client that is not in the first seat, even one not seated at all, gets the first seat as its competitor.

=== FILE: ai_game_view.dfy ===
/** The window for a game against the computer. The player (1, X) always
    opens; after each accepted move the computer (2, O) answers. Nothing
    goes over the network. A finished game asks whether to play again:
    yes starts a fresh board and keeps the score, no returns to the home
    screen. */
module AiGameView {
  import opened Wrappers
  import opened Board
  import AiPlayer
  import GameView

  /** The computer's mark. */
  const AiMark: int := AiPlayer.AiSymbol

  /** The board size the constructor of the computer player falls back to
      when none is given. */
  const DefaultAiSize: nat := 15

  datatype Game = Game(difficulty: string, size: nat, ai: AiPlayer.Ai, myTurn: bool, board: Grid,
                       gameOver: bool, myScore: nat, aiScore: nat, atHome: bool)

  /** `get_difficulty_name`: the Vietnamese label of a difficulty, medium
      for anything unknown. */
  function DifficultyName(difficulty: string): (name: string)
    ensures difficulty == "easy" <==> name == "D\U{1EC5}"
    ensures difficulty == "hard" <==> name == "Kh\U{00F3}"
    ensures difficulty !in {"easy", "hard"} <==> name == "Trung b\U{00EC}nh"
  {
    if difficulty == "easy" then "D\U{1EC5}"
    else if difficulty == "hard" then "Kh\U{00F3}"
    else "Trung b\U{00EC}nh"
  }

  /** The window as it opens. The computer player is built first, so an
      unknown difficulty raises there; the label's fallback to medium is
      never reached from here. */
  function Open(difficulty: string, size: nat): (r: Result<Game>)
    ensures r.Raised? <==> difficulty !in {"easy", "medium", "hard"}
    ensures r.Ok? ==> var g := r.value;
              && g.board == EmptyGrid(size) && g.myTurn && !g.gameOver && !g.atHome
              && g.myScore == 0 && g.aiScore == 0 && g.size == size
              && g.ai == AiPlayer.Ai(difficulty, size, AiPlayer.MaxDepth(difficulty).value)
  {
    match AiPlayer.NewAi(difficulty, size)
    case Ok(ai) => Ok(Game(difficulty, size, ai, true, EmptyGrid(size), false, 0, 0, false))
    case Raised => Raised
  }

  /** `new_game`: a fresh board with the player to move; score and
      difficulty stay. */
  function NewGame(g: Game): (r: Game)
    ensures r.board == EmptyGrid(g.size) && r.myTurn && !r.gameOver
    ensures r.myScore == g.myScore && r.aiScore == g.aiScore && r.ai == g.ai && r.size == g.size
    ensures r.(board := g.board, myTurn := g.myTurn, gameOver := g.gameOver) == g
  {
    g.(board := EmptyGrid(g.size), myTurn := true, gameOver := false)
  }

  /** `go_home`: the window is hidden; the game is left as it stands. */
  function GoHome(g: Game): (r: Game)
    ensures r.atHome && r.(atHome := g.atHome) == g
  {
    g.(atHome := true)
  }

  /** The play-again dialog at the end of every game. */
  function AfterGame(g: Game, again: bool): (r: Game)
    ensures again ==> r == NewGame(g)
    ensures !again ==> r == GoHome(g)
  {
    if again then NewGame(g) else GoHome(g)
  }

  /** `on_win`: the player's point, then the dialog. */
  function OnWin(g: Game, again: bool): (r: Game)
    ensures r.myScore == g.myScore + 1 && r.aiScore == g.aiScore
    ensures !again ==> r.gameOver && r.atHome && r.board == g.board
    ensures again ==> !r.gameOver && r.myTurn && r.board == EmptyGrid(g.size)
  {
    AfterGame(g.(gameOver := true, myScore := g.myScore + 1), again)
  }

  /** `on_lose`: the computer's point, then the dialog. */
  function OnLose(g: Game, again: bool): (r: Game)
    ensures r.aiScore == g.aiScore + 1 && r.myScore == g.myScore
    ensures !again ==> r.gameOver && r.atHome && r.board == g.board
    ensures again ==> !r.gameOver && r.myTurn && r.board == EmptyGrid(g.size)
  {
    AfterGame(g.(gameOver := true, aiScore := g.aiScore + 1), again)
  }

  /** `on_draw`: no point to anyone, then the dialog. */
  function OnDraw(g: Game, again: bool): (r: Game)
    ensures r.myScore == g.myScore && r.aiScore == g.aiScore
    ensures !again ==> r.gameOver && r.atHome && r.board == g.board
    ensures again ==> !r.gameOver && r.myTurn && r.board == EmptyGrid(g.size)
  {
    AfterGame(g.(gameOver := true), again)
  }

  /** One block of this window's `check_win`: the cell, a walk backward
      and a walk forward along the k-th direction. Each walk tests only the
      coordinates that move against the board edge; the fixed one is the
      move's own and is on the board, so every walk is the full in-board
      run. The two walks read the board only, so their order (`check_win`
      walks backward first) does not matter. */
  method Line(b: Grid, n: nat, x: int, y: int, k: nat, symbol: int) returns (count: nat)
    requires Square(b, n) && k < |Directions|
    ensures count == Count(b, n, x, y, Directions[k], symbol)
  {
    var d := Directions[k];
    var ahead := Walk(b, n, x + d.di, y + d.dj, d, symbol);
    var back := Walk(b, n, x - d.di, y - d.dj, Reverse(d), symbol);
    count := 1 + ahead + back;
    assert count == Count(b, n, x, y, d, symbol);
  }

  /** `check_win` of this window: the horizontal, vertical, diagonal and
      anti-diagonal blocks written out in turn, stopping at the first that
      reaches five. */
  method CheckWin(b: Grid, n: nat, x: int, y: int, symbol: int) returns (won: bool)
    requires Square(b, n) && InBounds(n, x, y)
    ensures won <==> WinsAt(b, n, x, y, symbol)
  {
    WinsAtCases(b, n, x, y, symbol);
    var horizontal := Line(b, n, x, y, 0, symbol);
    if horizontal >= WinCondition {
      return true;
    }
    var vertical := Line(b, n, x, y, 1, symbol);
    if vertical >= WinCondition {
      return true;
    }
    var diagonal := Line(b, n, x, y, 2, symbol);
    if diagonal >= WinCondition {
      return true;
    }
    var antiDiagonal := Line(b, n, x, y, 3, symbol);
    won := antiDiagonal >= WinCondition;
  }

  /** The guards of `make_move`. */
  predicate MayMove(g: Game, x: nat, y: nat)
    requires Square(g.board, g.size) && InBounds(g.size, x, y)
  {
    !g.gameOver && g.myTurn && g.board[x][y] == Blank
  }

  /** `make_move`: a refused move changes nothing. An accepted one marks
      the cell 1; a win or a full board ends the game (then the dialog);
      otherwise the turn passes to the computer, whose answer is scheduled
      and modelled by `AiMakeMove`. */
  function MakeMove(g: Game, x: nat, y: nat, again: bool): (r: Game)
    requires Square(g.board, g.size) && InBounds(g.size, x, y)
    ensures !MayMove(g, x, y) ==> r == g
    ensures MayMove(g, x, y) ==>
              var b := Place(g.board, g.size, x, y, Me);
              && (WinsAt(b, g.size, x, y, Me) <==> r.myScore == g.myScore + 1)
              && r.aiScore == g.aiScore
              && (!WinsAt(b, g.size, x, y, Me) && !IsBoardFull(b) ==> r == g.(board := b, myTurn := false))
    ensures Square(r.board, r.size) && r.size == g.size && r.ai == g.ai
  {
    if !MayMove(g, x, y) then g
    else
      var b := Place(g.board, g.size, x, y, Me);
      var moved := g.(board := b);
      if WinsAt(b, g.size, x, y, Me) then OnWin(moved, again)
      else if IsBoardFull(b) then OnDraw(moved, again)
      else moved.(myTurn := false)
  }

  /** `ai_make_move` given what `get_move` produced (a move, no move, or an
      exception). Nothing happens once the game is over or when there is no
      move. The cell, indexed as Python does, becomes 2 without a check of
      what it held; the win test runs at the coordinates as returned; unless
      the computer wins or fills the board the turn comes back to the
      player. An exception leaves the game as it was. */
  function AiMakeMove(g: Game, move: Result<Option<AiPlayer.Cell>>, again: bool): (r: Result<Game>)
    requires Square(g.board, g.size)
    ensures g.gameOver ==> r == Ok(g)
    ensures !g.gameOver ==>
              (r.Raised? <==> move.Raised?
                              || (move.Ok? && move.value.Some?
                                  && (GameView.PyIndex(g.size, move.value.value.row).None?
                                      || GameView.PyIndex(g.size, move.value.value.col).None?)))
    ensures !g.gameOver && move == Ok(None) ==> r == Ok(g)
    ensures !g.gameOver && move.Ok? && move.value.Some? && InBounds(g.size, move.value.value.row, move.value.value.col) ==>
              var c := move.value.value;
              var b := Place(g.board, g.size, c.row, c.col, AiMark);
              && r.Ok?
              && (WinsAt(b, g.size, c.row, c.col, AiMark) <==> r.value.aiScore == g.aiScore + 1)
              && r.value.myScore == g.myScore
              && (!WinsAt(b, g.size, c.row, c.col, AiMark) && !IsBoardFull(b) ==> r.value == g.(board := b, myTurn := true))
    ensures r.Ok? ==> Square(r.value.board, r.value.size) && r.value.size == g.size && r.value.ai == g.ai
  {
    if g.gameOver then Ok(g)
    else match move
      case Raised => Raised
      case Ok(None) => Ok(g)
      case Ok(Some(c)) =>
        match (GameView.PyIndex(g.size, c.row), GameView.PyIndex(g.size, c.col))
        case (Some(i), Some(j)) =>
          var b := Place(g.board, g.size, i, j, AiMark);
          var moved := g.(board := b);
          if WinsAt(b, g.size, c.row, c.col, AiMark) then Ok(OnLose(moved, again))
          else if IsBoardFull(b) then Ok(OnDraw(moved, again))
          else Ok(moved.(myTurn := true))
        case _ => Raised
  }

  /** The computer's turn with the corrected computer player: its move is
      chosen on the current board (`pick` stands for the random choice on
      easy) and played. On a non-empty board of the window's size it never
      raises; it never misses an immediate win; and when it has none but
      the player has, it takes the player's first winning cell. */
  method AiTurn(g: Game, pick: nat, again: bool) returns (r: Result<Game>)
    requires Square(g.board, g.size) && g.ai.size == g.size
    ensures g.gameOver ==> r == Ok(g)
    ensures g.size >= 1 ==> r.Ok?
    ensures !g.gameOver && g.ai.difficulty != "easy" && !AiPlayer.CheckWinner(g.board, g.size, AiMark)
            && !AiPlayer.NoWinningCell(g.board, g.size, AiMark)
            ==> r.Ok? && r.value.aiScore == g.aiScore + 1
    ensures !g.gameOver && g.ai.difficulty != "easy" && AiPlayer.NoWinningCell(g.board, g.size, AiMark)
            ==> forall c :: AiPlayer.FirstWinningCell(g.board, g.size, AiPlayer.PlayerSymbol, c)
                            && !IsBoardFull(Place(g.board, g.size, c.row, c.col, AiMark))
                            ==> r == Ok(g.(board := Place(g.board, g.size, c.row, c.col, AiMark), myTurn := true))
  {
    if g.gameOver {
      return Ok(g);
    }
    var move := AiPlayer.GetMove(g.ai, g.board, g.size, pick);
    r := AiMakeMove(g, Ok(move), again);
    if g.ai.difficulty != "easy" && !AiPlayer.CheckWinner(g.board, g.size, AiMark)
       && !AiPlayer.NoWinningCell(g.board, g.size, AiMark) {
      TakenWinWins(g.board, g.size, move.value);
    }
    if g.ai.difficulty != "easy" && AiPlayer.NoWinningCell(g.board, g.size, AiMark) {
      forall c | AiPlayer.FirstWinningCell(g.board, g.size, AiPlayer.PlayerSymbol, c)
                 && !IsBoardFull(Place(g.board, g.size, c.row, c.col, AiMark))
        ensures r == Ok(g.(board := Place(g.board, g.size, c.row, c.col, AiMark), myTurn := true))
      {
        FirstWinningCellUnique(g.board, g.size, AiPlayer.PlayerSymbol, c, move.value);
        BlockDoesNotWin(g.board, g.size, c);
      }
    }
  }

  /** A cell that completes five for the computer, on a board where it had
      none, wins at that cell in the window's own test. */
  lemma TakenWinWins(b: Grid, n: nat, c: AiPlayer.Cell)
    requires Square(b, n) && !AiPlayer.CheckWinner(b, n, AiMark)
    requires AiPlayer.WinningCell(b, n, c.row, c.col, AiMark)
    ensures WinsAt(Place(b, n, c.row, c.col, AiMark), n, c.row, c.col, AiMark)
  {
    AiPlayer.CheckWinnerHasFive(b, n, AiMark);
    AiPlayer.CheckWinnerHasFive(Place(b, n, c.row, c.col, AiMark), n, AiMark);
    NewFiveAtMove(b, n, c.row, c.col, AiMark);
  }

  /** Where the computer has no winning cell, its mark on an empty cell
      wins nowhere: in particular not at that cell. */
  lemma BlockDoesNotWin(b: Grid, n: nat, c: AiPlayer.Cell)
    requires Square(b, n) && InBounds(n, c.row, c.col) && b[c.row][c.col] == Blank
    requires AiPlayer.NoWinningCell(b, n, AiMark)
    ensures !WinsAt(Place(b, n, c.row, c.col, AiMark), n, c.row, c.col, AiMark)
  {
    var q := Place(b, n, c.row, c.col, AiMark);
    assert !AiPlayer.WinningCell(b, n, c.row, c.col, AiMark);
    AiPlayer.CheckWinnerHasFive(q, n, AiMark);
    if WinsAt(q, n, c.row, c.col, AiMark) {
      WinsAtHasFive(q, n, c.row, c.col, AiMark);
    }
  }

  /** There is only one first winning cell. */
  lemma FirstWinningCellUnique(b: Grid, n: nat, s: int, c: AiPlayer.Cell, e: AiPlayer.Cell)
    requires Square(b, n)
    requires AiPlayer.FirstWinningCell(b, n, s, c) && AiPlayer.FirstWinningCell(b, n, s, e)
    ensures c == e
  {
  }

  /** `select_difficulty`: a new computer player for the level, built with
      its default board size, and a new game; the score stays. */
  function ChangeDifficulty(g: Game, level: string): (r: Result<Game>)
    ensures r.Raised? <==> level !in {"easy", "medium", "hard"}
    ensures r.Ok? ==> r.value == NewGame(g.(difficulty := level,
                                            ai := AiPlayer.Ai(level, DefaultAiSize, AiPlayer.MaxDepth(level).value)))
  {
    match AiPlayer.NewAi(level, DefaultAiSize)
    case Ok(ai) => Ok(NewGame(g.(difficulty := level, ai := ai)))
    case Raised => Raised
  }

  /** On a window of the default size, a new difficulty leaves a game the
      computer can take its turn in: the new engine scans the whole board. */
  lemma ChangeDifficultyKeepsSize(g: Game, level: string)
    requires Square(g.board, g.size) && g.size == DefaultAiSize
    requires level in {"easy", "medium", "hard"}
    ensures var r := ChangeDifficulty(g, level);
            && r.Ok? && Square(r.value.board, r.value.size) && r.value.ai.size == r.value.size
            && r.value.ai.difficulty == level && r.value.myTurn && !r.value.gameOver
  {
  }

  /** The computer's turn as the program has it: `get_move` always raises,
      so the callback dies and the game stays as it was. */
  function AiTurnAsWritten(g: Game, pick: nat, again: bool): (r: Result<Game>)
    requires Square(g.board, g.size)
    ensures !g.gameOver ==> r.Raised?
  {
    AiMakeMove(g, if g.gameOver then Ok(None) else AiPlayer.GetMoveAsWritten(g.ai, g.board, g.size, pick), again)
  }

  /** With the program's computer player a game cannot go on past the
      player's first move that does not end it: the computer's turn raises,
      the turn is never handed back, and every later move is refused. */
  lemma AsWrittenStalls(g: Game, x: nat, y: nat, again: bool, pick: nat, x2: nat, y2: nat, again2: bool)
    requires Square(g.board, g.size) && InBounds(g.size, x, y) && InBounds(g.size, x2, y2)
    requires MayMove(g, x, y)
    requires var b := Place(g.board, g.size, x, y, Me);
             !WinsAt(b, g.size, x, y, Me) && !IsBoardFull(b)
    ensures var h := MakeMove(g, x, y, again);
            && AiTurnAsWritten(h, pick, again).Raised?
            && MakeMove(h, x2, y2, again2) == h
  {
  }

  /** A single mark on an empty board makes no line. */
  lemma OneMarkNoFive(n: nat, x: nat, y: nat, p: int)
    requires InBounds(n, x, y) && p != Blank
    ensures !WinsAt(Place(EmptyGrid(n), n, x, y, p), n, x, y, p)
  {
    var b := Place(EmptyGrid(n), n, x, y, p);
    forall k | 0 <= k < |Directions|
      ensures Count(b, n, x, y, Directions[k], p) < WinCondition
    {
      var d := Directions[k];
      assert !Owns(b, n, x + d.di, y + d.dj, p);
      assert !Owns(b, n, x - d.di, y - d.dj, p);
    }
  }

  /** Every opening move on a new board of size two or more stalls the game
      as above. */
  lemma AsWrittenStallsAtOpening(difficulty: string, n: nat, x: nat, y: nat, again: bool, pick: nat)
    requires difficulty in {"easy", "medium", "hard"} && n >= 2 && InBounds(n, x, y)
    ensures var h := MakeMove(Open(difficulty, n).value, x, y, again);
            && !h.myTurn && !h.gameOver
            && AiTurnAsWritten(h, pick, again).Raised?
  {
    var g := Open(difficulty, n).value;
    var b := Place(g.board, n, x, y, Me);
    OneMarkNoFive(n, x, y, Me);
    var other := if x == 0 then 1 else 0;
    assert b[other][y] == Blank;
  }
}

=== FILE: ai_player.dfy ===
/** The computer opponent: it plays 2 (O) against the player's 1 (X). It
    takes an immediate win, else blocks the player's immediate win, else
    searches the cells next to the pieces already on the board. */
module AiPlayer {
  import opened Wrappers
  import opened Board

  const AiSymbol: int := Opponent
  const PlayerSymbol: int := Me

  /** At most this many candidate cells are searched. */
  const MaxCandidates: nat := 15

  /** The search depth of each difficulty. The constructor looks the key up in
      a literal dict, so any other difficulty raises. */
  function MaxDepth(difficulty: string): (r: Result<nat>)
    ensures difficulty == "easy" <==> r == Ok(0)
    ensures difficulty == "medium" <==> r == Ok(1)
    ensures difficulty == "hard" <==> r == Ok(2)
    ensures r.Raised? <==> difficulty !in {"easy", "medium", "hard"}
  {
    if difficulty == "easy" then Ok(0)
    else if difficulty == "medium" then Ok(1)
    else if difficulty == "hard" then Ok(2)
    else Raised
  }

  datatype Ai = Ai(difficulty: string, size: nat, maxDepth: nat)

  /** `AIPlayer(difficulty, board_size)`. */
  function NewAi(difficulty: string, size: nat): (r: Result<Ai>)
    ensures r.Ok? <==> MaxDepth(difficulty).Ok?
    ensures r.Ok? ==> r.value == Ai(difficulty, size, MaxDepth(difficulty).value)
  {
    match MaxDepth(difficulty)
    case Ok(depth) => Ok(Ai(difficulty, size, depth))
    case Raised => Raised
  }

  /** `check_winner`: the four scans of the program, each over the start
      cells whose five-cell window fits on the board. */
  predicate CheckWinner(b: Grid, n: nat, s: int)
  {
    (exists i, j :: 0 <= i < n && 0 <= j < n - WinCondition + 1 && Window(b, n, i, j, Dir(0, 1), s))
    || (exists i, j :: 0 <= i < n - WinCondition + 1 && 0 <= j < n && Window(b, n, i, j, Dir(1, 0), s))
    || (exists i, j :: 0 <= i < n - WinCondition + 1 && 0 <= j < n - WinCondition + 1
                       && Window(b, n, i, j, Dir(1, 1), s))
    || (exists i, j :: 0 <= i < n - WinCondition + 1 && WinCondition - 1 <= j < n
                       && Window(b, n, i, j, Dir(1, -1), s))
  }

  /** The scan ranges are exactly the windows that fit: `check_winner`
      holds iff `s` has five in a row somewhere. */
  lemma CheckWinnerHasFive(b: Grid, n: nat, s: int)
    ensures CheckWinner(b, n, s) <==> HasFive(b, n, s)
  {
    if HasFive(b, n, s) {
      var i, j, k :| 0 <= i < n && 0 <= j < n && 0 <= k < |Directions| && Window(b, n, i, j, Directions[k], s);
      var d := Directions[k];
      assert Owns(b, n, Along(i, d.di, WinCondition - 1), Along(j, d.dj, WinCondition - 1), s);
    }
    if CheckWinner(b, n, s) {
      if i, j :| 0 <= i < n && 0 <= j < n - WinCondition + 1 && Window(b, n, i, j, Dir(0, 1), s) {
        assert Window(b, n, i, j, Directions[0], s);
      } else if i, j :| 0 <= i < n - WinCondition + 1 && 0 <= j < n && Window(b, n, i, j, Dir(1, 0), s) {
        assert Window(b, n, i, j, Directions[1], s);
      } else if i, j :| 0 <= i < n - WinCondition + 1 && 0 <= j < n - WinCondition + 1
                       && Window(b, n, i, j, Dir(1, 1), s) {
        assert Window(b, n, i, j, Directions[2], s);
      } else {
        var i, j :| 0 <= i < n - WinCondition + 1 && WinCondition - 1 <= j < n
                    && Window(b, n, i, j, Dir(1, -1), s);
        assert Window(b, n, i, j, Directions[3], s);
      }
    }
  }

  /** `list.count`. */
  function Occurrences(line: seq<int>, v: int): (c: nat)
    ensures c <= |line|
  {
    if |line| == 0 then 0 else (if line[0] == v then 1 else 0) + Occurrences(line[1..], v)
  }

  /** `evaluate_line`: a line holding both marks is worth nothing; a line of
      one mark and blanks is worth 1, 10, 100 or 500 by how many of that mark
      it holds (1 to 4), positive for the AI and negative for the player. */
  function EvaluateLine(line: seq<int>): (score: int)
    ensures score in {0, 1, -1, 10, -10, 100, -100, 500, -500}
    ensures Occurrences(line, AiSymbol) > 0 && Occurrences(line, PlayerSymbol) > 0 ==> score == 0
    ensures score > 0 ==> Occurrences(line, PlayerSymbol) == 0 && Occurrences(line, AiSymbol) > 0
    ensures score < 0 ==> Occurrences(line, AiSymbol) == 0 && Occurrences(line, PlayerSymbol) > 0
  {
    var ai := Occurrences(line, AiSymbol);
    var player := Occurrences(line, PlayerSymbol);
    var empty := Occurrences(line, Blank);
    if ai > 0 && player > 0 then 0
    else if ai > 0 && ai == 4 && empty == 1 then 500
    else if ai > 0 && ai == 3 && empty == 2 then 100
    else if ai > 0 && ai == 2 && empty == 3 then 10
    else if ai > 0 && ai == 1 && empty == 4 then 1
    else if player > 0 && player == 4 && empty == 1 then -500
    else if player > 0 && player == 3 && empty == 2 then -100
    else if player > 0 && player == 2 && empty == 3 then -10
    else if player > 0 && player == 1 && empty == 4 then -1
    else 0
  }

  /** The line seen from the other side: 1 and 2 exchanged. */
  function SwapLine(line: seq<int>): (r: seq<int>)
    ensures |r| == |line| && forall k :: 0 <= k < |line| ==> r[k] == Swap(line[k])
  {
    seq(|line|, k requires 0 <= k < |line| => Swap(line[k]))
  }

  lemma {:induction false} OccurrencesSwap(line: seq<int>, v: int)
    ensures Occurrences(SwapLine(line), Swap(v)) == Occurrences(line, v)
    decreases |line|
  {
    if |line| > 0 {
      assert SwapLine(line)[1..] == SwapLine(line[1..]);
      OccurrencesSwap(line[1..], v);
    }
  }

  /** Exchanging the two marks negates a line's value. */
  lemma EvaluateLineAntisymmetric(line: seq<int>)
    ensures EvaluateLine(SwapLine(line)) == -EvaluateLine(line)
  {
    OccurrencesSwap(line, AiSymbol);
    OccurrencesSwap(line, PlayerSymbol);
    OccurrencesSwap(line, Blank);
  }

  /** The cell (i, j), or a blank off the board; the scans below only read
      cells on the board. */
  function At(b: Grid, i: int, j: int): int
  {
    if 0 <= i < |b| && 0 <= j < |b[i]| then b[i][j] else Blank
  }

  /** The five cells from (i, j) along d. */
  function LineAt(b: Grid, i: int, j: int, d: Step): (line: seq<int>)
    ensures |line| == WinCondition
  {
    seq(WinCondition, t => At(b, Along(i, d.di, t), Along(j, d.dj, t)))
  }

  /** The values of the windows along d starting at (i, j), (i, j+1), ...,
      (i, hi-1). */
  function SumCols(b: Grid, d: Step, i: int, j: int, hi: int): int
    decreases hi - j
  {
    if j >= hi then 0 else EvaluateLine(LineAt(b, i, j, d)) + SumCols(b, d, i, j + 1, hi)
  }

  /** The values of the windows along d over the start rows lo..hi-1 and
      start columns jlo..jhi-1. */
  function SumRows(b: Grid, d: Step, lo: int, hi: int, jlo: int, jhi: int): int
    decreases hi - lo
  {
    if lo >= hi then 0 else SumCols(b, d, lo, jlo, jhi) + SumRows(b, d, lo + 1, hi, jlo, jhi)
  }

  /** `evaluate_board`: the sum of `evaluate_line` over every five-cell
      window of a row, a column, a diagonal and an anti-diagonal. */
  function EvaluateBoard(b: Grid, n: nat): int
  {
    var last := n - WinCondition + 1;
    SumRows(b, Dir(0, 1), 0, n, 0, last)
    + SumRows(b, Dir(1, 0), 0, last, 0, n)
    + SumRows(b, Dir(1, 1), 0, last, 0, last)
    + SumRows(b, Dir(1, -1), 0, last, WinCondition - 1, n)
  }

  lemma LineAtMirror(a: Grid, c: Grid, n: nat, i: int, j: int, d: Step)
    requires Mirror(a, c, n)
    ensures LineAt(c, i, j, d) == SwapLine(LineAt(a, i, j, d))
  {
    forall t | 0 <= t < WinCondition
      ensures LineAt(c, i, j, d)[t] == SwapLine(LineAt(a, i, j, d))[t]
    {
      var x, y := Along(i, d.di, t), Along(j, d.dj, t);
      assert At(c, x, y) == Swap(At(a, x, y));
    }
  }

  lemma {:induction false} SumColsMirror(a: Grid, c: Grid, n: nat, d: Step, i: int, j: int, hi: int)
    requires Mirror(a, c, n)
    ensures SumCols(c, d, i, j, hi) == -SumCols(a, d, i, j, hi)
    decreases hi - j
  {
    if j < hi {
      LineAtMirror(a, c, n, i, j, d);
      EvaluateLineAntisymmetric(LineAt(a, i, j, d));
      SumColsMirror(a, c, n, d, i, j + 1, hi);
    }
  }

  lemma {:induction false} SumRowsMirror(a: Grid, c: Grid, n: nat, d: Step, lo: int, hi: int, jlo: int, jhi: int)
    requires Mirror(a, c, n)
    ensures SumRows(c, d, lo, hi, jlo, jhi) == -SumRows(a, d, lo, hi, jlo, jhi)
    decreases hi - lo
  {
    if lo < hi {
      SumColsMirror(a, c, n, d, lo, jlo, jhi);
      SumRowsMirror(a, c, n, d, lo + 1, hi, jlo, jhi);
    }
  }

  /** The evaluation is zero-sum: on the mirrored board (every 1 and 2
      exchanged) it is exactly the negation. */
  lemma EvaluateBoardMirror(a: Grid, c: Grid, n: nat)
    requires Mirror(a, c, n)
    ensures EvaluateBoard(c, n) == -EvaluateBoard(a, n)
  {
    var last := n - WinCondition + 1;
    SumRowsMirror(a, c, n, Dir(0, 1), 0, n, 0, last);
    SumRowsMirror(a, c, n, Dir(1, 0), 0, last, 0, n);
    SumRowsMirror(a, c, n, Dir(1, 1), 0, last, 0, last);
    SumRowsMirror(a, c, n, Dir(1, -1), 0, last, WinCondition - 1, n);
  }

  /** A board cell, as the `(i, j)` tuples of the program. */
  datatype Cell = Cell(row: int, col: int)

  /** Row-major order: (a, c) is scanned before (i, j). */
  predicate Before(a: int, c: int, i: int, j: int)
  {
    a < i || (a == i && c < j)
  }

  /** Placing `s` on the empty cell (i, j) gives `s` five in a row. */
  predicate WinningCell(b: Grid, n: nat, i: int, j: int, s: int)
    requires Square(b, n)
  {
    InBounds(n, i, j) && b[i][j] == Blank && CheckWinner(Place(b, n, i, j, s), n, s)
  }

  /** No empty cell would give `s` five in a row. */
  ghost predicate NoWinningCell(b: Grid, n: nat, s: int)
    requires Square(b, n)
  {
    forall a, c :: InBounds(n, a, c) ==> !WinningCell(b, n, a, c, s)
  }

  /** m is the first winning cell for `s` in row-major order. */
  ghost predicate FirstWinningCell(b: Grid, n: nat, s: int, m: Cell)
    requires Square(b, n)
  {
    WinningCell(b, n, m.row, m.col, s)
    && forall a, c :: InBounds(n, a, c) && Before(a, c, m.row, m.col) ==> !WinningCell(b, n, a, c, s)
  }

  /** `find_winning_move`: the first empty cell, in row-major order, where
      `s` would complete five. Each trial is undone, so the board is left
      as it was (here it is a value and cannot change). */
  method FindWinningMove(b: Grid, n: nat, s: int) returns (move: Option<Cell>)
    requires Square(b, n)
    ensures move.Some? ==> FirstWinningCell(b, n, s, move.value)
    ensures move.None? <==> NoWinningCell(b, n, s)
  {
    var i := 0;
    while i < n
      invariant 0 <= i <= n
      invariant forall a, c :: InBounds(n, a, c) && a < i ==> !WinningCell(b, n, a, c, s)
    {
      var j := 0;
      while j < n
        invariant 0 <= j <= n
        invariant forall a, c :: InBounds(n, a, c) && Before(a, c, i, j) ==> !WinningCell(b, n, a, c, s)
      {
        if b[i][j] == Blank && CheckWinner(Place(b, n, i, j, s), n, s) {
          return Some(Cell(i, j));
        }
        j := j + 1;
      }
      i := i + 1;
    }
    return None;
  }

  /** Cell a comes before cell b in row-major order. */
  predicate RowMajorBefore(a: Cell, b: Cell)
  {
    a.row < b.row || (a.row == b.row && a.col < b.col)
  }

  /** Every cell of s appears once. */
  predicate Distinct(s: seq<Cell>)
  {
    forall p, q :: 0 <= p < q < |s| ==> s[p] != s[q]
  }

  /** The cells (i, j), (i, j+1), ... of row i that satisfy `keep`. */
  function ScanRow(n: nat, i: int, j: int, keep: Cell -> bool): (r: seq<Cell>)
    ensures forall m :: m in r <==> m.row == i && j <= m.col < n && keep(m)
    ensures forall p, q :: 0 <= p < q < |r| ==> r[p].col < r[q].col
    decreases n - j
  {
    if j >= n then [] else (if keep(Cell(i, j)) then [Cell(i, j)] else []) + ScanRow(n, i, j + 1, keep)
  }

  /** The cells from row i on that satisfy `keep`, in row-major order (the
      order of the nested `for` loops), each cell once. */
  function Scan(n: nat, i: int, keep: Cell -> bool): (r: seq<Cell>)
    ensures forall m :: m in r <==> i <= m.row < n && 0 <= m.col < n && keep(m)
    ensures forall p, q :: 0 <= p < q < |r| ==> RowMajorBefore(r[p], r[q])
    ensures Distinct(r)
    decreases n - i
  {
    if i >= n then [] else ScanRow(n, i, 0, keep) + Scan(n, i + 1, keep)
  }

  /** The empty cells, as `get_random_move` lists them. */
  function EmptyCells(b: Grid, n: nat): (r: seq<Cell>)
    ensures forall m :: m in r <==> InBounds(n, m.row, m.col) && At(b, m.row, m.col) == Blank
    ensures Distinct(r)
  {
    Scan(n, 0, (m: Cell) => At(b, m.row, m.col) == Blank)
  }

  /** `get_random_move`: one of the empty cells; `pick` stands for the
      random choice. No empty cell, no move. */
  function RandomMove(b: Grid, n: nat, pick: nat): (r: Option<Cell>)
    ensures r.None? <==> forall i, j :: InBounds(n, i, j) ==> At(b, i, j) != Blank
    ensures r.Some? ==> InBounds(n, r.value.row, r.value.col) && At(b, r.value.row, r.value.col) == Blank
  {
    var cells := EmptyCells(b, n);
    if |cells| == 0 then
      assert forall i, j :: InBounds(n, i, j) ==> Cell(i, j) !in cells;
      None
    else
      assert cells[pick % |cells|] in cells;
      Some(cells[pick % |cells|])
  }

  /** Some cell of the board holds a piece. */
  predicate HasPiece(b: Grid, n: nat)
  {
    exists i, j :: 0 <= i < n && 0 <= j < n && At(b, i, j) != Blank
  }

  /** An empty cell within one step (in any of the eight directions) of a
      piece: what `get_smart_moves` collects. */
  predicate Candidate(b: Grid, n: nat, m: Cell)
  {
    InBounds(n, m.row, m.col) && At(b, m.row, m.col) == Blank
    && exists p, q :: m.row - 1 <= p <= m.row + 1 && m.col - 1 <= q <= m.col + 1 && InBounds(n, p, q)
                      && At(b, p, q) != Blank
  }

  /** The candidates, each once, listed in row-major order. `get_smart_moves`
      collects them in a set and lists the set in its own iteration order. */
  function Candidates(b: Grid, n: nat): (r: seq<Cell>)
    ensures forall m :: m in r <==> Candidate(b, n, m)
    ensures Distinct(r)
  {
    Scan(n, 0, (m: Cell) => Candidate(b, n, m))
  }

  function Abs(x: int): nat
  {
    if x < 0 then -x else x
  }

  /** Manhattan distance to the centre cell (c, c). */
  function Distance(m: Cell, c: int): nat
  {
    Abs(m.row - c) + Abs(m.col - c)
  }

  predicate SortedByDistance(s: seq<Cell>, c: int)
  {
    forall p, q :: 0 <= p < q < |s| ==> Distance(s[p], c) <= Distance(s[q], c)
  }

  /** Inserts m after every element no farther from the centre. */
  function Insert(m: Cell, s: seq<Cell>, c: int): (r: seq<Cell>)
    ensures multiset(r) == multiset(s) + multiset{m}
  {
    if |s| == 0 then [m]
    else if Distance(s[0], c) <= Distance(m, c) then
      assert s == [s[0]] + s[1..];
      [s[0]] + Insert(m, s[1..], c)
    else [m] + s
  }

  lemma {:induction false} InsertSorted(m: Cell, s: seq<Cell>, c: int)
    requires SortedByDistance(s, c)
    ensures SortedByDistance(Insert(m, s, c), c)
  {
    if |s| > 0 && Distance(s[0], c) <= Distance(m, c) {
      var rest := Insert(m, s[1..], c);
      InsertSorted(m, s[1..], c);
      forall x | x in rest ensures Distance(s[0], c) <= Distance(x, c) {
        assert x in multiset(rest);
        assert x in multiset(s[1..]) || x == m;
      }
    }
  }

  /** `sort(key=distance)`: the same cells, nearest the centre first. */
  function SortByDistance(s: seq<Cell>, c: int): (r: seq<Cell>)
    ensures SortedByDistance(r, c) && multiset(r) == multiset(s)
  {
    if |s| == 0 then []
    else
      assert s == s[..|s| - 1] + [s[|s| - 1]];
      var sorted := SortByDistance(s[..|s| - 1], c);
      InsertSorted(s[|s| - 1], sorted, c);
      Insert(s[|s| - 1], sorted, c)
  }

  /** r is exactly `MaxCandidates` cells, nearest the centre first, and no
      candidate left out is nearer the centre than one kept. */
  ghost predicate NearestCandidates(r: seq<Cell>, b: Grid, n: nat)
  {
    && |r| == MaxCandidates && SortedByDistance(r, n / 2)
    && forall m, m' :: m in r && Candidate(b, n, m') && m' !in r ==>
         Distance(m, n / 2) <= Distance(m', n / 2)
  }

  /** `get_smart_moves`: the centre on an empty board; otherwise the
      candidates, cut down to the `MaxCandidates` nearest the centre when
      there are more (and the centre again when there are none, which only
      happens on a full board). */
  function SmartMoves(b: Grid, n: nat): (r: seq<Cell>)
    ensures !HasPiece(b, n) ==> r == [Cell(n / 2, n / 2)]
    ensures 1 <= |r| <= MaxCandidates
    ensures n >= 1 ==> forall m :: m in r ==> InBounds(n, m.row, m.col)
    ensures HasPiece(b, n) && |Candidates(b, n)| > 0 ==> forall m :: m in r ==> Candidate(b, n, m)
    ensures HasPiece(b, n) && 0 < |Candidates(b, n)| <= MaxCandidates ==> r == Candidates(b, n)
    ensures HasPiece(b, n) && |Candidates(b, n)| > MaxCandidates ==> NearestCandidates(r, b, n)
  {
    var center := n / 2;
    if !HasPiece(b, n) then [Cell(center, center)]
    else
      var cands := Candidates(b, n);
      if |cands| == 0 then [Cell(center, center)]
      else if |cands| > MaxCandidates then
        var sorted := SortByDistance(cands, center);
        assert |sorted| == |multiset(sorted)| == |multiset(cands)| == |cands|;
        NearestKept(sorted, cands, center, MaxCandidates);
        sorted[..MaxCandidates]
      else cands
  }

  /** Keeping the first k of a sorted list keeps the cells no farther than
      any dropped one. */
  lemma NearestKept(sorted: seq<Cell>, all: seq<Cell>, c: int, k: nat)
    requires SortedByDistance(sorted, c) && multiset(sorted) == multiset(all) && k <= |sorted|
    ensures forall m :: m in sorted[..k] ==> m in all
    ensures SortedByDistance(sorted[..k], c)
    ensures forall m, m' :: m in sorted[..k] && m' in all && m' !in sorted[..k] ==> Distance(m, c) <= Distance(m', c)
  {
    forall m | m in sorted[..k] ensures m in all {
      assert m in multiset(sorted);
    }
    forall m, m' | m in sorted[..k] && m' in all && m' !in sorted[..k]
      ensures Distance(m, c) <= Distance(m', c)
    {
      assert m' in multiset(sorted);
      var p :| 0 <= p < k && sorted[p] == m;
      var q :| 0 <= q < |sorted| && sorted[q] == m';
      assert q >= k;
    }
  }

  /** The value `minimax` gives a board: a five for the AI scores
      1000 - depth, else a five for the player -1000 + depth (both checked
      before the depth limit), else at the depth limit or on a full board
      the static evaluation, else the best reply over the smart moves for
      the side to move. Alpha-beta pruning is left out: called, as the
      `get_best_move` calls it, with the window (-inf, inf), it returns this same
      value. */
  function Minimax(ai: Ai, b: Grid, n: nat, depth: nat, maximizing: bool): (r: int)
    requires Square(b, n)
    ensures CheckWinner(b, n, AiSymbol) ==> r == 1000 - depth
    ensures !CheckWinner(b, n, AiSymbol) && CheckWinner(b, n, PlayerSymbol) ==> r == -1000 + depth
    ensures !CheckWinner(b, n, AiSymbol) && !CheckWinner(b, n, PlayerSymbol)
            && (depth >= ai.maxDepth || IsBoardFull(b))
            ==> r == EvaluateBoard(b, n)
    ensures !CheckWinner(b, n, AiSymbol) && !CheckWinner(b, n, PlayerSymbol)
            && depth < ai.maxDepth && !IsBoardFull(b)
            ==> && (forall m :: m in SmartMoves(b, n) ==>
                      if maximizing then ChildValue(ai, b, n, m, depth, true) <= r
                      else r <= ChildValue(ai, b, n, m, depth, false))
                && exists m :: m in SmartMoves(b, n) && r == ChildValue(ai, b, n, m, depth, maximizing)
    decreases if depth < ai.maxDepth then ai.maxDepth - depth else 0, 1, 0
  {
    if CheckWinner(b, n, AiSymbol) then 1000 - depth
    else if CheckWinner(b, n, PlayerSymbol) then -1000 + depth
    else if depth >= ai.maxDepth || IsBoardFull(b) then EvaluateBoard(b, n)
    else
      var moves := SmartMoves(b, n);
      BestOverMoves(ai, b, n, moves, depth, maximizing);
      Best(ai, b, n, moves, depth, maximizing)
  }

  /** Best's bounds, stated over the members of the move list. */
  lemma BestOverMoves(ai: Ai, b: Grid, n: nat, moves: seq<Cell>, depth: nat, maximizing: bool)
    requires Square(b, n) && |moves| >= 1 && depth < ai.maxDepth
    ensures var r := Best(ai, b, n, moves, depth, maximizing);
            && (forall m :: m in moves ==>
                  if maximizing then ChildValue(ai, b, n, m, depth, true) <= r
                  else r <= ChildValue(ai, b, n, m, depth, false))
            && exists m :: m in moves && r == ChildValue(ai, b, n, m, depth, maximizing)
    decreases ai.maxDepth - depth, 0, |moves| + 1
  {
    var r := Best(ai, b, n, moves, depth, maximizing);
    assert forall k :: 0 <= k < |moves| ==> moves[k] in moves;
    var k :| 0 <= k < |moves| && r == ChildValue(ai, b, n, moves[k], depth, maximizing);
    assert moves[k] in moves;
  }

  /** The value of playing m at this depth: the side to move places its
      mark and `minimax` continues one level down with the other side. The
      smart moves are on the board whenever one of them is played here. */
  function ChildValue(ai: Ai, b: Grid, n: nat, m: Cell, depth: nat, maximizing: bool): int
    requires Square(b, n) && depth < ai.maxDepth
    decreases ai.maxDepth - depth, 0, 0
  {
    var s := if maximizing then AiSymbol else PlayerSymbol;
    var next := if InBounds(n, m.row, m.col) then Place(b, n, m.row, m.col, s) else b;
    Minimax(ai, next, n, depth + 1, !maximizing)
  }

  /** The largest (maximizing) or smallest child value over the moves: the
      `max_eval` / `min_eval` loops of `minimax`. */
  function Best(ai: Ai, b: Grid, n: nat, moves: seq<Cell>, depth: nat, maximizing: bool): (r: int)
    requires Square(b, n) && |moves| >= 1 && depth < ai.maxDepth
    ensures forall k :: 0 <= k < |moves| ==>
              if maximizing then ChildValue(ai, b, n, moves[k], depth, true) <= r
              else r <= ChildValue(ai, b, n, moves[k], depth, false)
    ensures exists k :: 0 <= k < |moves| && r == ChildValue(ai, b, n, moves[k], depth, maximizing)
    decreases ai.maxDepth - depth, 0, |moves|
  {
    var v := ChildValue(ai, b, n, moves[0], depth, maximizing);
    if |moves| == 1 then v
    else
      var rest := Best(ai, b, n, moves[1..], depth, maximizing);
      assert forall k :: 1 <= k < |moves| ==> moves[k] == moves[1..][k - 1];
      if maximizing then (if v > rest then v else rest)
      else (if v < rest then v else rest)
  }

  /** The score `get_best_move` gives a move: the AI plays it and `minimax`
      answers from depth 0 with the player to move. */
  function RootValue(ai: Ai, b: Grid, n: nat, m: Cell): int
    requires Square(b, n)
  {
    var next := if InBounds(n, m.row, m.col) then Place(b, n, m.row, m.col, AiSymbol) else b;
    Minimax(ai, next, n, 0, false)
  }

  /** The position of the first highest score: a later move replaces the
      best only when it scores strictly more. */
  method FirstBest(scores: seq<int>) returns (best: Option<nat>)
    ensures best.None? <==> |scores| == 0
    ensures best.Some? ==> best.value < |scores|
    ensures best.Some? ==> forall p :: 0 <= p < best.value ==> scores[p] < scores[best.value]
    ensures best.Some? ==> forall p :: 0 <= p < |scores| ==> scores[p] <= scores[best.value]
  {
    best := None;
    for i := 0 to |scores|
      invariant best.None? <==> i == 0
      invariant best.Some? ==> best.value < i
      invariant best.Some? ==> forall p :: 0 <= p < best.value ==> scores[p] < scores[best.value]
      invariant best.Some? ==> forall p :: 0 <= p < i ==> scores[p] <= scores[best.value]
    {
      if best.None? || scores[i] > scores[best.value] {
        best := Some(i);
      }
    }
  }

  /** m is the first of the moves with the highest score. */
  ghost predicate FirstHighest(ai: Ai, b: Grid, n: nat, moves: seq<Cell>, m: Cell)
    requires Square(b, n)
  {
    && (exists k :: 0 <= k < |moves| && moves[k] == m
                    && forall p :: 0 <= p < k ==> RootValue(ai, b, n, moves[p]) < RootValue(ai, b, n, m))
    && forall p :: 0 <= p < |moves| ==> RootValue(ai, b, n, moves[p]) <= RootValue(ai, b, n, m)
  }

  /** The search loop of `get_best_move`: each smart move is scored by
      `minimax` and the first of highest score is kept. */
  method SearchMove(ai: Ai, b: Grid, n: nat) returns (m: Cell)
    requires Square(b, n)
    ensures m in SmartMoves(b, n) && FirstHighest(ai, b, n, SmartMoves(b, n), m)
  {
    var moves := SmartMoves(b, n);
    var scores := seq(|moves|, k requires 0 <= k < |moves| => RootValue(ai, b, n, moves[k]));
    var best := FirstBest(scores);
    m := moves[best.value];
    assert forall p :: 0 <= p < |moves| ==> RootValue(ai, b, n, moves[p]) == scores[p];
  }

  /** `get_best_move`: take a winning cell, else block the player's, else
      the first smart move of highest minimax score. The smart moves are
      never empty, so the random fallback of `get_best_move` is never taken. */
  method GetBestMove(ai: Ai, b: Grid, n: nat) returns (move: Option<Cell>)
    requires Square(b, n)
    ensures move.Some?
    ensures n >= 1 ==> InBounds(n, move.value.row, move.value.col)
    ensures !NoWinningCell(b, n, AiSymbol) ==> FirstWinningCell(b, n, AiSymbol, move.value)
    ensures NoWinningCell(b, n, AiSymbol) && !NoWinningCell(b, n, PlayerSymbol) ==>
              FirstWinningCell(b, n, PlayerSymbol, move.value)
    ensures NoWinningCell(b, n, AiSymbol) && NoWinningCell(b, n, PlayerSymbol) ==>
              move.value in SmartMoves(b, n) && FirstHighest(ai, b, n, SmartMoves(b, n), move.value)
  {
    move := FindWinningMove(b, n, AiSymbol);
    if move.Some? {
      return;
    }
    move := FindWinningMove(b, n, PlayerSymbol);
    if move.Some? {
      return;
    }
    var m := SearchMove(ai, b, n);
    move := Some(m);
  }

  /** `get_move`: a random empty cell on easy (`pick` stands for the random
      choice), the searched move otherwise. */
  method GetMove(ai: Ai, b: Grid, n: nat, pick: nat) returns (move: Option<Cell>)
    requires Square(b, n)
    ensures ai.difficulty == "easy" ==> move == RandomMove(b, n, pick)
    ensures ai.difficulty != "easy" ==> move.Some?
    ensures n >= 1 && move.Some? ==> InBounds(n, move.value.row, move.value.col)
    ensures ai.difficulty != "easy" && !NoWinningCell(b, n, AiSymbol) ==>
              FirstWinningCell(b, n, AiSymbol, move.value)
    ensures ai.difficulty != "easy" && NoWinningCell(b, n, AiSymbol) && !NoWinningCell(b, n, PlayerSymbol) ==>
              FirstWinningCell(b, n, PlayerSymbol, move.value)
  {
    if ai.difficulty == "easy" {
      move := RandomMove(b, n, pick);
    } else {
      move := GetBestMove(ai, b, n);
    }
  }

  /** `get_move` as the program has it. Its random path loops over
      `range(self.self.board_size)` (`get_random_move`), and its search path
      does the same first thing in `find_winning_move`; an `AIPlayer` has no
      attribute `self`, so every call raises AttributeError before the board
      is read. */
  function GetMoveAsWritten(ai: Ai, b: Grid, n: nat, pick: nat): (r: Result<Option<Cell>>)
    ensures r.Raised?
  {
    Raised
  }

  /** `is_board_full`: no blank cell among the n-by-n cells. */
  function BoardFull(b: Grid, n: nat): (r: bool)
    requires Square(b, n)
    ensures r <==> forall i, j :: InBounds(n, i, j) ==> b[i][j] != Blank
  {
    forall i, j :: 0 <= i < n && 0 <= j < n ==> b[i][j] != Blank
  }

  /** The AI's full-board test agrees with the views' row-by-row one. */
  lemma BoardFullAgrees(b: Grid, n: nat)
    requires Square(b, n)
    ensures BoardFull(b, n) == IsBoardFull(b)
  {
  }
}

=== FILE: board.dfy ===
/** The Caro board shared by the three game views and the AI: a square grid
    of cells holding 0 (empty), 1 (the local player, X) or 2 (the opponent
    or the AI, O), and the rules read off it — the run through a freshly
    played cell, the five-in-a-row scan, the full-board test. */
module Board {
  /** Side of the board, pieces in a row needed to win, seconds per turn. */
  const BoardSize: nat := 15
  const WinCondition: nat := 5
  const GameTimeout: nat := 60

  const Blank: int := 0
  const Me: int := 1
  const Opponent: int := 2

  type Grid = seq<seq<int>>

  predicate Square(b: Grid, n: nat)
  {
    |b| == n && forall i :: 0 <= i < n ==> |b[i]| == n
  }

  predicate InBounds(n: nat, i: int, j: int)
  {
    0 <= i < n && 0 <= j < n
  }

  /** Every cell is one of the three marks. */
  predicate Marked(b: Grid)
  {
    forall i, j :: 0 <= i < |b| && 0 <= j < |b[i]| ==> b[i][j] in {Blank, Me, Opponent}
  }

  /** Cell (i, j) lies inside the n-by-n board and holds `p`. The length
      conjuncts only matter for a grid that is not square. */
  predicate Owns(b: Grid, n: nat, i: int, j: int, p: int)
  {
    InBounds(n, i, j) && i < |b| && j < |b[i]| && b[i][j] == p
  }

  /** The all-zero board of side n. */
  function EmptyGrid(n: nat): (b: Grid)
    ensures Square(b, n) && Marked(b)
    ensures forall i, j :: InBounds(n, i, j) ==> b[i][j] == Blank
  {
    seq(n, _ => seq(n, _ => Blank))
  }

  /** `board[i][j] = v`: that cell changes and no other. */
  function Place(b: Grid, n: nat, i: nat, j: nat, v: int): (q: Grid)
    requires Square(b, n) && InBounds(n, i, j)
    ensures Square(q, n) && q[i][j] == v
    ensures forall a, c :: InBounds(n, a, c) && (a != i || c != j) ==> q[a][c] == b[a][c]
    ensures Marked(b) && v in {Blank, Me, Opponent} ==> Marked(q)
  {
    b[i := b[i][j := v]]
  }

  /** `is_board_full`: the board is full exactly when no cell is 0. */
  function IsBoardFull(b: Grid): (full: bool)
    ensures full <==> forall i, j :: 0 <= i < |b| && 0 <= j < |b[i]| ==> b[i][j] != Blank
  {
    if |b| == 0 then true
    else
      var rest := IsBoardFull(b[1..]);
      assert forall i :: 1 <= i < |b| ==> b[i] == b[1..][i - 1];
      Blank !in b[0] && rest
  }

  /** A direction of play: one step along the rows and one along the
      columns, each -1, 0 or 1, not both 0. */
  datatype Dir = Dir(di: int, dj: int)

  predicate ValidDir(d: Dir)
  {
    d.di in {-1, 0, 1} && d.dj in {-1, 0, 1} && (d.di != 0 || d.dj != 0)
  }

  /** A unit step in one of the eight directions. */
  type Step = d: Dir | ValidDir(d) witness Dir(0, 1)

  function Reverse(d: Step): Step
  {
    Dir(-d.di, -d.dj)
  }

  /** Horizontal, vertical, diagonal, anti-diagonal, in the order the views
      try them. */
  const Directions: seq<Step> := [Dir(0, 1), Dir(1, 0), Dir(1, 1), Dir(1, -1)]

  /** Coordinate `i` moved `t` steps of `delta`. */
  function Along(i: int, delta: int, t: int): int
  {
    if delta == 1 then i + t else if delta == -1 then i - t else i
  }

  /** How many more steps a walk from (i, j) along d can take inside the
      board; it shrinks by one each step. */
  function Room(n: nat, i: int, j: int, d: Step): int
  {
    if d.di == 1 then n - i
    else if d.di == -1 then i + 1
    else if d.dj == 1 then n - j
    else j + 1
  }

  /** The number of consecutive cells holding `p`, starting at (i, j) and
      stepping along d, before the board edge or another mark. */
  function Run(b: Grid, n: nat, i: int, j: int, d: Step, p: int): nat
    decreases Room(n, i, j, d)
  {
    if Owns(b, n, i, j, p) then 1 + Run(b, n, i + d.di, j + d.dj, d, p) else 0
  }

  /** The run is exactly a maximal stretch: its cells all hold `p` and the
      cell just past it does not. */
  lemma {:induction false} RunCells(b: Grid, n: nat, i: int, j: int, d: Step, p: int)
    ensures forall t :: 0 <= t < Run(b, n, i, j, d, p) ==>
              Owns(b, n, Along(i, d.di, t), Along(j, d.dj, t), p)
    ensures var r := Run(b, n, i, j, d, p); !Owns(b, n, Along(i, d.di, r), Along(j, d.dj, r), p)
    decreases Room(n, i, j, d)
  {
    if Owns(b, n, i, j, p) {
      RunCells(b, n, i + d.di, j + d.dj, d, p);
      forall t | 1 <= t < Run(b, n, i, j, d, p)
        ensures Owns(b, n, Along(i, d.di, t), Along(j, d.dj, t), p)
      {
        assert Along(i, d.di, t) == Along(i + d.di, d.di, t - 1);
        assert Along(j, d.dj, t) == Along(j + d.dj, d.dj, t - 1);
      }
      var r := Run(b, n, i, j, d, p);
      assert Along(i, d.di, r) == Along(i + d.di, d.di, r - 1);
      assert Along(j, d.dj, r) == Along(j + d.dj, d.dj, r - 1);
    }
  }

  /** The run through (x, y) along d: the cell itself plus both arms. */
  function Count(b: Grid, n: nat, x: int, y: int, d: Step, p: int): nat
  {
    1 + Run(b, n, x + d.di, y + d.dj, d, p) + Run(b, n, x - d.di, y - d.dj, Reverse(d), p)
  }

  /** The piece at (x, y) completes a line: in one of the four directions
      the run through it reaches the winning length. */
  predicate WinsAt(b: Grid, n: nat, x: int, y: int, p: int)
  {
    exists k :: 0 <= k < |Directions| && Count(b, n, x, y, Directions[k], p) >= WinCondition
  }

  /** The four directions one by one. */
  lemma WinsAtCases(b: Grid, n: nat, x: int, y: int, p: int)
    ensures WinsAt(b, n, x, y, p) <==>
              || Count(b, n, x, y, Directions[0], p) >= WinCondition
              || Count(b, n, x, y, Directions[1], p) >= WinCondition
              || Count(b, n, x, y, Directions[2], p) >= WinCondition
              || Count(b, n, x, y, Directions[3], p) >= WinCondition
  {
    if WinsAt(b, n, x, y, p) {
      var k :| 0 <= k < |Directions| && Count(b, n, x, y, Directions[k], p) >= WinCondition;
      assert k == 0 || k == 1 || k == 2 || k == 3;
    }
  }

  /** One arm of `check_win`: step from (i, j) along d while the cell is
      inside the board and holds `player`; the steps taken are the run. */
  method Walk(b: Grid, n: nat, i: int, j: int, d: Step, player: int) returns (steps: nat)
    requires Square(b, n)
    ensures steps == Run(b, n, i, j, d, player)
  {
    steps := 0;
    var a, c := i, j;
    while 0 <= a < n && 0 <= c < n && b[a][c] == player
      invariant steps + Run(b, n, a, c, d, player) == Run(b, n, i, j, d, player)
      decreases Room(n, a, c, d)
    {
      steps := steps + 1;
      a, c := a + d.di, c + d.dj;
    }
  }

  /** `check_win`: for each direction, count the cell, walk forward and
      backward while the cells hold `player`, and stop at the first
      direction that reaches the winning length. */
  method CheckWin(b: Grid, n: nat, x: int, y: int, player: int) returns (won: bool)
    requires Square(b, n)
    ensures won <==> WinsAt(b, n, x, y, player)
  {
    var k := 0;
    while k < |Directions|
      invariant 0 <= k <= |Directions|
      invariant forall t :: 0 <= t < k ==> Count(b, n, x, y, Directions[t], player) < WinCondition
    {
      var d := Directions[k];
      var forward := Walk(b, n, x + d.di, y + d.dj, d, player);
      var backward := Walk(b, n, x - d.di, y - d.dj, Reverse(d), player);
      var count := 1 + forward + backward;
      assert count == Count(b, n, x, y, d, player);
      if count >= WinCondition {
        return true;
      }
      forall t | 0 <= t <= k
        ensures Count(b, n, x, y, Directions[t], player) < WinCondition
      {
        if t == k {
          assert Directions[t] == d;
        }
      }
      k := k + 1;
    }
    return false;
  }

  /** Five cells in a row from (i, j) along d, all inside the board and all
      holding `p`. */
  predicate Window(b: Grid, n: nat, i: int, j: int, d: Step, p: int)
  {
    forall t :: 0 <= t < WinCondition ==> Owns(b, n, Along(i, d.di, t), Along(j, d.dj, t), p)
  }

  /** Somewhere on the board `p` has five in a row. */
  predicate HasFive(b: Grid, n: nat, p: int)
  {
    exists i, j, k :: 0 <= i < n && 0 <= j < n && 0 <= k < |Directions| && Window(b, n, i, j, Directions[k], p)
  }

  /** Where the cells of a window that starts `s` steps back from x fall:
      on the backward arm, on x itself, or on the forward arm. */
  lemma AlongBack(x: int, delta: int, s: int, t: int)
    requires delta in {-1, 0, 1} && 0 <= t < s
    ensures Along(Along(x, -delta, s), delta, t) == Along(x - delta, -delta, s - 1 - t)
  {
  }

  lemma AlongHere(x: int, delta: int, s: int)
    requires delta in {-1, 0, 1}
    ensures Along(Along(x, -delta, s), delta, s) == x
  {
  }

  lemma AlongAhead(x: int, delta: int, s: int, t: int)
    requires delta in {-1, 0, 1} && s < t
    ensures Along(Along(x, -delta, s), delta, t) == Along(x + delta, delta, t - s - 1)
  {
  }

  /** A cell of a run holds the run's mark. */
  lemma RunCell(b: Grid, n: nat, i: int, j: int, d: Step, p: int, t: int)
    requires 0 <= t < Run(b, n, i, j, d, p)
    ensures Owns(b, n, Along(i, d.di, t), Along(j, d.dj, t), p)
  {
    RunCells(b, n, i, j, d, p);
  }

  /** A cell of the window before (x, y) lies on the backward arm. */
  lemma BackCell(b: Grid, n: nat, x: int, y: int, d: Step, p: int, s: nat, t: nat)
    requires t < s <= Run(b, n, x - d.di, y - d.dj, Reverse(d), p)
    ensures Owns(b, n, Along(Along(x, -d.di, s), d.di, t), Along(Along(y, -d.dj, s), d.dj, t), p)
  {
    AlongBack(x, d.di, s, t);
    AlongBack(y, d.dj, s, t);
    RunCell(b, n, x - d.di, y - d.dj, Reverse(d), p, s - 1 - t);
  }

  /** A cell of the window after (x, y) lies on the forward arm. */
  lemma AheadCell(b: Grid, n: nat, x: int, y: int, d: Step, p: int, s: nat, t: nat)
    requires s < t <= s + Run(b, n, x + d.di, y + d.dj, d, p)
    ensures Owns(b, n, Along(Along(x, -d.di, s), d.di, t), Along(Along(y, -d.dj, s), d.dj, t), p)
  {
    AlongAhead(x, d.di, s, t);
    AlongAhead(y, d.dj, s, t);
    RunCell(b, n, x + d.di, y + d.dj, d, p, t - s - 1);
  }

  /** The window that starts `s` cells back from (x, y) and runs along d
      lies within the two arms and the cell itself. */
  lemma {:induction false} WindowFromArms(b: Grid, n: nat, x: int, y: int, d: Step, p: int, s: nat)
    requires Owns(b, n, x, y, p)
    requires s <= Run(b, n, x - d.di, y - d.dj, Reverse(d), p)
    requires s + Run(b, n, x + d.di, y + d.dj, d, p) >= WinCondition - 1
    ensures Window(b, n, Along(x, -d.di, s), Along(y, -d.dj, s), d, p)
  {
    var i0, j0 := Along(x, -d.di, s), Along(y, -d.dj, s);
    forall t | 0 <= t < WinCondition
      ensures Owns(b, n, Along(i0, d.di, t), Along(j0, d.dj, t), p)
    {
      if t < s {
        BackCell(b, n, x, y, d, p, s, t);
      } else if t == s {
        AlongHere(x, d.di, s);
        AlongHere(y, d.dj, s);
      } else {
        AheadCell(b, n, x, y, d, p, s, t);
      }
    }
  }

  /** A run of five or more through an occupied (x, y) along d holds a
      window of five along d. */
  lemma FiveAlong(b: Grid, n: nat, x: int, y: int, d: Step, p: int) returns (i0: int, j0: int)
    requires Owns(b, n, x, y, p) && Count(b, n, x, y, d, p) >= WinCondition
    ensures InBounds(n, i0, j0) && Window(b, n, i0, j0, d, p)
  {
    var bwd := Run(b, n, x - d.di, y - d.dj, Reverse(d), p);
    var s := if bwd <= WinCondition - 1 then bwd else WinCondition - 1;
    WindowFromArms(b, n, x, y, d, p, s);
    i0, j0 := Along(x, -d.di, s), Along(y, -d.dj, s);
    assert Owns(b, n, Along(i0, d.di, 0), Along(j0, d.dj, 0), p);
  }

  /** A winning run through an occupied (x, y) contains a window of five:
      a win a view reports is one the full-board scan sees too. (The views
      count the played cell without reading it, so it must hold `p`.) */
  lemma {:induction false} WinsAtHasFive(b: Grid, n: nat, x: int, y: int, p: int)
    requires Owns(b, n, x, y, p) && WinsAt(b, n, x, y, p)
    ensures HasFive(b, n, p)
  {
    var k :| 0 <= k < |Directions| && Count(b, n, x, y, Directions[k], p) >= WinCondition;
    var i0, j0 := FiveAlong(b, n, x, y, Directions[k], p);
  }

  /** A stretch of m cells holding `p` from (i, j) along d makes the run at
      least m long. */
  lemma {:induction false} RunAtLeast(b: Grid, n: nat, i: int, j: int, d: Step, p: int, m: nat)
    requires forall u :: 0 <= u < m ==> Owns(b, n, Along(i, d.di, u), Along(j, d.dj, u), p)
    ensures Run(b, n, i, j, d, p) >= m
    decreases m
  {
    if m > 0 {
      assert Owns(b, n, Along(i, d.di, 0), Along(j, d.dj, 0), p);
      var a, c := i + d.di, j + d.dj;
      forall u | 0 <= u < m - 1
        ensures Owns(b, n, Along(a, d.di, u), Along(c, d.dj, u), p)
      {
        assert Along(a, d.di, u) == Along(i, d.di, u + 1);
        assert Along(c, d.dj, u) == Along(j, d.dj, u + 1);
      }
      RunAtLeast(b, n, a, c, d, p, m - 1);
    }
  }

  /** A window of five through (x, y) makes the run through (x, y) at
      least five long. */
  lemma WindowThrough(b: Grid, n: nat, i0: int, j0: int, d: Step, p: int, t0: nat)
    requires Window(b, n, i0, j0, d, p) && t0 < WinCondition
    ensures Count(b, n, Along(i0, d.di, t0), Along(j0, d.dj, t0), d, p) >= WinCondition
  {
    var x, y := Along(i0, d.di, t0), Along(j0, d.dj, t0);
    var fi, fj := x + d.di, y + d.dj;
    forall u | 0 <= u < WinCondition - 1 - t0
      ensures Owns(b, n, Along(fi, d.di, u), Along(fj, d.dj, u), p)
    {
      assert Along(fi, d.di, u) == Along(i0, d.di, t0 + 1 + u);
      assert Along(fj, d.dj, u) == Along(j0, d.dj, t0 + 1 + u);
    }
    RunAtLeast(b, n, fi, fj, d, p, WinCondition - 1 - t0);
    var back := Reverse(d);
    var bi, bj := x - d.di, y - d.dj;
    forall u | 0 <= u < t0
      ensures Owns(b, n, Along(bi, back.di, u), Along(bj, back.dj, u), p)
    {
      assert Along(bi, back.di, u) == Along(i0, d.di, t0 - 1 - u);
      assert Along(bj, back.dj, u) == Along(j0, d.dj, t0 - 1 - u);
    }
    RunAtLeast(b, n, bi, bj, back, p, t0);
  }

  /** A five that a move creates passes through the moved cell, so the
      views' check at that cell finds every win the full-board scan would:
      with no five before the move, a five after it means `check_win` at
      the move holds. */
  lemma {:induction false} NewFiveAtMove(b: Grid, n: nat, x: nat, y: nat, p: int)
    requires Square(b, n) && InBounds(n, x, y)
    requires !HasFive(b, n, p) && HasFive(Place(b, n, x, y, p), n, p)
    ensures WinsAt(Place(b, n, x, y, p), n, x, y, p)
  {
    var q := Place(b, n, x, y, p);
    var i0, j0, k :| 0 <= i0 < n && 0 <= j0 < n && 0 <= k < |Directions| && Window(q, n, i0, j0, Directions[k], p);
    var d := Directions[k];
    if t0 :| 0 <= t0 < WinCondition && Along(i0, d.di, t0) == x && Along(j0, d.dj, t0) == y {
      WindowThrough(q, n, i0, j0, d, p, t0);
      assert Count(q, n, x, y, Directions[k], p) >= WinCondition;
    } else {
      forall t | 0 <= t < WinCondition
        ensures Owns(b, n, Along(i0, d.di, t), Along(j0, d.dj, t), p)
      {
        assert Owns(q, n, Along(i0, d.di, t), Along(j0, d.dj, t), p);
      }
      assert Window(b, n, i0, j0, Directions[k], p);
      assert false;
    }
  }

  /** The same cell seen from the other side of a network game: my pieces
      are the competitor's opponent's pieces and the other way round. */
  function Swap(c: int): int
  {
    if c == Me then Opponent else if c == Opponent then Me else c
  }

  /** `c` is the competitor's copy of `a`. */
  ghost predicate Mirror(a: Grid, c: Grid, n: nat)
  {
    Square(a, n) && Square(c, n) && forall i, j :: InBounds(n, i, j) ==> c[i][j] == Swap(a[i][j])
  }

  /** Runs of `p` on one copy are runs of the swapped mark on the other. */
  lemma {:induction false} RunMirror(a: Grid, c: Grid, n: nat, i: int, j: int, d: Step, p: int)
    requires Mirror(a, c, n)
    ensures Run(a, n, i, j, d, p) == Run(c, n, i, j, d, Swap(p))
    decreases Room(n, i, j, d)
  {
    assert Owns(a, n, i, j, p) <==> Owns(c, n, i, j, Swap(p));
    if Owns(a, n, i, j, p) {
      RunMirror(a, c, n, i + d.di, j + d.dj, d, p);
    }
  }

  /** A move wins on one copy exactly when it wins for the swapped mark on
      the other. */
  lemma WinsAtMirror(a: Grid, c: Grid, n: nat, x: int, y: int, p: int)
    requires Mirror(a, c, n)
    ensures WinsAt(a, n, x, y, p) <==> WinsAt(c, n, x, y, Swap(p))
  {
    forall k | 0 <= k < |Directions|
      ensures Count(a, n, x, y, Directions[k], p) == Count(c, n, x, y, Directions[k], Swap(p))
    {
      CountMirror(a, c, n, x, y, Directions[k], p);
    }
  }

  lemma CountMirror(a: Grid, c: Grid, n: nat, x: int, y: int, d: Step, p: int)
    requires Mirror(a, c, n)
    ensures Count(a, n, x, y, d, p) == Count(c, n, x, y, d, Swap(p))
  {
    RunMirror(a, c, n, x + d.di, y + d.dj, d, p);
    RunMirror(a, c, n, x - d.di, y - d.dj, Reverse(d), p);
  }

  /** Both copies fill up together. */
  lemma FullMirror(a: Grid, c: Grid, n: nat)
    requires Mirror(a, c, n)
    ensures IsBoardFull(a) <==> IsBoardFull(c)
  {
    assert forall i, j :: InBounds(n, i, j) ==> (a[i][j] == Blank <==> c[i][j] == Blank);
  }

  /** Placing a mark on one copy and the swapped mark on the other keeps
      them mirrored. */
  lemma PlaceMirror(a: Grid, c: Grid, n: nat, x: nat, y: nat, p: int)
    requires Mirror(a, c, n) && InBounds(n, x, y)
    ensures Mirror(Place(a, n, x, y, p), Place(c, n, x, y, Swap(p)), n)
  {
  }
}

=== FILE: bus.dfy ===
/** `ServerThreadBus`: the registry of live connection threads and of listed
    rooms, plus the room-id counter. Threads are named by their client
    number and rooms by their id. */
module Bus {
  import opened Wrappers

  /** One line of text sent to one connection. */
  datatype Out = Out(to: nat, text: string)

  const FirstRoomId: int := 100

  datatype ThreadBus = ThreadBus(threads: seq<nat>, rooms: seq<int>, nextRoomId: int)

  /** A fresh bus: no threads, no rooms, room ids starting at 100. */
  function NewBus(): (b: ThreadBus)
    ensures b.threads == [] && b.rooms == [] && b.nextRoomId == FirstRoomId
    ensures GetLength(b) == 0
  {
    ThreadBus([], [], FirstRoomId)
  }

  /** The position of the first occurrence of `x` in `s`. */
  function FirstIndex<T(==)>(s: seq<T>, x: T): (k: nat)
    requires x in s
    ensures k < |s| && s[k] == x && x !in s[..k]
  {
    if s[0] == x then 0
    else
      var k := FirstIndex(s[1..], x);
      assert s[1..][..k] == s[1..k + 1];
      k + 1
  }

  /** `list.remove`: drops the first occurrence of `x` and keeps the rest in
      order; absent `x` changes nothing. */
  function RemoveFirst<T(==)>(s: seq<T>, x: T): (r: seq<T>)
    ensures x !in s ==> r == s
    ensures x in s ==> |r| == |s| - 1 && r == s[..FirstIndex(s, x)] + s[FirstIndex(s, x) + 1..]
    ensures multiset(r) == multiset(s) - multiset{x}
  {
    if x in s then
      var k := FirstIndex(s, x);
      assert s == s[..k] + [x] + s[k + 1..];
      s[..k] + s[k + 1..]
    else s
  }

  /** Appending and then removing an element not yet present restores the
      list. */
  lemma {:induction false} AppendThenRemove<T>(s: seq<T>, x: T)
    requires x !in s
    ensures RemoveFirst(s + [x], x) == s
  {
    assert (s + [x])[..|s|] == s;
  }

  /** `add`. */
  function Add(b: ThreadBus, thread: nat): (q: ThreadBus)
    ensures q.threads == b.threads + [thread] && q.rooms == b.rooms && q.nextRoomId == b.nextRoomId
    ensures GetLength(q) == GetLength(b) + 1
  {
    b.(threads := b.threads + [thread])
  }

  /** `remove`: the first entry of the thread goes; nothing else changes. */
  function Remove(b: ThreadBus, thread: nat): (q: ThreadBus)
    ensures q.threads == RemoveFirst(b.threads, thread)
    ensures multiset(q.threads) == multiset(b.threads) - multiset{thread}
    ensures q.rooms == b.rooms && q.nextRoomId == b.nextRoomId
  {
    b.(threads := RemoveFirst(b.threads, thread))
  }

  /** `add_room`: the room is listed last. */
  function AddRoom(b: ThreadBus, room: int): (q: ThreadBus)
    ensures q.rooms == b.rooms + [room] && q.threads == b.threads && q.nextRoomId == b.nextRoomId
    ensures FindRoom(q, room) == Some(room)
  {
    b.(rooms := b.rooms + [room])
  }

  /** `remove_room`: the room is no longer listed (ids are never listed
      twice); nothing else changes. */
  function RemoveRoom(b: ThreadBus, room: int): (q: ThreadBus)
    ensures q.rooms == RemoveFirst(b.rooms, room)
    ensures multiset(q.rooms) == multiset(b.rooms) - multiset{room}
    ensures q.threads == b.threads && q.nextRoomId == b.nextRoomId
  {
    b.(rooms := RemoveFirst(b.rooms, room))
  }

  /** `find_room`: the listed room with that id, if any. */
  function FindRoom(b: ThreadBus, id: int): (r: Option<int>)
    ensures r.Some? <==> id in b.rooms
    ensures r.Some? ==> r.value == id
  {
    if id in b.rooms then Some(id) else None
  }

  /** `get_next_room_id`: hands out the counter and advances it, so ids are
      never handed out twice. */
  function GetNextRoomId(b: ThreadBus): (r: (int, ThreadBus))
    ensures r.0 == b.nextRoomId && r.1.nextRoomId == r.0 + 1
    ensures r.1.threads == b.threads && r.1.rooms == b.rooms
  {
    (b.nextRoomId, b.(nextRoomId := b.nextRoomId + 1))
  }

  /** `broadcast`: one copy of the message to each listed thread other than
      the sender, in list order. Whether a copy reaches its socket is decided
      by the connection (a closed one drops it). */
  function Broadcast(threads: seq<nat>, sender: nat, message: string): (out: seq<Out>)
    ensures forall o :: o in out ==> o.text == message && o.to != sender && o.to in threads
    ensures forall t :: t in threads && t != sender ==> Out(t, message) in out
    ensures |out| <= |threads|
  {
    if |threads| == 0 then []
    else (if threads[0] != sender then [Out(threads[0], message)] else [])
         + Broadcast(threads[1..], sender, message)
  }

  /** `get_length`. */
  function GetLength(b: ThreadBus): nat
  {
    |b.threads|
  }
}

=== FILE: fixed_game_view.dfy ===
/** The earlier game window, on a board of the fixed size `BoardSize`. Its
    move handling is the networked window's, but a game simply ends: no
    dialog offers another round or leaving the room. */
module FixedGameView {
  import opened Wrappers
  import opened Board
  import GameView

  type View = GameView.View
  type Outcome = GameView.Outcome

  /** The window as it opens: a `BoardSize`-square empty board, the host to
      move (with the timer started), nothing scored. */
  function Open(isHost: bool): (v: View)
    ensures GameView.Consistent(v) && v.size == BoardSize && v.board == EmptyGrid(BoardSize)
    ensures v.myTurn == isHost && !v.gameOver && v.myScore == 0 && v.competitorScore == 0
  {
    GameView.StartTimer(GameView.View(isHost, BoardSize, isHost, EmptyGrid(BoardSize), false,
                                      GameTimeout, 0, 0, true))
  }

  /** `check_win`, bounded by the fixed board size. */
  method CheckWin(b: Grid, x: int, y: int, player: int) returns (won: bool)
    requires Square(b, BoardSize)
    ensures won <==> WinsAt(b, BoardSize, x, y, player)
  {
    won := Board.CheckWin(b, BoardSize, x, y, player);
  }

  /** `on_win`: the game ends, only the player's score goes up, `win,` is
      sent. */
  function OnWin(v: View): (o: Outcome)
    ensures o.sent == [GameView.WinMessage]
    ensures o.view == v.(gameOver := true, myScore := v.myScore + 1)
  {
    GameView.Outcome(v.(gameOver := true, myScore := v.myScore + 1), [GameView.WinMessage])
  }

  /** `on_lose`: the game ends, only the competitor's score goes up, and
      nothing is sent. */
  function OnLose(v: View): (o: Outcome)
    ensures o.sent == []
    ensures o.view == v.(gameOver := true, competitorScore := v.competitorScore + 1)
  {
    GameView.Outcome(v.(gameOver := true, competitorScore := v.competitorScore + 1), [])
  }

  function OnDraw(v: View): (o: Outcome)
    ensures o == GameView.Outcome(v.(gameOver := true), [])
  {
    GameView.Outcome(v.(gameOver := true), [])
  }

  /** `make_move`: a refused move changes nothing; an accepted one marks the
      cell 1, sends `user-move,x,y`, and passes the turn unless it wins or
      fills the board, in which case the game is over and the turn is not
      handed back. */
  function MakeMove(v: View, x: nat, y: nat): (o: Outcome)
    requires v.size == BoardSize && Square(v.board, BoardSize) && InBounds(BoardSize, x, y)
    ensures !GameView.MayMove(v, x, y) <==> o == GameView.Outcome(v, [])
    ensures GameView.MayMove(v, x, y) ==>
              var b := Place(v.board, BoardSize, x, y, Me);
              && o.view.board == b && |o.sent| >= 1 && o.sent[0] == GameView.MoveMessage(x, y)
              && (o.view.gameOver <==> WinsAt(b, BoardSize, x, y, Me) || IsBoardFull(b))
              && (o.view.myTurn <==> o.view.gameOver)
  {
    if !GameView.MayMove(v, x, y) then GameView.Outcome(v, [])
    else
      var b := Place(v.board, BoardSize, x, y, Me);
      var moved := v.(board := b);
      var next :=
        if WinsAt(b, BoardSize, x, y, Me) then OnWin(moved)
        else if IsBoardFull(b) then OnDraw(moved)
        else GameView.Outcome(moved.(myTurn := false), []);
      GameView.Outcome(next.view, [GameView.MoveMessage(x, y)] + next.sent)
  }

  /** `on_competitor_move`: the cell (Python-indexed) becomes 2; unless the
      competitor wins or the board fills, the turn and a fresh timer come to
      the player. Out-of-range coordinates raise before anything changes. */
  function OnCompetitorMove(v: View, x: int, y: int): (r: Result<Outcome>)
    requires v.size == BoardSize && Square(v.board, BoardSize)
    ensures r.Raised? <==> GameView.PyIndex(BoardSize, x).None? || GameView.PyIndex(BoardSize, y).None?
    ensures r.Ok? ==> r.value.sent == []
    ensures r.Ok? ==>
              var b := Place(v.board, BoardSize, GameView.PyIndex(BoardSize, x).value,
                             GameView.PyIndex(BoardSize, y).value, Opponent);
              && r.value.view.board == b
              && (r.value.view.gameOver <==> v.gameOver || WinsAt(b, BoardSize, x, y, Opponent) || IsBoardFull(b))
              && (!WinsAt(b, BoardSize, x, y, Opponent) && !IsBoardFull(b) ==> r.value.view.myTurn)
              && (WinsAt(b, BoardSize, x, y, Opponent) || IsBoardFull(b) ==> r.value.view.myTurn == v.myTurn)
  {
    match (GameView.PyIndex(BoardSize, x), GameView.PyIndex(BoardSize, y))
    case (Some(i), Some(j)) =>
      var b := Place(v.board, BoardSize, i, j, Opponent);
      var moved := v.(board := b);
      if WinsAt(b, BoardSize, x, y, Opponent) then Ok(OnLose(moved))
      else if IsBoardFull(b) then Ok(OnDraw(moved))
      else Ok(GameView.Outcome(GameView.StartTimer(moved.(myTurn := true)), []))
    case _ => Raised
  }

  /** The fixed window behaves as the networked one on a `BoardSize` board
      whose player declines every end-of-game dialog. */
  lemma AsNetworkedWithoutDialogs(v: View, x: nat, y: nat, cx: int, cy: int)
    requires v.size == BoardSize && Square(v.board, BoardSize) && InBounds(BoardSize, x, y)
    ensures MakeMove(v, x, y) == GameView.MakeMove(v, x, y, GameView.Stay)
    ensures OnCompetitorMove(v, cx, cy) == GameView.OnCompetitorMove(v, cx, cy, GameView.Stay)
    ensures Open(v.isHost) == GameView.Open(v.isHost, BoardSize)
  {
  }
}

=== FILE: framing.dfy ===
/** Line framing of the text protocol, shared by the server's receive loop
    and the client's: every message travels as its text followed by one
    line feed, and the receiver cuts its buffer at line feeds. */
module Framing {
  import opened Text

  const Newline: char := '\n'

  /** What `write(message)` puts on the wire. */
  function Frame(message: string): (wire: string)
    ensures |wire| == |message| + 1 && wire[|message|] == Newline
    ensures wire[..|message|] == message
  {
    message + [Newline]
  }

  /** The wire text of several writes in order. */
  function FrameAll(messages: seq<string>): string
  {
    if |messages| == 0 then "" else Frame(messages[0]) + FrameAll(messages[1..])
  }

  /** The inner `while '\n' in buffer` loop: the messages handed on, in order,
      and the buffer left for the next chunk. Empty lines are skipped. */
  function Drain(buffer: string): (r: (seq<string>, string))
    ensures Newline !in r.1
    ensures forall i :: 0 <= i < |r.0| ==> r.0[i] != "" && Newline !in r.0[i]
    decreases |buffer|
  {
    if Newline !in buffer then ([], buffer)
    else
      var k := IndexOf(buffer, Newline);
      var message := buffer[..k];
      var rest := Drain(buffer[k + 1..]);
      (Keep(message, rest.0), rest.1)
  }

  /** Hands `message` on in front of `later`, unless it is an empty line. */
  function Keep(message: string, later: seq<string>): seq<string>
  {
    if message != "" then [message] + later else later
  }

  /** The non-empty strings of `lines`, in order. */
  function NonEmpty(lines: seq<string>): (r: seq<string>)
    ensures |r| <= |lines|
  {
    if |lines| == 0 then []
    else if lines[0] == "" then NonEmpty(lines[1..])
    else [lines[0]] + NonEmpty(lines[1..])
  }

  /** Reference reading of the loop: split the buffer at every line feed;
      all pieces but the last are complete lines (the empty ones dropped),
      and the last piece is the unterminated tail. */
  lemma {:induction false} DrainIsSplit(buffer: string)
    ensures var lines := Split(buffer, Newline);
      Drain(buffer) == (NonEmpty(lines[..|lines| - 1]), lines[|lines| - 1])
    decreases |buffer|
  {
    if Newline !in buffer {
      SplitNoSep(buffer, Newline);
    } else {
      var k := IndexOf(buffer, Newline);
      var rest := buffer[k + 1..];
      assert buffer == buffer[..k] + [Newline] + rest;
      SplitCons(buffer[..k], Newline, rest);
      DrainIsSplit(rest);
      var lines := Split(buffer, Newline);
      var tailLines := Split(rest, Newline);
      assert lines == [buffer[..k]] + tailLines;
      assert lines[..|lines| - 1] == [buffer[..k]] + tailLines[..|tailLines| - 1];
      assert ([buffer[..k]] + tailLines[..|tailLines| - 1])[1..] == tailLines[..|tailLines| - 1];
    }
  }

  /** Chunk boundaries do not matter: draining `a`, then draining what is left
      with `b` appended, hands on the same messages and leaves the same tail
      as draining `a + b` at once. */
  lemma {:induction false} DrainChunks(a: string, b: string)
    ensures var first := Drain(a);
      var second := Drain(first.1 + b);
      Drain(a + b) == (first.0 + second.0, second.1)
    decreases |a|
  {
    if Newline in a {
      var k := IndexOf(a, Newline);
      assert forall i :: 0 <= i < k ==> (a + b)[i] == a[..k][i];
      IndexOfUnique(a + b, Newline, k);
      assert (a + b)[k + 1..] == a[k + 1..] + b;
      assert (a + b)[..k] == a[..k];
      DrainChunks(a[k + 1..], b);
      var restA := Drain(a[k + 1..]);
      var second := Drain(restA.1 + b);
      assert Drain(a) == (Keep(a[..k], restA.0), restA.1);
      assert Drain(a + b) == (Keep(a[..k], restA.0 + second.0), second.1);
      KeepAppend(a[..k], restA.0, second.0);
    } else {
      assert Drain(a) == ([], a);
      assert [] + Drain(a + b).0 == Drain(a + b).0;
    }
  }

  /** A line-feed-free line, a line feed and more: the line is the prefix
      before the first line feed, and the rest follows it. */
  lemma FirstLine(m: string, rest: string)
    ensures var wire := m + [Newline] + rest;
      && wire == Frame(m) + rest
      && wire[..|m|] == m && wire[|m|] == Newline && wire[|m| + 1..] == rest
      && forall i :: 0 <= i < |m| ==> wire[i] == m[i]
  {
  }

  lemma KeepAppend(m: string, x: seq<string>, y: seq<string>)
    ensures Keep(m, x + y) == Keep(m, x) + y
  {
    if m != "" {
      assert [m] + (x + y) == ([m] + x) + y;
    }
  }

  /** Writes are received as sent: the wire text of any sequence of
      non-empty, line-feed-free messages, followed by an unterminated tail,
      drains to exactly those messages and leaves exactly that tail. */
  lemma {:induction false} DrainFrameAll(messages: seq<string>, tail: string)
    requires forall i :: 0 <= i < |messages| ==> messages[i] != "" && Newline !in messages[i]
    requires Newline !in tail
    ensures Drain(FrameAll(messages) + tail) == (messages, tail)
    decreases |messages|
  {
    if |messages| > 0 {
      var m := messages[0];
      var rest := FrameAll(messages[1..]) + tail;
      var wire := FrameAll(messages) + tail;
      assert FrameAll(messages) == Frame(m) + FrameAll(messages[1..]);
      FirstLine(m, rest);
      assert wire == m + [Newline] + rest;
      IndexOfUnique(wire, Newline, |m|);
      DrainFrameAll(messages[1..], tail);
      assert [m] + messages[1..] == messages;
    } else {
      assert FrameAll(messages) + tail == tail;
    }
  }
}

=== FILE: game_view.dfy ===
/** The networked game window: the local player's board, whose turn it is,
    the turn timer, the score, and what the window writes to the server.
    The answers the player gives to the end-of-game dialogs are inputs. */
module GameView {
  import opened Wrappers
  import opened Text
  import opened Board

  /** The player's answers at the end of a game: play another round, or
      decline and then confirm leaving the room, or decline both. */
  datatype Answer = PlayAgain | Leave | Stay

  datatype View = View(isHost: bool, size: nat, myTurn: bool, board: Grid, gameOver: bool,
                       timer: int, myScore: nat, competitorScore: nat, open: bool)

  /** The window after a handler ran, and the lines it wrote, in order. */
  datatype Outcome = Outcome(view: View, sent: seq<string>)

  const WinMessage: string := "win,"
  const LoseMessage: string := "lose,"
  const NewGameMessage: string := "new-game,"
  const LeaveMessage: string := "leave-room,"
  const DrawRequestMessage: string := "draw-request,"
  const RevengeMessage: string := "ask-for-revenge,"

  function MoveMessage(x: int, y: int): string
  {
    Join(["user-move", IntToString(x), IntToString(y)], Comma)
  }

  /** What every handler keeps: an n-by-n board of 0, 1 and 2, and a timer
      between 0 and the turn length. */
  predicate Consistent(v: View)
  {
    Square(v.board, v.size) && Marked(v.board) && 0 <= v.timer <= GameTimeout
  }

  /** The window as it opens: an empty board, the host to move, the timer
      started for the host. */
  function Open(isHost: bool, size: nat): (v: View)
    ensures Consistent(v) && v.myTurn == isHost && !v.gameOver && v.open
    ensures v.board == EmptyGrid(size) && v.myScore == 0 && v.competitorScore == 0
  {
    StartTimer(View(isHost, size, isHost, EmptyGrid(size), false, GameTimeout, 0, 0, true))
  }

  /** `start_timer`: the timer is set to the turn length and ticked once at
      once (see `StartTimerTicks`). */
  function StartTimer(v: View): (w: View)
    ensures w == v.(timer := w.timer)
    ensures Consistent(v.(timer := GameTimeout)) ==> Consistent(w)
  {
    if v.myTurn && !v.gameOver then v.(timer := GameTimeout - 1) else v.(timer := GameTimeout)
  }

  /** `update_timer`, one tick: it counts down only on the player's own
      turn in a running game, and at zero the player loses on time. */
  function Tick(v: View, answer: Answer): (o: Outcome)
    ensures !v.myTurn || v.gameOver ==> o == Outcome(v, [])
    ensures v.myTurn && !v.gameOver && v.timer > 0 ==> o == Outcome(v.(timer := v.timer - 1), [])
    ensures v.myTurn && !v.gameOver && v.timer <= 0 ==>
              |o.sent| >= 1 && o.sent[0] == LoseMessage && o.view.competitorScore == v.competitorScore + 1
    ensures Consistent(v) ==> Consistent(o.view)
  {
    if v.myTurn && !v.gameOver then
      if v.timer > 0 then Outcome(v.(timer := v.timer - 1), [])
      else
        var lost := OnLose(v, answer);
        Outcome(lost.view, [LoseMessage] + lost.sent)
    else Outcome(v, [])
  }

  /** Starting the timer is setting it to the turn length and ticking. */
  lemma StartTimerTicks(v: View, answer: Answer)
    ensures Tick(v.(timer := GameTimeout), answer) == Outcome(StartTimer(v), [])
  {
  }

  /** `k` ticks in a row (the answer is only asked on a timeout). */
  function Ticks(v: View, k: nat, answer: Answer): (o: Outcome)
    ensures Consistent(v) ==> Consistent(o.view)
    decreases k
  {
    if k == 0 then Outcome(v, [])
    else
      var first := Tick(v, answer);
      var rest := Ticks(first.view, k - 1, answer);
      Outcome(rest.view, first.sent + rest.sent)
  }

  /** A running turn with `t` seconds left stays silent for `t` ticks and
      counts down to zero. */
  lemma {:induction false} CountDown(v: View, t: nat, answer: Answer)
    requires v.myTurn && !v.gameOver && v.timer == t
    ensures Ticks(v, t, answer) == Outcome(v.(timer := 0), [])
    decreases t
  {
    if t > 0 {
      CountDown(v.(timer := t - 1), t - 1, answer);
    }
  }

  /** A turn lasts exactly the turn length: after the timer starts, the
      first `GameTimeout - 1` ticks only count down, and the next one sends
      `lose,` and scores the game for the competitor. */
  lemma TurnTimesOut(v: View, answer: Answer)
    requires v.myTurn && !v.gameOver
    ensures Ticks(StartTimer(v), GameTimeout - 1, answer) == Outcome(v.(timer := 0), [])
    ensures var last := Tick(v.(timer := 0), answer);
      last.sent[0] == LoseMessage && last.view.competitorScore == v.competitorScore + 1
  {
    CountDown(StartTimer(v), GameTimeout - 1, answer);
  }

  /** `reset_game`: a fresh board, the host to move, the game running, the
      score kept, and `new-game,` sent; the clock restarts only for the
      player who moves first. */
  function ResetGame(v: View): (o: Outcome)
    ensures o.sent == [NewGameMessage]
    ensures v.isHost ==> o.view.timer == GameTimeout - 1
    ensures !v.isHost ==> o.view.timer == v.timer
    ensures o.view.board == EmptyGrid(v.size) && !o.view.gameOver && o.view.myTurn == v.isHost
    ensures o.view.myScore == v.myScore && o.view.competitorScore == v.competitorScore
    ensures o.view.isHost == v.isHost && o.view.size == v.size && o.view.open == v.open
    ensures Consistent(v) ==> Consistent(o.view)
  {
    var w := v.(gameOver := false, myTurn := v.isHost, board := EmptyGrid(v.size));
    Outcome(if w.myTurn then StartTimer(w) else w, [NewGameMessage])
  }

  /** `leave_room`, with the player's confirmation: the window closes after
      `leave-room,` is sent; without it nothing happens. */
  function LeaveRoom(v: View, confirmed: bool): (o: Outcome)
    ensures confirmed ==> o == Outcome(v.(open := false), [LeaveMessage])
    ensures !confirmed ==> o == Outcome(v, [])
  {
    if confirmed then Outcome(v.(open := false), [LeaveMessage]) else Outcome(v, [])
  }

  /** The end-of-game dialog: another round, or the leave confirmation. */
  function AfterGame(v: View, answer: Answer): (o: Outcome)
    requires v.gameOver
    ensures o.view.myScore == v.myScore && o.view.competitorScore == v.competitorScore
    ensures answer != PlayAgain ==> o.view.board == v.board && o.view.gameOver
    ensures answer == PlayAgain ==> o == ResetGame(v)
    ensures forall k :: 0 <= k < |o.sent| ==> o.sent[k] in {NewGameMessage, LeaveMessage}
    ensures Consistent(v) ==> Consistent(o.view)
  {
    match answer
    case PlayAgain => ResetGame(v)
    case Leave => LeaveRoom(v, true)
    case Stay => LeaveRoom(v, false)
  }

  /** `on_win`: the game ends, only the player's score goes up, and `win,`
      is sent before the dialog. */
  function OnWin(v: View, answer: Answer): (o: Outcome)
    ensures |o.sent| >= 1 && o.sent[0] == WinMessage
    ensures forall k :: 1 <= k < |o.sent| ==> o.sent[k] in {NewGameMessage, LeaveMessage}
    ensures o.view.myScore == v.myScore + 1 && o.view.competitorScore == v.competitorScore
    ensures answer != PlayAgain ==> o.view.gameOver && o.view.board == v.board
    ensures Consistent(v) ==> Consistent(o.view)
  {
    var ended := v.(gameOver := true, myScore := v.myScore + 1);
    var next := AfterGame(ended, answer);
    Outcome(next.view, [WinMessage] + next.sent)
  }

  /** `on_lose`: the game ends and only the competitor's score goes up;
      nothing is sent before the dialog. */
  function OnLose(v: View, answer: Answer): (o: Outcome)
    ensures forall k :: 0 <= k < |o.sent| ==> o.sent[k] in {NewGameMessage, LeaveMessage}
    ensures o.view.competitorScore == v.competitorScore + 1 && o.view.myScore == v.myScore
    ensures answer != PlayAgain ==> o.view.gameOver && o.view.board == v.board
    ensures Consistent(v) ==> Consistent(o.view)
  {
    AfterGame(v.(gameOver := true, competitorScore := v.competitorScore + 1), answer)
  }

  /** `on_draw`: the game ends with the score unchanged. */
  function OnDraw(v: View, answer: Answer): (o: Outcome)
    ensures forall k :: 0 <= k < |o.sent| ==> o.sent[k] in {NewGameMessage, LeaveMessage}
    ensures o.view.myScore == v.myScore && o.view.competitorScore == v.competitorScore
    ensures answer != PlayAgain ==> o.view.gameOver && o.view.board == v.board
    ensures Consistent(v) ==> Consistent(o.view)
  {
    AfterGame(v.(gameOver := true), answer)
  }

  /** The guards of `make_move`: a running game, the player's turn, an
      empty cell. */
  predicate MayMove(v: View, x: nat, y: nat)
    requires Square(v.board, v.size) && InBounds(v.size, x, y)
  {
    !v.gameOver && v.myTurn && v.board[x][y] == Blank
  }

  /** `make_move` for the cell (x, y) of the board's button grid. A
      refused move changes nothing and sends nothing. An accepted one marks
      the cell 1, sends `user-move,x,y` once and first, and then ends the
      game on a win or a full board or otherwise hands the turn over. */
  function MakeMove(v: View, x: nat, y: nat, answer: Answer): (o: Outcome)
    requires Square(v.board, v.size) && InBounds(v.size, x, y)
    ensures !MayMove(v, x, y) <==> o == Outcome(v, [])
    ensures MayMove(v, x, y) ==>
              var b := Place(v.board, v.size, x, y, Me);
              && |o.sent| >= 1 && o.sent[0] == MoveMessage(x, y)
              && (forall k :: 1 <= k < |o.sent| ==> o.sent[k] in {WinMessage, NewGameMessage, LeaveMessage})
              && (WinsAt(b, v.size, x, y, Me) <==> o.view.myScore == v.myScore + 1)
              && (!WinsAt(b, v.size, x, y, Me) && !IsBoardFull(b) ==>
                    o == Outcome(v.(board := b, myTurn := false), [MoveMessage(x, y)]))
    ensures Consistent(v) ==> Consistent(o.view)
  {
    if !MayMove(v, x, y) then Outcome(v, [])
    else
      var b := Place(v.board, v.size, x, y, Me);
      var moved := v.(board := b);
      var next :=
        if WinsAt(b, v.size, x, y, Me) then OnWin(moved, answer)
        else if IsBoardFull(b) then OnDraw(moved, answer)
        else Outcome(moved.(myTurn := false), []);
      Outcome(next.view, [MoveMessage(x, y)] + next.sent)
  }

  /** Python indexing of a row or column of length n: -n..-1 count from the
      end, anything else outside 0..n-1 raises. */
  function PyIndex(n: nat, i: int): (r: Option<nat>)
    ensures r.Some? <==> -(n as int) <= i < n
    ensures r.Some? ==> r.value < n && (r.value == i || r.value == i + n)
  {
    if 0 <= i < n then Some(i) else if -(n as int) <= i < 0 then Some(i + n) else None
  }

  /** `on_competitor_move`: the coordinates come from the network unchecked.
      The cell (indexed as Python does) becomes 2 whatever it held and
      whatever the state of the game; the win check runs at the coordinates
      as received; unless the competitor wins or the board fills, the turn
      and a fresh timer come to the player. Coordinates outside -n..n-1
      raise before anything changes. */
  function OnCompetitorMove(v: View, x: int, y: int, answer: Answer): (r: Result<Outcome>)
    requires Square(v.board, v.size)
    ensures r.Raised? <==> PyIndex(v.size, x).None? || PyIndex(v.size, y).None?
    ensures r.Ok? ==>
              var b := Place(v.board, v.size, PyIndex(v.size, x).value, PyIndex(v.size, y).value, Opponent);
              && (forall k :: 0 <= k < |r.value.sent| ==> r.value.sent[k] in {NewGameMessage, LeaveMessage})
              && (WinsAt(b, v.size, x, y, Opponent) <==> r.value.view.competitorScore == v.competitorScore + 1)
              && (!WinsAt(b, v.size, x, y, Opponent) && !IsBoardFull(b) ==>
                    r.value == Outcome(StartTimer(v.(board := b, myTurn := true)), []))
    ensures r.Ok? && Consistent(v) ==> Consistent(r.value.view)
  {
    match (PyIndex(v.size, x), PyIndex(v.size, y))
    case (Some(i), Some(j)) =>
      var b := Place(v.board, v.size, i, j, Opponent);
      var moved := v.(board := b);
      if WinsAt(b, v.size, x, y, Opponent) then Ok(OnLose(moved, answer))
      else if IsBoardFull(b) then Ok(OnDraw(moved, answer))
      else Ok(Outcome(StartTimer(moved.(myTurn := true)), []))
    case _ => Raised
  }

  /** `request_draw`: sent only while the game runs. */
  function RequestDraw(v: View): (sent: seq<string>)
    ensures sent == [DrawRequestMessage] <==> !v.gameOver
    ensures v.gameOver <==> sent == []
  {
    if v.gameOver then [] else [DrawRequestMessage]
  }

  /** `request_revenge`: sent only once the game is over. */
  function RequestRevenge(v: View): (sent: seq<string>)
    ensures sent == [RevengeMessage] <==> v.gameOver
    ensures !v.gameOver <==> sent == []
  {
    if v.gameOver then [RevengeMessage] else []
  }

  /** Both ends of a network game see a move the same way. If the
      competitor's board mirrors mine, then my accepted move at (x, y) and
      its arrival on the other side (the relay is `SocketHandle.MoveRelay`)
      score a win for me exactly when they score a loss; and when the move
      neither wins nor fills the board, the boards stay mirrored and the
      turn passes to the competitor. */
  lemma MovesAgree(a: View, c: View, x: nat, y: nat, mine: Answer, theirs: Answer)
    requires a.size == c.size && Mirror(a.board, c.board, a.size)
    requires InBounds(a.size, x, y) && MayMove(a, x, y)
    ensures OnCompetitorMove(c, x, y, theirs).Ok?
    ensures var here := MakeMove(a, x, y, mine);
      var there := OnCompetitorMove(c, x, y, theirs).value;
      here.view.myScore == a.myScore + 1 <==> there.view.competitorScore == c.competitorScore + 1
    ensures var b := Place(a.board, a.size, x, y, Me);
      !WinsAt(b, a.size, x, y, Me) && !IsBoardFull(b) ==>
        var here := MakeMove(a, x, y, mine);
        var there := OnCompetitorMove(c, x, y, theirs).value;
        Mirror(here.view.board, there.view.board, a.size) && !here.view.myTurn && there.view.myTurn
  {
    var n := a.size;
    var b := Place(a.board, n, x, y, Me);
    var q := Place(c.board, n, x, y, Opponent);
    PlaceMirror(a.board, c.board, n, x, y, Me);
    WinsAtMirror(b, q, n, x, y, Me);
    FullMirror(b, q, n);
    MoveHere(a, x, y, mine);
    MoveThere(c, x, y, theirs);
    MirroredOutcomes(a, c, x, y, b, q, MakeMove(a, x, y, mine), OnCompetitorMove(c, x, y, theirs).value);
  }

  /** `MakeMove`'s contract for an accepted move. */
  lemma MoveHere(a: View, x: nat, y: nat, mine: Answer)
    requires Square(a.board, a.size) && InBounds(a.size, x, y) && MayMove(a, x, y)
    ensures var b, here := Place(a.board, a.size, x, y, Me), MakeMove(a, x, y, mine);
      && (WinsAt(b, a.size, x, y, Me) <==> here.view.myScore == a.myScore + 1)
      && (!WinsAt(b, a.size, x, y, Me) && !IsBoardFull(b) ==>
            here == Outcome(a.(board := b, myTurn := false), [MoveMessage(x, y)]))
  {
  }

  /** `OnCompetitorMove`'s contract for coordinates inside the board. */
  lemma MoveThere(c: View, x: nat, y: nat, theirs: Answer)
    requires Square(c.board, c.size) && InBounds(c.size, x, y)
    ensures OnCompetitorMove(c, x, y, theirs).Ok?
    ensures var q, there := Place(c.board, c.size, x, y, Opponent), OnCompetitorMove(c, x, y, theirs).value;
      && (WinsAt(q, c.size, x, y, Opponent) <==> there.view.competitorScore == c.competitorScore + 1)
      && (!WinsAt(q, c.size, x, y, Opponent) && !IsBoardFull(q) ==>
            there == Outcome(StartTimer(c.(board := q, myTurn := true)), []))
  {
    assert PyIndex(c.size, x) == Some(x) && PyIndex(c.size, y) == Some(y);
  }

  /** The step of `MovesAgree` that needs only the handlers' contracts. */
  lemma MirroredOutcomes(a: View, c: View, x: nat, y: nat, b: Grid, q: Grid, here: Outcome, there: Outcome)
    requires Mirror(b, q, a.size)
    requires WinsAt(b, a.size, x, y, Me) <==> WinsAt(q, a.size, x, y, Opponent)
    requires IsBoardFull(b) <==> IsBoardFull(q)
    requires WinsAt(b, a.size, x, y, Me) <==> here.view.myScore == a.myScore + 1
    requires WinsAt(q, a.size, x, y, Opponent) <==> there.view.competitorScore == c.competitorScore + 1
    requires !WinsAt(b, a.size, x, y, Me) && !IsBoardFull(b) ==>
               here == Outcome(a.(board := b, myTurn := false), [MoveMessage(x, y)])
    requires !WinsAt(q, a.size, x, y, Opponent) && !IsBoardFull(q) ==>
               there == Outcome(StartTimer(c.(board := q, myTurn := true)), [])
    ensures here.view.myScore == a.myScore + 1 <==> there.view.competitorScore == c.competitorScore + 1
    ensures !WinsAt(b, a.size, x, y, Me) && !IsBoardFull(b) ==>
              Mirror(here.view.board, there.view.board, a.size) && !here.view.myTurn && there.view.myTurn
  {
  }
}

=== FILE: models.dfy ===
/** The shared records: an account as it travels on the wire, and a board
    point. */
module Models {
  import opened Wrappers
  import opened Text

  /** An account. `isOnline` and `isPlaying` are carried in memory but are
      not part of the wire form. */
  datatype User = User(
    id: int,
    username: string,
    password: string,
    nickname: string,
    avatar: string,
    numGames: int,
    numWins: int,
    numDraws: int,
    isOnline: bool,
    isPlaying: bool,
    rank: int)

  /** A user as a receiver decodes it: both status flags at their defaults. */
  function Received(u: User): User
  {
    u.(isOnline := false, isPlaying := false)
  }

  /** No text field of `u` contains the field separator. */
  predicate CommaFree(u: User)
  {
    Comma !in u.username && Comma !in u.password && Comma !in u.nickname && Comma !in u.avatar
  }

  /** The nine wire fields of `u`, in wire order. */
  function Fields(u: User): (f: seq<string>)
    ensures |f| == 9
  {
    [IntToString(u.id), u.username, u.password, u.nickname, u.avatar,
     IntToString(u.numGames), IntToString(u.numWins), IntToString(u.numDraws),
     IntToString(u.rank)]
  }

  /** `User.to_string`: when the text fields are comma-free, the result splits
      back into exactly the nine fields id, username, password, nickname,
      avatar, games, wins, draws, rank. */
  function ToString(u: User): (s: string)
    ensures CommaFree(u) ==> Split(s, Comma) == Fields(u)
  {
    var s := Join(Fields(u), Comma);
    if CommaFree(u) then SplitJoin(Fields(u), Comma); s else s
  }

  /** Builds a user from the first nine tokens, converting the numeric ones
      with `int()`; a token that is not an integer raises. */
  function FromFields(f: seq<string>): (r: Result<User>)
    requires |f| >= 9
    ensures r.Ok? <==> ParseInt(f[0]).Some? && ParseInt(f[5]).Some? && ParseInt(f[6]).Some?
                       && ParseInt(f[7]).Some? && ParseInt(f[8]).Some?
    ensures r.Ok? ==> r.value.username == f[1] && r.value.password == f[2]
                      && r.value.nickname == f[3] && r.value.avatar == f[4]
                      && Some(r.value.id) == ParseInt(f[0]) && Some(r.value.rank) == ParseInt(f[8])
                      && Some(r.value.numGames) == ParseInt(f[5])
                      && Some(r.value.numWins) == ParseInt(f[6])
                      && Some(r.value.numDraws) == ParseInt(f[7])
                      && !r.value.isOnline && !r.value.isPlaying
  {
    match (ParseInt(f[0]), ParseInt(f[5]), ParseInt(f[6]), ParseInt(f[7]), ParseInt(f[8]))
    case (Some(id), Some(games), Some(wins), Some(draws), Some(rank)) =>
      Ok(User(id, f[1], f[2], f[3], f[4], games, wins, draws, false, false, rank))
    case _ => Raised
  }

  /** `User.from_string`: `None` when there are fewer than nine
      comma-separated tokens, otherwise the user built from the first nine
      (later tokens are ignored); a non-integer numeric token raises. */
  function FromString(s: string): (r: Result<Option<User>>)
    ensures |Split(s, Comma)| < 9 <==> r == Ok(None)
    ensures |Split(s, Comma)| >= 9 ==>
      (r.Raised? <==> FromFields(Split(s, Comma)).Raised?)
      && (r.Ok? ==> r == Ok(Some(FromFields(Split(s, Comma)).value)))
  {
    var parts := Split(s, Comma);
    if |parts| < 9 then Ok(None)
    else match FromFields(parts)
      case Ok(u) => Ok(Some(u))
      case Raised => Raised
  }

  /** Every field survives a round trip through the wire form; the two
      status flags, which are not sent, come back false. */
  lemma UserRoundTrip(u: User)
    requires CommaFree(u)
    ensures FromString(ToString(u)) == Ok(Some(Received(u)))
  {
    assert Split(ToString(u), Comma) == Fields(u);
    FieldsRoundTrip(u);
  }

  /** The nine fields decode to the user they came from. */
  lemma FieldsRoundTrip(u: User)
    ensures FromFields(Fields(u)) == Ok(Received(u))
  {
    IntRoundTrip(u.id);
    IntRoundTrip(u.numGames);
    IntRoundTrip(u.numWins);
    IntRoundTrip(u.numDraws);
    IntRoundTrip(u.rank);
  }

  /** Tokens after the ninth do not influence the decoded user. */
  lemma ExtraTokensIgnored(s: string, extra: string)
    requires |Split(s, Comma)| >= 9
    ensures FromString(s + [Comma] + extra) == FromString(s)
  {
    var p := Split(s, Comma);
    var q := Split(s + [Comma] + extra, Comma);
    SplitAppend(s, Comma, extra);
    assert q[..9] == p[..9];
  }

  /** A board point. */
  datatype Point = Point(x: int, y: int)

  /** The right-hand side of `Point.__eq__`: a point, or any other object. */
  datatype Operand = PointOperand(p: Point) | OtherObject

  /** `Point.__eq__`: equal to another point with the same coordinates, and
      never equal to an object of another type. */
  function PointEquals(p: Point, other: Operand): (r: bool)
    ensures r <==> other == PointOperand(p)
  {
    match other
    case PointOperand(q) => p.x == q.x && p.y == q.y
    case OtherObject => false
  }

  /** `Point.__eq__` is an equivalence: reflexive, symmetric, transitive. */
  lemma PointEqualsEquivalence(a: Point, b: Point, c: Point)
    ensures PointEquals(a, PointOperand(a))
    ensures PointEquals(a, PointOperand(b)) == PointEquals(b, PointOperand(a))
    ensures PointEquals(a, PointOperand(b)) && PointEquals(b, PointOperand(c))
            ==> PointEquals(a, PointOperand(c))
  {
  }
}

=== FILE: register_view.dfy ===
/** The sign-up form. Its fields are stripped of surrounding white space
    and checked in a fixed order; the first failed check is shown as a
    warning and nothing is sent, otherwise one `register` request goes to
    the server. */
module RegisterView {
  import opened Text

  /** The fields as typed; the avatar comes from a chooser and is not
      stripped. */
  datatype Form = Form(username: string, password: string, confirm: string, nickname: string, avatar: string)

  /** The warning shown, or the request sent. */
  datatype Verdict = Incomplete | ShortUsername | ShortPassword | Mismatch | Send(message: string)

  /** The shortest accepted username and password. */
  const MinLength: nat := 4

  /** `register`: empty username, password or nickname first (the
      confirmation may be empty), then a short username, then a short
      password, then a confirmation that differs. */
  function Register(f: Form): (r: Verdict)
    ensures var u, p, c, k := Strip(f.username), Strip(f.password), Strip(f.confirm), Strip(f.nickname);
            && (r == Incomplete <==> |u| == 0 || |p| == 0 || |k| == 0)
            && (r == ShortUsername <==> |u| > 0 && |p| > 0 && |k| > 0 && |u| < MinLength)
            && (r == ShortPassword <==> |u| >= MinLength && |k| > 0 && 0 < |p| < MinLength)
            && (r == Mismatch <==> |u| >= MinLength && |k| > 0 && |p| >= MinLength && p != c)
            && (r.Send? <==> |u| >= MinLength && |k| > 0 && |p| >= MinLength && p == c)
    ensures r.Send? ==>
              r.message == Join(["register", Strip(f.username), Strip(f.password), Strip(f.nickname), f.avatar], Comma)
  {
    var username := Strip(f.username);
    var password := Strip(f.password);
    var confirm := Strip(f.confirm);
    var nickname := Strip(f.nickname);
    if |username| == 0 || |password| == 0 || |nickname| == 0 then Incomplete
    else if |username| < MinLength then ShortUsername
    else if |password| < MinLength then ShortPassword
    else if password != confirm then Mismatch
    else Send(Join(["register", username, password, nickname, f.avatar], Comma))
  }

  /** The server reads back exactly the stripped fields and the avatar,
      as long as none of them holds a comma. */
  lemma RegisterRoundTrip(f: Form)
    requires Register(f).Send?
    requires Comma !in Strip(f.username) && Comma !in Strip(f.password)
    requires Comma !in Strip(f.nickname) && Comma !in f.avatar
    ensures var parts := Split(Register(f).message, Comma);
            && parts == ["register", Strip(f.username), Strip(f.password), Strip(f.nickname), f.avatar]
            && Tok(parts, 1, "") == Strip(f.username) && Tok(parts, 2, "") == Strip(f.password)
            && Tok(parts, 3, "") == Strip(f.nickname) && Tok(parts, 4, "avatar1") == f.avatar
  {
    FieldsRoundTrip(Strip(f.username), Strip(f.password), Strip(f.nickname), f.avatar);
  }

  /** The request line splits back into its command and the four fields. */
  lemma FieldsRoundTrip(username: string, password: string, nickname: string, avatar: string)
    requires Comma !in username && Comma !in password && Comma !in nickname && Comma !in avatar
    ensures var parts := Split(Join(["register", username, password, nickname, avatar], Comma), Comma);
            && parts == ["register", username, password, nickname, avatar]
            && Tok(parts, 1, "") == username && Tok(parts, 2, "") == password
            && Tok(parts, 3, "") == nickname && Tok(parts, 4, "avatar1") == avatar
  {
    var fields := ["register", username, password, nickname, avatar];
    assert forall i :: 0 <= i < |fields| ==> Comma !in fields[i];
    SplitJoin(fields, Comma);
  }
}

=== FILE: room.dfy ===
/** A game room: a host slot, a guest slot and an optional password. A slot
    holds the client number of the connection sitting in it; the account of
    a connection, when it is logged in, is looked up in `accounts`. */
module Rooms {
  import opened Wrappers
  import opened UserDao

  datatype Room = Room(id: int, user1: Option<nat>, user2: Option<nat>, password: string)

  /** Connection number to the id of its logged-in account. */
  type Accounts = map<nat, int>

  /** A new room with `host` in the first slot, no guest and no password. */
  function NewRoom(id: int, host: nat): (r: Room)
    ensures r.id == id && r.user1 == Some(host) && r.user2.None? && r.password == ""
    ensures !IsFull(r) && NumberOfUsers(r) == 1
  {
    Room(id, Some(host), None, "")
  }

  /** `set_password`: only the password changes, and reading it back gives
      what was set. */
  function SetPassword(r: Room, password: string): (q: Room)
    ensures GetPassword(q) == password
    ensures q.id == r.id && q.user1 == r.user1 && q.user2 == r.user2
  {
    r.(password := password)
  }

  function GetPassword(r: Room): string
  {
    r.password
  }

  /** `is_full`: the room is full exactly when the guest slot is taken. */
  predicate IsFull(r: Room)
  {
    r.user2.Some?
  }

  /** `get_number_of_users`: 2 with a guest and 1 otherwise, even when the
      host slot has been emptied. */
  function NumberOfUsers(r: Room): (n: nat)
    ensures n == 2 <==> IsFull(r)
    ensures n == 1 <==> !IsFull(r)
  {
    if r.user2.Some? then 2 else 1
  }

  /** `add_user`: the guest slot now holds `guest` (replacing any guest). */
  function AddUser(r: Room, guest: nat): (q: Room)
    ensures IsFull(q) && q.user2 == Some(guest)
    ensures q.id == r.id && q.user1 == r.user1 && q.password == r.password
  {
    r.(user2 := Some(guest))
  }

  /** `remove_user`: empties the first slot holding `client` (the host slot
      is checked first); a client in neither slot changes nothing. */
  function RemoveUser(r: Room, client: nat): (q: Room)
    ensures q.id == r.id && q.password == r.password
    ensures r.user1 == Some(client) ==> q.user1.None? && q.user2 == r.user2
    ensures r.user1 != Some(client) && r.user2 == Some(client) ==> q.user2.None? && q.user1 == r.user1
    ensures r.user1 != Some(client) && r.user2 != Some(client) ==> q == r
  {
    if r.user1 == Some(client) then r.(user1 := None)
    else if r.user2 == Some(client) then r.(user2 := None)
    else r
  }

  /** A guest who joins and then leaves leaves the room as it was, guest
      slot empty. */
  lemma AddThenRemove(r: Room, guest: nat)
    requires r.user1 != Some(guest)
    ensures RemoveUser(AddUser(r, guest), guest) == r.(user2 := None)
  {
  }

  /** `broadcast`: the occupied slots, host first. */
  function Broadcast(r: Room): (to: seq<nat>)
    ensures forall c :: c in to <==> Some(c) == r.user1 || Some(c) == r.user2
    ensures |to| == (if r.user1.Some? then 1 else 0) + (if r.user2.Some? then 1 else 0)
    ensures r.user1.Some? ==> to[0] == r.user1.value
  {
    (if r.user1.Some? then [r.user1.value] else []) + (if r.user2.Some? then [r.user2.value] else [])
  }

  /** `get_competitor`: for the host, the guest slot; for anyone else
      (including a client in neither slot) the host slot. */
  function GetCompetitor(r: Room, client: nat): (c: Option<nat>)
    ensures r.user1 == Some(client) ==> c == r.user2
    ensures r.user1 != Some(client) ==> c == r.user1
  {
    if r.user1 == Some(client) then r.user2 else r.user1
  }

  /** With two distinct occupants, each is the other's competitor. */
  lemma CompetitorSymmetric(r: Room, a: nat, b: nat)
    requires r.user1 == Some(a) && r.user2 == Some(b) && a != b
    ensures GetCompetitor(r, a) == Some(b) && GetCompetitor(r, b) == Some(a)
  {
  }

  /** The account in a slot, when the slot is taken by a logged-in
      connection. */
  function SlotAccount(accounts: Accounts, slot: Option<nat>): (a: Option<int>)
    ensures a.Some? <==> slot.Some? && slot.value in accounts
    ensures a.Some? ==> a.value == accounts[slot.value]
  {
    if slot.Some? && slot.value in accounts then Some(accounts[slot.value]) else None
  }

  /** `get_competitor_id`: the competitor's account id, `None` when there is
      no competitor or it is not logged in. */
  function GetCompetitorId(r: Room, client: nat, accounts: Accounts): (id: Option<int>)
    ensures id.Some? <==> GetCompetitor(r, client).Some? && GetCompetitor(r, client).value in accounts
    ensures id.Some? ==> id.value == accounts[GetCompetitor(r, client).value]
  {
    SlotAccount(accounts, GetCompetitor(r, client))
  }

  /** How many of the room's logged-in slots belong to account `id`. */
  function Hits(r: Room, accounts: Accounts, id: int): (n: nat)
    ensures n <= 2
  {
    (if SlotAccount(accounts, r.user1) == Some(id) then 1 else 0)
    + (if SlotAccount(accounts, r.user2) == Some(id) then 1 else 0)
  }

  /** `increase_number_of_game`: every logged-in occupant's account gains one
      game (two if both slots hold the same account); nothing else changes. */
  function IncreaseNumberOfGame(r: Room, accounts: Accounts, db: Db): (q: Db)
    ensures db.failing ==> q == db
    ensures SameTables(db, q)
    ensures forall i :: 0 <= i < |db.users| ==>
              q.users[i] == db.users[i].(numGames := db.users[i].numGames
                                          + (if db.failing then 0 else Hits(r, accounts, db.users[i].id)))
  {
    var a1 := SlotAccount(accounts, r.user1);
    var a2 := SlotAccount(accounts, r.user2);
    var db1 := if a1.Some? then AddGame(db, a1.value) else db;
    var q := if a2.Some? then AddGame(db1, a2.value) else db1;
    GamesPerSlot(r, accounts, db, db1, q);
    q
  }

  /** One game per slot holding the account adds up to `Hits` games. */
  lemma GamesPerSlot(r: Room, accounts: Accounts, db: Db, db1: Db, q: Db)
    requires SameTables(db, db1) && SameTables(db1, q)
    requires forall i :: 0 <= i < |db.users| ==>
               db1.users[i] == if !db.failing && SlotAccount(accounts, r.user1) == Some(db.users[i].id)
                               then db.users[i].(numGames := db.users[i].numGames + 1) else db.users[i]
    requires forall i :: 0 <= i < |db1.users| ==>
               q.users[i] == if !db1.failing && SlotAccount(accounts, r.user2) == Some(db1.users[i].id)
                             then db1.users[i].(numGames := db1.users[i].numGames + 1) else db1.users[i]
    ensures forall i :: 0 <= i < |db.users| ==>
              q.users[i] == db.users[i].(numGames := db.users[i].numGames
                                          + (if db.failing then 0 else Hits(r, accounts, db.users[i].id)))
  {
    forall i | 0 <= i < |db.users|
      ensures q.users[i] == db.users[i].(numGames := db.users[i].numGames
                                          + (if db.failing then 0 else Hits(r, accounts, db.users[i].id)))
    {
      assert db1.users[i].id == db.users[i].id;
    }
  }

  /** `increase_draw`: every logged-in occupant's account gains one draw. */
  function IncreaseDraw(r: Room, accounts: Accounts, db: Db): (q: Db)
    ensures db.failing ==> q == db
    ensures SameTables(db, q)
    ensures forall i :: 0 <= i < |db.users| ==>
              q.users[i] == db.users[i].(numDraws := db.users[i].numDraws
                                          + (if db.failing then 0 else Hits(r, accounts, db.users[i].id)))
  {
    var a1 := SlotAccount(accounts, r.user1);
    var a2 := SlotAccount(accounts, r.user2);
    var db1 := if a1.Some? then AddDraw(db, a1.value) else db;
    var q := if a2.Some? then AddDraw(db1, a2.value) else db1;
    DrawsPerSlot(r, accounts, db, db1, q);
    q
  }

  /** One draw per slot holding the account adds up to `Hits` draws. */
  lemma DrawsPerSlot(r: Room, accounts: Accounts, db: Db, db1: Db, q: Db)
    requires SameTables(db, db1) && SameTables(db1, q)
    requires forall i :: 0 <= i < |db.users| ==>
               db1.users[i] == if !db.failing && SlotAccount(accounts, r.user1) == Some(db.users[i].id)
                               then db.users[i].(numDraws := db.users[i].numDraws + 1) else db.users[i]
    requires forall i :: 0 <= i < |db1.users| ==>
               q.users[i] == if !db1.failing && SlotAccount(accounts, r.user2) == Some(db1.users[i].id)
                             then db1.users[i].(numDraws := db1.users[i].numDraws + 1) else db1.users[i]
    ensures forall i :: 0 <= i < |db.users| ==>
              q.users[i] == db.users[i].(numDraws := db.users[i].numDraws
                                          + (if db.failing then 0 else Hits(r, accounts, db.users[i].id)))
  {
    forall i | 0 <= i < |db.users|
      ensures q.users[i] == db.users[i].(numDraws := db.users[i].numDraws
                                          + (if db.failing then 0 else Hits(r, accounts, db.users[i].id)))
    {
      assert db1.users[i].id == db.users[i].id;
    }
  }

  /** `set_users_to_playing`: the logged-in occupants' accounts are marked
      playing; other rows are untouched. */
  function SetUsersToPlaying(r: Room, accounts: Accounts, db: Db): (q: Db)
    ensures db.failing ==> q == db
    ensures SameTables(db, q)
    ensures forall i :: 0 <= i < |db.users| ==>
              q.users[i] == if !db.failing && Hits(r, accounts, db.users[i].id) > 0
                            then db.users[i].(isPlaying := true) else db.users[i]
  {
    var a1 := SlotAccount(accounts, r.user1);
    var a2 := SlotAccount(accounts, r.user2);
    var db1 := if a1.Some? then UpdateToPlaying(db, a1.value) else db;
    if a2.Some? then UpdateToPlaying(db1, a2.value) else db1
  }

  /** `set_users_to_not_playing`: the logged-in occupants' accounts are
      marked not playing; other rows are untouched. */
  function SetUsersToNotPlaying(r: Room, accounts: Accounts, db: Db): (q: Db)
    ensures db.failing ==> q == db
    ensures SameTables(db, q)
    ensures forall i :: 0 <= i < |db.users| ==>
              q.users[i] == if !db.failing && Hits(r, accounts, db.users[i].id) > 0
                            then db.users[i].(isPlaying := false) else db.users[i]
  {
    var a1 := SlotAccount(accounts, r.user1);
    var a2 := SlotAccount(accounts, r.user2);
    var db1 := if a1.Some? then UpdateToNotPlaying(db, a1.value) else db;
    if a2.Some? then UpdateToNotPlaying(db1, a2.value) else db1
  }

  /** `increase_win`: the slot holding `client` (host checked first) gains
      a win on its account. A client in neither slot changes nothing; a
      matched slot whose connection is not logged in raises, because the
      program reads the account without checking for `None`. */
  function IncreaseWin(r: Room, client: nat, accounts: Accounts, db: Db): (q: Result<Db>)
    ensures q.Raised? <==> (r.user1 == Some(client) || r.user2 == Some(client)) && client !in accounts
    ensures q.Ok? && (r.user1 == Some(client) || r.user2 == Some(client)) ==>
              q.value == AddWin(db, accounts[client])
    ensures q.Ok? && r.user1 != Some(client) && r.user2 != Some(client) ==> q.value == db
  {
    if r.user1 == Some(client) || r.user2 == Some(client) then
      if client in accounts then Ok(AddWin(db, accounts[client])) else Raised
    else Ok(db)
  }

  /** An accepted draw, settled on an account that sits in exactly one slot:
      one more game, one more draw, no longer playing. */
  lemma DrawRow(r: Room, accounts: Accounts, db: Db, i: nat)
    requires !db.failing && i < |db.users| && Hits(r, accounts, db.users[i].id) == 1
    ensures SetUsersToNotPlaying(r, accounts, IncreaseDraw(r, accounts, IncreaseNumberOfGame(r, accounts, db))).users[i]
            == db.users[i].(numGames := db.users[i].numGames + 1, numDraws := db.users[i].numDraws + 1,
                            isPlaying := false)
  {
    var games := IncreaseNumberOfGame(r, accounts, db);
    var draws := IncreaseDraw(r, accounts, games);
    assert draws.users[i] == db.users[i].(numGames := db.users[i].numGames + 1,
                                          numDraws := db.users[i].numDraws + 1);
  }

  /** A won game, settled: the winner's account (in exactly one slot) gains
      a game and a win, the loser's (in the other slot) a game only, and
      both stop playing. */
  lemma WinRows(r: Room, winner: nat, accounts: Accounts, db: Db, i: nat, j: nat)
    requires !db.failing && i < |db.users| && j < |db.users|
    requires r.user1 == Some(winner) || r.user2 == Some(winner)
    requires winner in accounts && db.users[i].id == accounts[winner] && db.users[j].id != accounts[winner]
    requires Hits(r, accounts, db.users[i].id) == 1 && Hits(r, accounts, db.users[j].id) == 1
    ensures var won := IncreaseWin(r, winner, accounts, IncreaseNumberOfGame(r, accounts, db));
      && won.Ok?
      && SetUsersToNotPlaying(r, accounts, won.value).users[i]
         == db.users[i].(numGames := db.users[i].numGames + 1, numWins := db.users[i].numWins + 1,
                         isPlaying := false)
      && SetUsersToNotPlaying(r, accounts, won.value).users[j]
         == db.users[j].(numGames := db.users[j].numGames + 1, isPlaying := false)
  {
    var games := IncreaseNumberOfGame(r, accounts, db);
    var won := AddWin(games, accounts[winner]);
    assert won.users[i] == db.users[i].(numGames := db.users[i].numGames + 1, numWins := db.users[i].numWins + 1);
    assert won.users[j] == db.users[j].(numGames := db.users[j].numGames + 1);
  }
}

=== FILE: server_thread.dfy ===
/** The server side of a connection (`ServerThread`) together with the
    server's accept loop: the state every connection thread shares, the
    handling of each client command, closing, and the receive loop. */
module ServerThread {
  import opened Wrappers
  import opened Text
  import opened Framing
  import opened Models
  import opened UserDao
  import opened Rooms
  import opened Bus

  /** One client connection: its client number, peer address, the account
      it is logged in as, the room it last entered, and whether it is
      closed. */
  datatype Conn = Conn(number: nat, ip: string, user: Option<User>, room: Option<int>, closed: bool)

  /** Everything the connection threads share: every connection and room
      ever created (closed ones stay, as Python objects do while referenced),
      the bus, the store, and the next client number. */
  datatype State = State(
    conns: map<nat, Conn>,
    rooms: map<int, Room>,
    bus: ThreadBus,
    db: Db,
    nextClient: nat)

  /** The result of handling one message: the new state, the lines written in
      order, and whether the handler raised. */
  datatype Step = Step(st: State, out: seq<Out>, raised: bool)

  /** The server before any client connects: client numbers start at 0. */
  function Initial(db: Db): (st: State)
    ensures Valid(st) && st.nextClient == 0 && st.conns == map[]
  {
    State(map[], map[], NewBus(), db, 0)
  }

  // ---------------------------------------------------------------------
  // The shared-state invariant

  /** No element occurs twice. */
  ghost predicate Distinct<T(!new)>(s: seq<T>)
  {
    forall x :: multiset(s)[x] <= 1
  }

  predicate IsOpen(st: State, n: nat)
  {
    n in st.conns && !st.conns[n].closed
  }

  ghost predicate SlotKnown(st: State, slot: Option<nat>)
  {
    slot.Some? ==> slot.value in st.conns
  }

  ghost predicate RoomKnown(st: State, id: int)
    requires id in st.rooms
  {
    st.rooms[id].id == id && id < st.bus.nextRoomId
    && SlotKnown(st, st.rooms[id].user1) && SlotKnown(st, st.rooms[id].user2)
  }

  /** Connections are keyed by their number and numbered below the counter;
      rooms are keyed by their id, below the room counter, and their slots
      name known connections; the bus lists each open connection exactly once
      and nothing else, and lists known rooms at most once. */
  ghost predicate Valid(st: State)
  {
    && (forall n :: n in st.conns ==> st.conns[n].number == n && n < st.nextClient)
    && (forall n :: n in st.conns && st.conns[n].room.Some? ==> st.conns[n].room.value in st.rooms)
    && (forall id :: id in st.rooms ==> RoomKnown(st, id))
    && (forall id :: id in st.bus.rooms ==> id in st.rooms)
    && (forall n :: n in st.bus.threads <==> IsOpen(st, n))
    && Distinct(st.bus.threads) && Distinct(st.bus.rooms)
  }

  /** Removing from a list without repeats removes the element entirely and
      keeps every other element, still without repeats. */
  lemma RemoveFirstDistinct<T(!new)>(s: seq<T>, x: T)
    requires Distinct(s)
    ensures Distinct(RemoveFirst(s, x)) && x !in RemoveFirst(s, x)
    ensures forall y :: y in s && y != x ==> y in RemoveFirst(s, x)
    ensures forall y :: y in RemoveFirst(s, x) ==> y in s
  {
    var r := RemoveFirst(s, x);
    assert multiset(r)[x] == 0;
    forall y | y in s && y != x ensures y in r {
      assert multiset(r)[y] == multiset(s)[y];
    }
    forall y | y in r ensures y in s {
      assert multiset(r)[y] <= multiset(s)[y];
    }
  }

  /** Appending an element not yet listed keeps a list without repeats. */
  lemma AppendDistinct<T(!new)>(s: seq<T>, x: T)
    requires Distinct(s) && x !in s
    ensures Distinct(s + [x])
  {
    assert multiset(s + [x]) == multiset(s) + multiset{x};
  }

  // ---------------------------------------------------------------------
  // Writing

  /** `write`: a line reaches only a connection that is not closed. */
  function Write(st: State, to: nat, text: string): (out: seq<Out>)
    ensures IsOpen(st, to) ==> out == [Out(to, text)]
    ensures !IsOpen(st, to) ==> out == []
  {
    if IsOpen(st, to) then [Out(to, text)] else []
  }

  /** The lines of `outs` addressed to open connections, in order. */
  function Deliver(st: State, outs: seq<Out>): (r: seq<Out>)
    ensures forall o :: o in r <==> o in outs && IsOpen(st, o.to)
  {
    if |outs| == 0 then []
    else Write(st, outs[0].to, outs[0].text) + Deliver(st, outs[1..])
  }

  /** `ServerThreadBus.broadcast` from `sender`: every other open connection
      on the bus gets the line, and only those. */
  function BroadcastFrom(st: State, sender: nat, text: string): (out: seq<Out>)
    ensures forall o :: o in out ==> o.text == text && o.to != sender && IsOpen(st, o.to)
    ensures forall n :: n in st.bus.threads && n != sender && IsOpen(st, n) ==> Out(n, text) in out
  {
    Deliver(st, Bus.Broadcast(st.bus.threads, sender, text))
  }

  /** The account id of each logged-in connection. */
  function Accounts(st: State): (a: map<nat, int>)
    ensures forall n :: n in a <==> n in st.conns && st.conns[n].user.Some?
    ensures forall n :: n in a ==> a[n] == st.conns[n].user.value.id
  {
    map n | n in st.conns && st.conns[n].user.Some? :: st.conns[n].user.value.id
  }

  // ---------------------------------------------------------------------
  // Message texts

  /** `'1'` for true and `'0'` for false. */
  function Flag(b: bool): (s: string)
    ensures s == "1" <==> b
    ensures Comma !in s
  {
    if b then "1" else "0"
  }

  const OnlineSuffix: string := " \U{0111}ang online"
  const OfflineSuffix: string := " \U{0111}\U{00E3} offline"

  /** `chat-server,<text>`. */
  function ChatServer(text: string): string
  {
    Join(["chat-server", text], Comma)
  }

  function LoginSuccess(u: User): string
  {
    Join(["login-success", ToString(u)], Comma)
  }

  /** One line of the room list: id, number of players, host nickname,
      whether it has a password. */
  datatype RoomEntry = RoomEntry(id: int, players: int, host: string, hasPassword: bool)

  function RoomTokens(e: RoomEntry): (t: seq<string>)
    ensures |t| == 4
  {
    [IntToString(e.id), IntToString(e.players), e.host, Flag(e.hasPassword)]
  }

  /** The listed rooms whose host slot holds a logged-in connection, in list
      order. */
  function RoomEntries(st: State, listed: seq<int>): (es: seq<RoomEntry>)
    requires forall id :: id in listed ==> id in st.rooms
    requires forall id :: id in st.rooms ==> SlotKnown(st, st.rooms[id].user1)
    ensures |es| <= |listed|
  {
    if |listed| == 0 then []
    else
      var first := listed[0];
      assert first in listed;
      assert forall id :: id in listed[1..] ==> id in listed;
      var room := st.rooms[first];
      var rest := RoomEntries(st, listed[1..]);
      if room.user1.Some? && st.conns[room.user1.value].user.Some? then
        [RoomEntry(room.id, NumberOfUsers(room), st.conns[room.user1.value].user.value.nickname,
                   room.password != "")] + rest
      else rest
  }

  /** The `room-list` reply: the header, then `,id,players,host,flag` per
      room. */
  function RoomListMessage(es: seq<RoomEntry>): string
  {
    Listing("room-list", seq(|es|, i requires 0 <= i < |es| => RoomTokens(es[i])))
  }

  /** One `friend-list` entry: id, nickname, online flag, playing flag. */
  function FriendTokens(f: User): (t: seq<string>)
    ensures |t| == 4
  {
    [IntToString(f.id), f.nickname, Flag(f.isOnline), Flag(f.isPlaying)]
  }

  /** The `friend-list` reply: the header, then the four fields per friend. */
  function FriendListMessage(fs: seq<User>): string
  {
    Listing("friend-list", seq(|fs|, i requires 0 <= i < |fs| => FriendTokens(fs[i])))
  }

  /** The `return-get-rank-charts` reply: the header, then the nine wire
      fields of each ranked user. */
  function RankMessage(us: seq<User>): string
  {
    Listing("return-get-rank-charts", seq(|us|, i requires 0 <= i < |us| => Fields(us[i])))
  }

  /** `go-to-room,<room>,<ip>,<1 for the host, 0 for the guest>,<user>`. */
  function GoToRoomMessage(room: int, ip: string, isHost: bool, u: User): string
  {
    Join(["go-to-room", IntToString(room), ip, Flag(isHost), ToString(u)], Comma)
  }

  /** `new-room,<id>,1,<host nickname>,<has password>`. */
  function NewRoomMessage(id: int, host: string, hasPassword: bool): string
  {
    Join(["new-room", IntToString(id), "1", host, Flag(hasPassword)], Comma)
  }

  // ---------------------------------------------------------------------
  // State updates

  function SetConn(st: State, n: nat, c: Conn): State
  {
    st.(conns := st.conns[n := c])
  }

  function SetRoom(st: State, id: int, r: Room): State
  {
    st.(rooms := st.rooms[id := r])
  }

  /** Replaces a connection's login and room fields, keeping it open. */
  lemma SetConnValid(st: State, n: nat, c: Conn)
    requires Valid(st) && IsOpen(st, n)
    requires c.number == n && !c.closed
    requires c.room.Some? ==> c.room.value in st.rooms
    ensures Valid(SetConn(st, n, c))
  {
    var s := SetConn(st, n, c);
    forall m | m in s.bus.threads ensures IsOpen(s, m) {
    }
    forall m | IsOpen(s, m) ensures m in s.bus.threads {
      assert IsOpen(st, m);
    }
    forall id | id in s.rooms ensures RoomKnown(s, id) {
      assert RoomKnown(st, id);
    }
  }

  /** Replaces a room with one whose slots name known connections. */
  lemma SetRoomValid(st: State, id: int, r: Room)
    requires Valid(st) && id in st.rooms
    requires r.id == id && SlotKnown(st, r.user1) && SlotKnown(st, r.user2)
    ensures Valid(SetRoom(st, id, r))
  {
    var s := SetRoom(st, id, r);
    forall k | k in s.rooms ensures RoomKnown(s, k) {
      if k != id {
        assert RoomKnown(st, k);
      }
    }
  }

  /** The store is not part of the invariant. */
  lemma SetDbValid(st: State, db: Db)
    requires Valid(st)
    ensures Valid(st.(db := db))
  {
    var s := st.(db := db);
    forall id | id in s.rooms ensures RoomKnown(s, id) {
      assert RoomKnown(st, id);
    }
  }

  // ---------------------------------------------------------------------
  // Commands

  /** Marks connection `me` as logged in as `user`, sets the account online
      and announces it to every other connection. */
  function LogIn(st: State, me: nat, user: User): (r: Step)
    requires Valid(st) && IsOpen(st, me)
    ensures Valid(r.st) && IsOpen(r.st, me) && !r.raised
    ensures r.st == SetConn(st, me, st.conns[me].(user := Some(user))).(db := UpdateToOnline(st.db, user.id))
    ensures r.out == BroadcastFrom(r.st, me, ChatServer(user.nickname + OnlineSuffix))
  {
    var c := st.conns[me];
    SetConnValid(st, me, c.(user := Some(user)));
    SetDbValid(SetConn(st, me, c.(user := Some(user))), UpdateToOnline(st.db, user.id));
    var st1 := SetConn(st, me, c.(user := Some(user))).(db := UpdateToOnline(st.db, user.id));
    Step(st1, BroadcastFrom(st1, me, ChatServer(user.nickname + OnlineSuffix)), false)
  }

  /** `client-verify,<username>,<password>`: logs in when an account has
      exactly these credentials and is neither online nor banned; otherwise
      answers why not, wrong credentials first, then banned, then already
      logged in. */
  function ClientVerify(st: State, me: nat, parts: seq<string>): (r: Step)
    requires Valid(st) && IsOpen(st, me)
    ensures Valid(r.st) && IsOpen(r.st, me) && !r.raised
    ensures var found := VerifyUser(st.db, Tok(parts, 1, ""), Tok(parts, 2, ""));
      found.Some? && !found.value.isOnline && !CheckIsBanned(st.db, found.value.id) ==>
        r.st.conns[me].user == found
        && r.st.db == UpdateToOnline(st.db, found.value.id)
        && |r.out| > 0 && r.out[0] == Out(me, LoginSuccess(found.value))
    ensures var username := Tok(parts, 1, "");
      var password := Tok(parts, 2, "");
      var found := VerifyUser(st.db, username, password);
      !(found.Some? && !found.value.isOnline && !CheckIsBanned(st.db, found.value.id)) ==>
        r.st == st
        && r.out == [Out(me, Join([if found.None? then "wrong-user"
                                   else if CheckIsBanned(st.db, found.value.id) then "banned-user"
                                   else "dupplicate-login", username, password], Comma))]
  {
    var username := Tok(parts, 1, "");
    var password := Tok(parts, 2, "");
    match VerifyUser(st.db, username, password)
    case None =>
      Step(st, Write(st, me, Join(["wrong-user", username, password], Comma)), false)
    case Some(user) =>
      if !user.isOnline && !CheckIsBanned(st.db, user.id) then
        var out1 := Write(st, me, LoginSuccess(user));
        var s := LogIn(st, me, user);
        Step(s.st, out1 + s.out, false)
      else if CheckIsBanned(st.db, user.id) then
        Step(st, Write(st, me, Join(["banned-user", username, password], Comma)), false)
      else
        Step(st, Write(st, me, Join(["dupplicate-login", username, password], Comma)), false)
  }

  /** `register,<username>,<password>,<nickname>[,<avatar>]`: a taken
      username is refused; otherwise the account is created (avatar
      "avatar1" when none is given). */
  function Register(st: State, me: nat, parts: seq<string>): (r: Step)
    requires Valid(st) && IsOpen(st, me)
    ensures Valid(r.st) && IsOpen(r.st, me) && !r.raised
    ensures CheckDuplicated(st.db, Tok(parts, 1, "")) ==>
              r.st == st && r.out == [Out(me, "duplicate-username,")]
    ensures !CheckDuplicated(st.db, Tok(parts, 1, "")) ==>
              r == CreateAccount(st, me, Tok(parts, 1, ""), Tok(parts, 2, ""), Tok(parts, 3, ""),
                                 Tok(parts, 4, "avatar1"))
  {
    var username := Tok(parts, 1, "");
    if CheckDuplicated(st.db, username) then
      Step(st, Write(st, me, "duplicate-username,"), false)
    else
      CreateAccount(st, me, username, Tok(parts, 2, ""), Tok(parts, 3, ""), Tok(parts, 4, "avatar1"))
  }

  /** The new account is stored with the next id and zeroed counters, logged
      in on this connection and announced, and the connection told so last.
      When the store fails nothing happens. */
  function CreateAccount(st: State, me: nat, username: string, password: string, nickname: string,
                         avatar: string): (r: Step)
    requires Valid(st) && IsOpen(st, me) && !CheckDuplicated(st.db, username)
    ensures Valid(r.st) && IsOpen(r.st, me) && !r.raised
    ensures st.db.failing ==> r.st == st && r.out == []
    ensures !st.db.failing ==>
      var added := UserDao.AddUser(st.db, username, password, nickname, avatar).0;
      var user := VerifyUser(added, username, password);
      && user.Some?
      && r.st.db == UpdateToOnline(added, user.value.id)
      && r.st.conns[me].user == user
      && |r.out| > 0 && r.out[|r.out| - 1] == Out(me, LoginSuccess(user.value))
  {
    if st.db.failing then Step(st, [], false)
    else
      var added := UserDao.AddUser(st.db, username, password, nickname, avatar).0;
      RegisteredCanLogIn(st.db, username, password, nickname, avatar);
      var user := VerifyUser(added, username, password).value;
      SetDbValid(st, added);
      var s := LogIn(st.(db := added), me, user);
      Step(s.st, s.out + Write(s.st, me, LoginSuccess(user)), false)
  }

  /** `offline`: a logged-in connection logs out, its account goes offline
      (and not playing) and the others are told; otherwise nothing. */
  function Offline(st: State, me: nat): (r: Step)
    requires Valid(st) && IsOpen(st, me)
    ensures Valid(r.st) && IsOpen(r.st, me) && !r.raised
    ensures r.st.conns[me].user.None?
    ensures st.conns[me].user.Some? ==>
              r.st.db == UpdateToOffline(st.db, st.conns[me].user.value.id)
              && r.out == BroadcastFrom(st, me, ChatServer(st.conns[me].user.value.nickname + OfflineSuffix))
    ensures st.conns[me].user.None? ==> r.st == st && r.out == []
  {
    var c := st.conns[me];
    match c.user
    case None => Step(st, [], false)
    case Some(user) =>
      var out := BroadcastFrom(st, me, ChatServer(user.nickname + OfflineSuffix));
      SetConnValid(st, me, c.(user := None));
      SetDbValid(SetConn(st, me, c.(user := None)), UpdateToOffline(st.db, user.id));
      Step(SetConn(st, me, c.(user := None)).(db := UpdateToOffline(st.db, user.id)), out, false)
  }

  /** `view-friend-list`: a logged-in connection gets its friends. */
  function ViewFriendList(st: State, me: nat): (r: Step)
    requires Valid(st) && IsOpen(st, me)
    ensures r.st == st && !r.raised
    ensures st.conns[me].user.Some? ==>
              r.out == [Out(me, FriendListMessage(GetListFriend(st.db, st.conns[me].user.value.id)))]
    ensures st.conns[me].user.None? ==> r.out == []
  {
    match st.conns[me].user
    case None => Step(st, [], false)
    case Some(user) => Step(st, Write(st, me, FriendListMessage(GetListFriend(st.db, user.id))), false)
  }

  /** `get-rank-charts`: anyone gets the rank list. */
  function GetRankCharts(st: State, me: nat): (r: Step)
    requires Valid(st) && IsOpen(st, me)
    ensures r.st == st && !r.raised && r.out == [Out(me, RankMessage(GetRankList(st.db)))]
  {
    Step(st, Write(st, me, RankMessage(GetRankList(st.db))), false)
  }

  /** `check-friend,<id>`: a logged-in connection learns whether it is friends
      with account `id`; an id that is not an integer raises. */
  function CheckFriendCommand(st: State, me: nat, parts: seq<string>): (r: Step)
    requires Valid(st) && IsOpen(st, me)
    ensures r.st == st
    ensures r.raised <==> st.conns[me].user.Some? && |parts| > 1 && ParseInt(parts[1]).None?
    ensures st.conns[me].user.Some? && |parts| > 1 && ParseInt(parts[1]).Some? ==>
              r.out == [Out(me, Join(["check-friend-response",
                          Flag(CheckFriend(st.db, st.conns[me].user.value.id, ParseInt(parts[1]).value))], Comma))]
    ensures st.conns[me].user.None? || |parts| <= 1 ==> r.out == []
  {
    if st.conns[me].user.Some? && |parts| > 1 then
      match ParseInt(parts[1])
      case None => Step(st, [], true)
      case Some(friend) =>
        var isFriend := CheckFriend(st.db, st.conns[me].user.value.id, friend);
        Step(st, Write(st, me, Join(["check-friend-response", Flag(isFriend)], Comma)), false)
    else Step(st, [], false)
  }

  /** `get-list-room`: anyone gets the listed rooms whose host is logged
      in. */
  function GetListRoom(st: State, me: nat): (r: Step)
    requires Valid(st) && IsOpen(st, me)
    ensures r.st == st && !r.raised && r.out == [Out(me, RoomListMessage(RoomEntries(st, st.bus.rooms)))]
  {
    Step(st, Write(st, me, RoomListMessage(RoomEntries(st, st.bus.rooms))), false)
  }

  /** `ServerThreadBus.broadcast_new_room`: when the host of the room is
      logged in, every other connection hears of the room. */
  function BroadcastNewRoom(st: State, id: int): (out: seq<Out>)
    requires Valid(st) && id in st.rooms
    ensures var room := st.rooms[id];
      && (room.user1.None? || room.user1.value !in st.conns || st.conns[room.user1.value].user.None? ==> out == [])
      && (room.user1.Some? && room.user1.value in st.conns && st.conns[room.user1.value].user.Some? ==>
            var host := room.user1.value;
            var text := NewRoomMessage(id, st.conns[host].user.value.nickname, room.password != "");
            && (forall o :: o in out ==> o.text == text && o.to != host && IsOpen(st, o.to))
            && (forall n :: n in st.bus.threads && n != host && IsOpen(st, n) ==> Out(n, text) in out))
  {
    var room := st.rooms[id];
    if room.user1.Some? && st.conns[room.user1.value].user.Some? then
      BroadcastFrom(st, room.user1.value,
                    NewRoomMessage(id, st.conns[room.user1.value].user.value.nickname, room.password != ""))
    else []
  }

  /** `create-room[,<password>]`: a fresh room with this connection as host
      is listed last and entered; the creator is told its id and the others
      hear of it. No login is required. */
  function CreateRoom(st: State, me: nat, parts: seq<string>): (r: Step)
    requires Valid(st) && IsOpen(st, me)
    ensures Valid(r.st) && IsOpen(r.st, me) && !r.raised
    ensures var id := st.bus.nextRoomId;
      && id !in st.rooms
      && r.st.rooms == st.rooms[id := Room(id, Some(me), None, Tok(parts, 1, ""))]
      && r.st.bus.rooms == st.bus.rooms + [id] && r.st.bus.nextRoomId == id + 1
      && r.st.conns[me].room == Some(id) && r.st.conns[me].user == st.conns[me].user
      && r.st.db == st.db
      && r.out == [Out(me, Join(["create-room-success", IntToString(id)], Comma))] + BroadcastNewRoom(r.st, id)
      && (st.conns[me].user.None? ==> r.out == [Out(me, Join(["create-room-success", IntToString(id)], Comma))])
  {
    var password := Tok(parts, 1, "");
    var (id, bus1) := GetNextRoomId(st.bus);
    var room0 := NewRoom(id, me);
    var room := if password != "" then SetPassword(room0, password) else room0;
    assert id !in st.rooms by {
      forall k | k in st.rooms ensures k < id { assert RoomKnown(st, k); }
    }
    var c := st.conns[me];
    var st1 := st.(rooms := st.rooms[id := room], bus := AddRoom(bus1, id), conns := st.conns[me := c.(room := Some(id))]);
    assert Valid(st1) by {
      assert id !in st.bus.rooms;
      AppendDistinct(st.bus.rooms, id);
      forall k | k in st1.rooms ensures RoomKnown(st1, k) {
        if k != id { assert RoomKnown(st, k); }
      }
      forall m | IsOpen(st1, m) ensures m in st1.bus.threads {
        assert IsOpen(st, m);
      }
    }
    Step(st1, Write(st1, me, Join(["create-room-success", IntToString(id)], Comma)) + BroadcastNewRoom(st1, id), false)
  }

  /** The competitor of `me` in the room it last entered. */
  function Competitor(st: State, me: nat): (c: Option<nat>)
    requires Valid(st) && me in st.conns
    ensures c.Some? ==> c.value in st.conns
  {
    match st.conns[me].room
    case None => None
    case Some(rid) =>
      assert RoomKnown(st, rid);
      GetCompetitor(st.rooms[rid], me)
  }

  /** A line to the competitor, if there is one. */
  function ToCompetitor(st: State, me: nat, text: string): (out: seq<Out>)
    requires Valid(st) && me in st.conns
    ensures Competitor(st, me).Some? ==> out == Write(st, Competitor(st, me).value, text)
    ensures Competitor(st, me).None? ==> out == []
  {
    match Competitor(st, me)
    case None => []
    case Some(c) => Write(st, c, text)
  }

  /** `go_to_partner_room`: the guest `me` is sent the host's address and
      account; a host connection that is not logged in raises. */
  function GoToPartnerRoom(st: State, me: nat): (r: Step)
    requires Valid(st) && me in st.conns
    ensures r.st == st
    ensures var host := if RoomOf(st, me).Some? then RoomOf(st, me).value.user1 else None;
      && (host.None? ==> r == Step(st, [], false))
      && (host.Some? ==> host.value in st.conns
                         && (r.raised <==> st.conns[host.value].user.None?)
                         && (st.conns[host.value].user.Some? ==>
                               r.out == Write(st, me, GoToRoomMessage(st.conns[me].room.value,
                                                                      st.conns[host.value].ip, false,
                                                                      st.conns[host.value].user.value))))
  {
    match st.conns[me].room
    case None => Step(st, [], false)
    case Some(rid) =>
      assert RoomKnown(st, rid);
      match st.rooms[rid].user1
      case None => Step(st, [], false)
      case Some(host) =>
        match st.conns[host].user
        case None => Step(st, [], true)
        case Some(u) => Step(st, Write(st, me, GoToRoomMessage(rid, st.conns[host].ip, false, u)), false)
  }

  /** `go_to_own_room`: the host `host` is sent the guest's address and
      account, for the room the host last entered; a guest connection that is
      not logged in raises. */
  function GoToOwnRoom(st: State, host: nat): (r: Step)
    requires Valid(st) && host in st.conns
    ensures r.st == st
    ensures var guest := if RoomOf(st, host).Some? then RoomOf(st, host).value.user2 else None;
      && (guest.None? ==> r == Step(st, [], false))
      && (guest.Some? ==> guest.value in st.conns
                          && (r.raised <==> st.conns[guest.value].user.None?)
                          && (st.conns[guest.value].user.Some? ==>
                                r.out == Write(st, host, GoToRoomMessage(st.conns[host].room.value,
                                                                         st.conns[guest.value].ip, true,
                                                                         st.conns[guest.value].user.value))))
  {
    match st.conns[host].room
    case None => Step(st, [], false)
    case Some(rid) =>
      assert RoomKnown(st, rid);
      match st.rooms[rid].user2
      case None => Step(st, [], false)
      case Some(guest) =>
        match st.conns[guest].user
        case None => Step(st, [], true)
        case Some(u) => Step(st, Write(st, host, GoToRoomMessage(rid, st.conns[guest].ip, true, u)), false)
  }

  /** How a `join-room` request is answered. */
  datatype JoinOutcome = NotFound | Fully | WrongPassword | Joined

  /** The checks of `join-room`, in the order of the `join-room` handler: the room must be
      listed, not full, and either open or matched by the password. */
  function JoinCheck(st: State, rid: int, password: string): (o: JoinOutcome)
    requires Valid(st)
    ensures o == Joined <==> rid in st.bus.rooms && !IsFull(st.rooms[rid])
                             && (st.rooms[rid].password == "" || st.rooms[rid].password == password)
  {
    if FindRoom(st.bus, rid).None? then NotFound
    else if IsFull(st.rooms[rid]) then Fully
    else if st.rooms[rid].password != "" && st.rooms[rid].password != password then WrongPassword
    else Joined
  }

  /** `join-room,<id>[,<password>]`: without an id nothing happens, and an
      id that is not an integer raises. */
  function JoinRoom(st: State, me: nat, parts: seq<string>): (r: Step)
    requires Valid(st) && IsOpen(st, me)
    ensures Valid(r.st) && me in r.st.conns && (!r.raised ==> IsOpen(r.st, me))
    ensures |parts| <= 1 ==> r == Step(st, [], false)
    ensures |parts| > 1 && ParseInt(parts[1]).None? ==> r == Step(st, [], true)
    ensures |parts| > 1 && ParseInt(parts[1]).Some? ==> r == JoinRoomId(st, me, ParseInt(parts[1]).value, Tok(parts, 2, ""))
  {
    if |parts| <= 1 then Step(st, [], false)
    else match ParseInt(parts[1])
      case None => Step(st, [], true)
      case Some(rid) => JoinRoomId(st, me, rid, Tok(parts, 2, ""))
  }

  /** Joining room `rid`: refused with the first failing check; otherwise
      `me` takes the guest slot and enters the room, then the guest and the
      host are each sent the other's details. */
  function JoinRoomId(st: State, me: nat, rid: int, password: string): (r: Step)
    requires Valid(st) && IsOpen(st, me)
    ensures Valid(r.st) && me in r.st.conns && (!r.raised ==> IsOpen(r.st, me))
    ensures JoinCheck(st, rid, password) == NotFound ==> r == Step(st, [Out(me, "room-not-found,")], false)
    ensures JoinCheck(st, rid, password) == Fully ==> r == Step(st, [Out(me, "room-fully,")], false)
    ensures JoinCheck(st, rid, password) == WrongPassword ==>
              r == Step(st, [Out(me, "room-wrong-password,")], false)
    ensures JoinCheck(st, rid, password) == Joined ==>
              rid in st.rooms && r == Announce(Enter(st, me, rid), me, st.rooms[rid].user1)
  {
    match JoinCheck(st, rid, password)
    case NotFound => Step(st, Write(st, me, "room-not-found,"), false)
    case Fully => Step(st, Write(st, me, "room-fully,"), false)
    case WrongPassword => Step(st, Write(st, me, "room-wrong-password,"), false)
    case Joined => Announce(Enter(st, me, rid), me, st.rooms[rid].user1)
  }

  /** After a join: the guest `me` is sent the host's details, then the host
      the guest's; an empty host slot raises. */
  function Announce(st: State, me: nat, host: Option<nat>): (r: Step)
    requires Valid(st) && IsOpen(st, me)
    requires host.Some? ==> host.value in st.conns
    ensures r.st == st
    ensures host.None? ==> r.raised
  {
    var guest := GoToPartnerRoom(st, me);
    if guest.raised then guest
    else match host
      case None => Step(st, guest.out, true)
      case Some(h) =>
        var own := GoToOwnRoom(st, h);
        Step(st, guest.out + own.out, own.raised)
  }

  /** `me` takes the guest slot of room `rid` and enters it. */
  function Enter(st: State, me: nat, rid: int): (r: State)
    requires Valid(st) && IsOpen(st, me) && rid in st.rooms
    ensures Valid(r) && IsOpen(r, me)
    ensures r.rooms == st.rooms[rid := Rooms.AddUser(st.rooms[rid], me)]
    ensures r.conns == st.conns[me := st.conns[me].(room := Some(rid))]
    ensures r.bus == st.bus && r.db == st.db
  {
    var room := st.rooms[rid];
    assert RoomKnown(st, rid);
    SetRoomValid(st, rid, Rooms.AddUser(room, me));
    var st1 := SetRoom(st, rid, Rooms.AddUser(room, me));
    var c := st1.conns[me];
    SetConnValid(st1, me, c.(room := Some(rid)));
    SetConn(st1, me, c.(room := Some(rid)))
  }

  /** `leave-room`: the competitor is told, `me` leaves its slot, the room is
      no longer listed, and `me` is in no room. */
  function LeaveRoom(st: State, me: nat): (r: Step)
    requires Valid(st) && IsOpen(st, me)
    ensures Valid(r.st) && IsOpen(r.st, me) && !r.raised
    ensures r.st.conns[me].room.None?
    ensures st.conns[me].room.Some? ==>
              var rid := st.conns[me].room.value;
              && rid !in r.st.bus.rooms
              && rid in r.st.rooms && r.st.rooms[rid] == RemoveUser(st.rooms[rid], me)
              && r.out == ToCompetitor(st, me, "competitor-left,")
    ensures st.conns[me].room.None? ==> r.st == st && r.out == []
  {
    var c := st.conns[me];
    match c.room
    case None => Step(st, [], false)
    case Some(rid) =>
      var out := ToCompetitor(st, me, "competitor-left,");
      Step(Vacate(st, me, rid), out, false)
  }

  /** `me` leaves its slot of room `rid`, which is taken off the bus, and is
      in no room. */
  function Vacate(st: State, me: nat, rid: int): (r: State)
    requires Valid(st) && IsOpen(st, me) && rid in st.rooms
    ensures Valid(r) && IsOpen(r, me)
    ensures r.rooms == st.rooms[rid := RemoveUser(st.rooms[rid], me)]
    ensures r.conns == st.conns[me := st.conns[me].(room := None)]
    ensures rid !in r.bus.rooms && r.bus == RemoveRoom(st.bus, rid)
    ensures r.db == st.db
  {
    var c := st.conns[me];
    assert RoomKnown(st, rid);
    var room := RemoveUser(st.rooms[rid], me);
    SetRoomValid(st, rid, room);
    var st1 := SetRoom(st, rid, room);
    SetConnValid(st1, me, c.(room := None));
    var st2 := SetConn(st1, me, c.(room := None));
    RemoveFirstDistinct(st2.bus.rooms, rid);
    st2.(bus := RemoveRoom(st2.bus, rid))
  }

  /** The room `me` last entered, when there is one. */
  function RoomOf(st: State, me: nat): (r: Option<Room>)
    requires Valid(st) && me in st.conns
  {
    match st.conns[me].room
    case None => None
    case Some(rid) => Some(st.rooms[rid])
  }

  /** The same line to each of `to`, in order. */
  function Lines(to: seq<nat>, text: string): (out: seq<Out>)
    ensures |out| == |to|
    ensures forall i :: 0 <= i < |to| ==> out[i] == Out(to[i], text)
  {
    seq(|to|, i requires 0 <= i < |to| => Out(to[i], text))
  }

  /** `start-game`: in a full room, both accounts are marked playing and
      both occupants are told. */
  function StartGame(st: State, me: nat): (r: Step)
    requires Valid(st) && IsOpen(st, me)
    ensures Valid(r.st) && IsOpen(r.st, me) && !r.raised
    ensures r.st.conns == st.conns && r.st.rooms == st.rooms && r.st.bus == st.bus
    ensures RoomOf(st, me).Some? && IsFull(RoomOf(st, me).value) ==>
              var room := RoomOf(st, me).value;
              && r.st.db == SetUsersToPlaying(room, Accounts(st), st.db)
              && r.out == Deliver(st, Lines(Rooms.Broadcast(room), "start-game,"))
    ensures !(RoomOf(st, me).Some? && IsFull(RoomOf(st, me).value)) ==> r.st == st && r.out == []
  {
    match RoomOf(st, me)
    case None => Step(st, [], false)
    case Some(room) =>
      if IsFull(room) then
        var lines := Lines(Rooms.Broadcast(room), "start-game,");
        SetDbValid(st, SetUsersToPlaying(room, Accounts(st), st.db));
        Step(st.(db := SetUsersToPlaying(room, Accounts(st), st.db)), Deliver(st, lines), false)
      else Step(st, [], false)
  }

  /** `user-move,<x>,<y>`: the two coordinates are relayed to the
      competitor as received, without being interpreted. */
  function UserMove(st: State, me: nat, parts: seq<string>): (r: Step)
    requires Valid(st) && IsOpen(st, me)
    ensures r.st == st && !r.raised
    ensures st.conns[me].room.Some? && |parts| > 2 ==>
              r.out == ToCompetitor(st, me, Join(["competitor-move", parts[1], parts[2]], Comma))
    ensures !(st.conns[me].room.Some? && |parts| > 2) ==> r.out == []
  {
    if st.conns[me].room.Some? && |parts| > 2 then
      Step(st, ToCompetitor(st, me, Join(["competitor-move", parts[1], parts[2]], Comma)), false)
    else Step(st, [], false)
  }

  /** `win`: both accounts gain a game, the winner `me` a win, both stop
      playing, and the competitor is told it lost. A winner that is not
      logged in raises after the games are counted. */
  function Win(st: State, me: nat): (r: Step)
    requires Valid(st) && IsOpen(st, me)
    ensures Valid(r.st) && r.st.conns == st.conns && r.st.rooms == st.rooms && r.st.bus == st.bus
    ensures RoomOf(st, me).None? ==> r == Step(st, [], false)
    ensures RoomOf(st, me).Some? ==>
              var room := RoomOf(st, me).value;
              var acc := Accounts(st);
              var games := IncreaseNumberOfGame(room, acc, st.db);
              && (r.raised <==> IncreaseWin(room, me, acc, games).Raised?)
              && (!r.raised ==>
                    r.st.db == SetUsersToNotPlaying(room, acc, IncreaseWin(room, me, acc, games).value)
                    && r.out == ToCompetitor(st, me, "you-lose,"))
  {
    match RoomOf(st, me)
    case None => Step(st, [], false)
    case Some(room) =>
      var acc := Accounts(st);
      var games := IncreaseNumberOfGame(room, acc, st.db);
      match IncreaseWin(room, me, acc, games)
      case Raised => SetDbValid(st, games); Step(st.(db := games), [], true)
      case Ok(won) =>
        SetDbValid(st, SetUsersToNotPlaying(room, acc, won));
        Step(st.(db := SetUsersToNotPlaying(room, acc, won)), ToCompetitor(st, me, "you-lose,"), false)
  }

  /** `lose`: with a competitor present, both accounts gain a game, the
      competitor a win, both stop playing, and the competitor is told it won.
      A competitor that is not logged in raises after the games are
      counted. */
  function Lose(st: State, me: nat): (r: Step)
    requires Valid(st) && IsOpen(st, me)
    ensures Valid(r.st) && r.st.conns == st.conns && r.st.rooms == st.rooms && r.st.bus == st.bus
    ensures Competitor(st, me).None? ==> r == Step(st, [], false)
    ensures Competitor(st, me).Some? ==>
              var room := RoomOf(st, me).value;
              var c := Competitor(st, me).value;
              var acc := Accounts(st);
              var games := IncreaseNumberOfGame(room, acc, st.db);
              && (r.raised <==> IncreaseWin(room, c, acc, games).Raised?)
              && (!r.raised ==>
                    r.st.db == SetUsersToNotPlaying(room, acc, IncreaseWin(room, c, acc, games).value)
                    && r.out == Write(st, c, "you-win,"))
  {
    match Competitor(st, me)
    case None => Step(st, [], false)
    case Some(c) =>
      var room := RoomOf(st, me).value;
      var acc := Accounts(st);
      var games := IncreaseNumberOfGame(room, acc, st.db);
      match IncreaseWin(room, c, acc, games)
      case Raised => SetDbValid(st, games); Step(st.(db := games), [], true)
      case Ok(won) =>
        SetDbValid(st, SetUsersToNotPlaying(room, acc, won));
        Step(st.(db := SetUsersToNotPlaying(room, acc, won)), Write(st, c, "you-win,"), false)
  }

  /** `draw-request`: relayed to the competitor. */
  function DrawRequest(st: State, me: nat): (r: Step)
    requires Valid(st) && IsOpen(st, me)
    ensures r.st == st && !r.raised && r.out == ToCompetitor(st, me, "draw-request,")
  {
    Step(st, ToCompetitor(st, me, "draw-request,"), false)
  }

  /** `draw-accept`: both accounts gain a game and a draw, both stop playing,
      and the competitor is told. */
  function DrawAccept(st: State, me: nat): (r: Step)
    requires Valid(st) && IsOpen(st, me)
    ensures Valid(r.st) && r.st.conns == st.conns && r.st.rooms == st.rooms && r.st.bus == st.bus && !r.raised
    ensures RoomOf(st, me).None? ==> r == Step(st, [], false)
    ensures RoomOf(st, me).Some? ==>
              var room := RoomOf(st, me).value;
              var acc := Accounts(st);
              && r.st.db == SetUsersToNotPlaying(room, acc, IncreaseDraw(room, acc, IncreaseNumberOfGame(room, acc, st.db)))
              && r.out == ToCompetitor(st, me, "draw-accept,")
  {
    match RoomOf(st, me)
    case None => Step(st, [], false)
    case Some(room) =>
      var acc := Accounts(st);
      var db := SetUsersToNotPlaying(room, acc, IncreaseDraw(room, acc, IncreaseNumberOfGame(room, acc, st.db)));
      SetDbValid(st, db);
      Step(st.(db := db), ToCompetitor(st, me, "draw-accept,"), false)
  }

  /** `send-message,<text>`: everything after the command, commas included,
      is relayed to the competitor. */
  function SendMessage(st: State, me: nat, parts: seq<string>): (r: Step)
    requires Valid(st) && IsOpen(st, me)
    ensures r.st == st && !r.raised
    ensures st.conns[me].room.Some? && |parts| > 1 ==>
              r.out == ToCompetitor(st, me, Join(["receive-message", Join(parts[1..], Comma)], Comma))
    ensures !(st.conns[me].room.Some? && |parts| > 1) ==> r.out == []
  {
    if st.conns[me].room.Some? && |parts| > 1 then
      Step(st, ToCompetitor(st, me, Join(["receive-message", Join(parts[1..], Comma)], Comma)), false)
    else Step(st, [], false)
  }

  /** `process_message` without the exception handling: dispatch on the first
      comma-separated token; an unknown command does nothing. */
  function Dispatch(st: State, me: nat, message: string): (r: Step)
    requires Valid(st) && IsOpen(st, me)
    ensures Valid(r.st) && me in r.st.conns
    ensures !r.raised ==> IsOpen(r.st, me)
  {
    var parts := Split(message, Comma);
    var command := parts[0];
    if command in AccountCommands then DispatchAccount(st, me, command, parts)
    else DispatchRoom(st, me, command, parts)
  }

  const AccountCommands: set<string> :=
    {"client-verify", "register", "offline", "view-friend-list", "get-rank-charts", "check-friend"}

  /** The login, registration and list commands. */
  function DispatchAccount(st: State, me: nat, command: string, parts: seq<string>): (r: Step)
    requires Valid(st) && IsOpen(st, me)
    ensures Valid(r.st) && me in r.st.conns
    ensures !r.raised ==> IsOpen(r.st, me)
  {
    if command == "client-verify" then ClientVerify(st, me, parts)
    else if command == "register" then Register(st, me, parts)
    else if command == "offline" then Offline(st, me)
    else if command == "view-friend-list" then ViewFriendList(st, me)
    else if command == "get-rank-charts" then GetRankCharts(st, me)
    else if command == "check-friend" then CheckFriendCommand(st, me, parts)
    else Step(st, [], false)
  }

  /** The room and game commands; anything else is ignored. */
  function DispatchRoom(st: State, me: nat, command: string, parts: seq<string>): (r: Step)
    requires Valid(st) && IsOpen(st, me)
    ensures Valid(r.st) && me in r.st.conns
    ensures !r.raised ==> IsOpen(r.st, me)
  {
    if command == "get-list-room" then GetListRoom(st, me)
    else if command == "create-room" then CreateRoom(st, me, parts)
    else if command == "join-room" then JoinRoom(st, me, parts)
    else if command == "leave-room" then LeaveRoom(st, me)
    else if command == "start-game" then StartGame(st, me)
    else if command == "user-move" then UserMove(st, me, parts)
    else if command == "win" then Win(st, me)
    else if command == "lose" then Lose(st, me)
    else if command == "draw-request" then DrawRequest(st, me)
    else if command == "draw-accept" then DrawAccept(st, me)
    else if command == "send-message" then SendMessage(st, me, parts)
    else Step(st, [], false)
  }

  // ---------------------------------------------------------------------
  // Closing, receiving, accepting

  /** `close`: the first call marks the connection closed, logs its account
      out and announces it, tells the competitor and vacates the room slot,
      and takes the connection off the bus; later calls do nothing. The room
      itself stays listed. (The bus removal comes last in `close`; it
      touches nothing the other steps read, so it is done first here.) */
  function Close(st: State, me: nat): (r: (State, seq<Out>))
    requires Valid(st) && me in st.conns
    ensures Valid(r.0) && !IsOpen(r.0, me) && me !in r.0.bus.threads
    ensures r.0.conns.Keys == st.conns.Keys && r.0.bus.rooms == st.bus.rooms
    ensures st.conns[me].closed ==> r == (st, [])
    ensures forall o :: o in r.1 ==> o.to != me
    ensures !st.conns[me].closed ==>
      var c, gone := st.conns[me], Detach(st, me);
      && r.0.conns == st.conns[me := c.(closed := true)]
      && r.0.bus.threads == RemoveFirst(st.bus.threads, me)
      && r.0.db == (if c.user.Some? then UpdateToOffline(st.db, c.user.value.id) else st.db)
      && r.0.rooms == (if c.room.Some? then st.rooms[c.room.value := RemoveUser(st.rooms[c.room.value], me)]
                       else st.rooms)
      && r.1 == (if c.user.Some? then BroadcastFrom(gone, me, ChatServer(c.user.value.nickname + OfflineSuffix))
                 else [])
              + (if c.room.Some? && GetCompetitor(st.rooms[c.room.value], me).Some?
                 then Write(gone, GetCompetitor(st.rooms[c.room.value], me).value, "competitor-left,")
                 else [])
  {
    var c := st.conns[me];
    if c.closed then (st, [])
    else
      var st1 := Detach(st, me);
      var off := CloseLogout(st1, me, c.user);
      assert c.room.Some? ==> c.room.value in off.0.rooms;
      var left := CloseRoom(off.0, me, c.room);
      assert left.0.conns.Keys == st.conns.Keys;
      (left.0, off.1 + left.1)
  }

  /** Marks `me` closed and takes it off the bus. */
  function Detach(st: State, me: nat): (r: State)
    requires Valid(st) && IsOpen(st, me)
    ensures Valid(r) && !IsOpen(r, me) && me !in r.bus.threads
    ensures r.conns == st.conns[me := st.conns[me].(closed := true)]
    ensures r.rooms == st.rooms && r.db == st.db && r.bus.rooms == st.bus.rooms
    ensures r.bus.threads == RemoveFirst(st.bus.threads, me)
  {
    RemoveFirstDistinct(st.bus.threads, me);
    var r := st.(conns := st.conns[me := st.conns[me].(closed := true)], bus := Remove(st.bus, me));
    assert Valid(r) by {
      forall id | id in r.rooms ensures RoomKnown(r, id) {
        assert RoomKnown(st, id);
      }
      forall n | n in r.bus.threads ensures IsOpen(r, n) {
        assert n in st.bus.threads && n != me;
      }
      forall n | IsOpen(r, n) ensures n in r.bus.threads {
        assert IsOpen(st, n) && n != me;
      }
    }
    r
  }

  /** The logout part of `close`: the account goes offline and the others
      are told. */
  function CloseLogout(st: State, me: nat, user: Option<User>): (r: (State, seq<Out>))
    requires Valid(st)
    ensures Valid(r.0) && r.0.conns == st.conns && r.0.rooms == st.rooms && r.0.bus == st.bus
    ensures r.0 == (if user.Some? then st.(db := UpdateToOffline(st.db, user.value.id)) else st)
    ensures user.Some? ==> r.1 == BroadcastFrom(st, me, ChatServer(user.value.nickname + OfflineSuffix))
    ensures user.None? ==> r.1 == []
    ensures forall o :: o in r.1 ==> o.to != me
  {
    match user
    case None => (st, [])
    case Some(u) =>
      SetDbValid(st, UpdateToOffline(st.db, u.id));
      (st.(db := UpdateToOffline(st.db, u.id)), BroadcastFrom(st, me, ChatServer(u.nickname + OfflineSuffix)))
  }

  /** The room part of `close`: the competitor is told and `me` leaves its
      slot; the room stays listed. */
  function CloseRoom(st: State, me: nat, room: Option<int>): (r: (State, seq<Out>))
    requires Valid(st) && !IsOpen(st, me)
    requires room.Some? ==> room.value in st.rooms
    ensures Valid(r.0) && r.0.conns == st.conns && r.0.bus == st.bus && r.0.db == st.db
    ensures room.Some? ==> r.0.rooms == st.rooms[room.value := RemoveUser(st.rooms[room.value], me)]
    ensures room.None? ==> r == (st, [])
    ensures room.Some? ==>
              var comp := GetCompetitor(st.rooms[room.value], me);
              r.1 == if comp.Some? then Write(st, comp.value, "competitor-left,") else []
    ensures forall o :: o in r.1 ==> o.to != me
  {
    match room
    case None => (st, [])
    case Some(rid) =>
      assert RoomKnown(st, rid);
      var before := st.rooms[rid];
      var comp := GetCompetitor(before, me);
      SetRoomValid(st, rid, RemoveUser(before, me));
      (SetRoom(st, rid, RemoveUser(before, me)),
       if comp.Some? then Write(st, comp.value, "competitor-left,") else [])
  }

  /** Closing twice is closing once. */
  lemma CloseIdempotent(st: State, me: nat)
    requires Valid(st) && me in st.conns
    ensures Close(Close(st, me).0, me) == (Close(st, me).0, [])
  {
  }

  /** `process_message` inside the receive loop: an exception ends the loop
      and closes the connection. */
  function Process(st: State, me: nat, message: string): (r: Step)
    requires Valid(st) && IsOpen(st, me)
    ensures Valid(r.st) && me in r.st.conns && (r.raised <==> !IsOpen(r.st, me))
  {
    var s := Dispatch(st, me, message);
    if s.raised then
      var c := Close(s.st, me);
      Step(c.0, s.out + c.1, true)
    else s
  }

  /** The messages of one drained buffer, in order, until one raises. */
  function ProcessAll(st: State, me: nat, messages: seq<string>): (r: Step)
    requires Valid(st) && IsOpen(st, me)
    ensures Valid(r.st) && me in r.st.conns && (r.raised <==> !IsOpen(r.st, me))
    decreases |messages|
  {
    if |messages| == 0 then Step(st, [], false)
    else
      var first := Process(st, me, messages[0]);
      if first.raised then first
      else
        var rest := ProcessAll(first.st, me, messages[1..]);
        Step(rest.st, first.out + rest.out, rest.raised)
  }

  /** The receive loop of `run`: each chunk read is appended to the buffer
      and every complete line handed on; an empty read (the peer closed) or
      an exception ends it. */
  function Serve(st: State, me: nat, buffer: string, chunks: seq<string>): (r: Step)
    requires Valid(st) && IsOpen(st, me)
    ensures Valid(r.st) && me in r.st.conns && (r.raised <==> !IsOpen(r.st, me))
    decreases |chunks|
  {
    if |chunks| == 0 || chunks[0] == "" then Step(st, [], false)
    else
      var d := Drain(buffer + chunks[0]);
      var p := ProcessAll(st, me, d.0);
      if p.raised then p
      else
        var rest := Serve(p.st, me, d.1, chunks[1..]);
        Step(rest.st, p.out + rest.out, rest.raised)
  }

  /** `run`: the client number is sent first, then the chunks are served,
      and the connection is closed at the end whatever happened. */
  function Run(st: State, me: nat, chunks: seq<string>): (r: (State, seq<Out>))
    requires Valid(st) && IsOpen(st, me)
    ensures Valid(r.0) && !IsOpen(r.0, me) && me !in r.0.bus.threads
    ensures |r.1| > 0 && r.1[0] == Out(me, Join(["server-send-id", IntToString(me)], Comma))
  {
    var hello := Write(st, me, Join(["server-send-id", IntToString(me)], Comma));
    var s := Serve(st, me, "", chunks);
    var c := Close(s.st, me);
    (c.0, hello + s.out + c.1)
  }

  /** The accept loop: the new connection gets the next client number, is
      put on the bus, and the counter advances. */
  function Accept(st: State, ip: string): (r: (State, nat))
    requires Valid(st)
    ensures Valid(r.0) && r.1 == st.nextClient && r.1 !in st.conns && IsOpen(r.0, r.1)
    ensures r.0.nextClient == st.nextClient + 1 && r.1 in r.0.bus.threads
    ensures r.0.conns[r.1] == Conn(r.1, ip, None, None, false)
    ensures forall n :: n in st.conns ==> n in r.0.conns && r.0.conns[n] == st.conns[n]
  {
    var n := st.nextClient;
    assert n !in st.bus.threads;
    AppendDistinct(st.bus.threads, n);
    var st1 := st.(conns := st.conns[n := Conn(n, ip, None, None, false)], bus := Add(st.bus, n), nextClient := n + 1);
    assert Valid(st1) by {
      forall id | id in st1.rooms ensures RoomKnown(st1, id) {
        assert RoomKnown(st, id);
      }
    }
    (st1, n)
  }

  // ---------------------------------------------------------------------
  // Properties across commands

  /** Handling the messages of `a ++ b` is handling those of `a` and then,
      unless one raised, those of `b`. */
  lemma {:induction false} ProcessAllAppend(st: State, me: nat, a: seq<string>, b: seq<string>)
    requires Valid(st) && IsOpen(st, me)
    ensures var first := ProcessAll(st, me, a);
      ProcessAll(st, me, a + b) ==
        if first.raised then first
        else var second := ProcessAll(first.st, me, b);
             Step(second.st, first.out + second.out, second.raised)
    decreases |a|
  {
    if |a| == 0 {
      assert a + b == b;
    } else {
      var m, t := a[0], a[1..];
      assert a == [m] + t && a + b == [m] + (t + b);
      ProcessAllCons(st, me, m, t);
      ProcessAllCons(st, me, m, t + b);
      var p := Process(st, me, m);
      if !p.raised {
        ProcessAllAppend(p.st, me, t, b);
        var rest := ProcessAll(p.st, me, t);
        if !rest.raised {
          SplitTailAssociative(p, rest, ProcessAll(rest.st, me, b));
        }
      }
    }
  }

  /** Handling a first message and then the others. */
  lemma ProcessAllCons(st: State, me: nat, m: string, rest: seq<string>)
    requires Valid(st) && IsOpen(st, me)
    ensures var p := Process(st, me, m);
      ProcessAll(st, me, [m] + rest) == if p.raised then p else SplitTail(p, ProcessAll(p.st, me, rest))
  {
    assert ([m] + rest)[0] == m && ([m] + rest)[1..] == rest;
  }

  /** How the bytes are cut into reads does not matter: two non-empty reads
      in a row have the same effect as one read of both. */
  lemma ChunkingIrrelevant(st: State, me: nat, buffer: string, a: string, b: string, more: seq<string>)
    requires Valid(st) && IsOpen(st, me) && a != "" && b != ""
    ensures Serve(st, me, buffer, [a, b] + more) == Serve(st, me, buffer, [a + b] + more)
  {
    if ProcessAll(st, me, Drain(buffer + a).0).raised {
      ChunkingRaised(st, me, buffer, a, b, more);
    } else {
      ServeJoined(st, me, buffer, a, b, more);
      ServeSplit(st, me, buffer, a, b, more);
      var d1 := Drain(buffer + a);
      var d2 := Drain(d1.1 + b);
      ServeTwoBatches(st, me, d1.0, d2.0, d2.1, more);
    }
  }

  /** The first read's lines raise: the second read is never looked at,
      and handling the joined lines raises at the same point. */
  lemma ChunkingRaised(st: State, me: nat, buffer: string, a: string, b: string, more: seq<string>)
    requires Valid(st) && IsOpen(st, me) && a != "" && b != ""
    requires ProcessAll(st, me, Drain(buffer + a).0).raised
    ensures Serve(st, me, buffer, [a, b] + more) == Serve(st, me, buffer, [a + b] + more)
  {
    var d1 := Drain(buffer + a);
    var d2 := Drain(d1.1 + b);
    var p1 := ProcessAll(st, me, d1.0);
    ProcessAllAppend(st, me, d1.0, d2.0);
    assert ProcessAll(st, me, d1.0 + d2.0) == p1;
    ServeJoined(st, me, buffer, a, b, more);
    assert Serve(st, me, buffer, [a + b] + more) == p1;
    ServeFirst(st, me, buffer, a, [b] + more);
    TwoReads(a, b, more);
  }

  /** Two reads in front of the rest, written either way. */
  lemma TwoReads(a: string, b: string, more: seq<string>)
    ensures [a] + ([b] + more) == [a, b] + more
  {
  }

  /** One read of `a + b` handles the lines of both reads at once. */
  lemma ServeJoined(st: State, me: nat, buffer: string, a: string, b: string, more: seq<string>)
    requires Valid(st) && IsOpen(st, me) && a != ""
    ensures var d1 := Drain(buffer + a);
      var d2 := Drain(d1.1 + b);
      var all := ProcessAll(st, me, d1.0 + d2.0);
      Serve(st, me, buffer, [a + b] + more)
      == if all.raised then all else SplitTail(all, Serve(all.st, me, d2.1, more))
  {
    var d1 := Drain(buffer + a);
    var d2 := Drain(d1.1 + b);
    assert Drain(buffer + (a + b)) == (d1.0 + d2.0, d2.1) by {
      DrainChunks(buffer + a, b);
      assert buffer + (a + b) == (buffer + a) + b;
    }
    ServeFirst(st, me, buffer, a + b, more);
  }

  /** Two reads in a row, the first handled without an exception. */
  lemma ServeSplit(st: State, me: nat, buffer: string, a: string, b: string, more: seq<string>)
    requires Valid(st) && IsOpen(st, me) && a != "" && b != ""
    requires !ProcessAll(st, me, Drain(buffer + a).0).raised
    ensures var d1 := Drain(buffer + a);
      var p1 := ProcessAll(st, me, d1.0);
      var d2 := Drain(d1.1 + b);
      var p2 := ProcessAll(p1.st, me, d2.0);
      Serve(st, me, buffer, [a, b] + more)
      == SplitTail(p1, if p2.raised then p2 else SplitTail(p2, Serve(p2.st, me, d2.1, more)))
  {
    var d1 := Drain(buffer + a);
    var p1 := ProcessAll(st, me, d1.0);
    ServeFirst(st, me, buffer, a, [b] + more);
    TwoReads(a, b, more);
    ServeFirst(p1.st, me, d1.1, b, more);
  }

  /** Two batches of lines handled one after the other, then the remaining
      reads, give the same as the joined batch followed by the same reads. */
  lemma ServeTwoBatches(st: State, me: nat, x: seq<string>, y: seq<string>, left: string, more: seq<string>)
    requires Valid(st) && IsOpen(st, me)
    requires !ProcessAll(st, me, x).raised
    ensures var p1 := ProcessAll(st, me, x);
      var p2 := ProcessAll(p1.st, me, y);
      var all := ProcessAll(st, me, x + y);
      SplitTail(p1, if p2.raised then p2 else SplitTail(p2, Serve(p2.st, me, left, more)))
      == if all.raised then all else SplitTail(all, Serve(all.st, me, left, more))
  {
    ProcessAllAppend(st, me, x, y);
    var p1 := ProcessAll(st, me, x);
    var p2 := ProcessAll(p1.st, me, y);
    if !p2.raised {
      SplitTailAssociative(p1, p2, Serve(p2.st, me, left, more));
    }
  }

  /** Steps compose associatively. */
  lemma SplitTailAssociative(p1: Step, p2: Step, rest: Step)
    ensures SplitTail(p1, SplitTail(p2, rest)) == SplitTail(SplitTail(p1, p2), rest)
  {
    assert p1.out + (p2.out + rest.out) == (p1.out + p2.out) + rest.out;
  }

  /** One non-empty read: its complete lines are handled, then the rest of
      the reads with what is left over. */
  lemma ServeFirst(st: State, me: nat, buffer: string, c: string, more: seq<string>)
    requires Valid(st) && IsOpen(st, me) && c != ""
    ensures var d := Drain(buffer + c);
      var p := ProcessAll(st, me, d.0);
      Serve(st, me, buffer, [c] + more) ==
        if p.raised then p else SplitTail(p, Serve(p.st, me, d.1, more))
  {
    assert ([c] + more)[0] == c && ([c] + more)[1..] == more;
  }

  /** The step that follows `first` with `rest`. */
  function SplitTail(first: Step, rest: Step): Step
  {
    Step(rest.st, first.out + rest.out, rest.raised)
  }

  /** A player who wins in a full room against another logged-in player
      with a different account: the winner's account gains a game and a
      win, the loser's a game, both stop playing, and the loser is told. */
  lemma WinSettlement(st: State, me: nat, i: nat, j: nat)
    requires Valid(st) && IsOpen(st, me) && !st.db.failing
    requires RoomOf(st, me).Some?
    requires var room := RoomOf(st, me).value;
      room.user1.Some? && room.user2.Some? && room.user1.value != room.user2.value
      && (room.user1 == Some(me) || room.user2 == Some(me))
      && st.conns[room.user1.value].user.Some? && st.conns[room.user2.value].user.Some?
    requires Competitor(st, me).Some?
    requires var acc := Accounts(st);
      i < |st.db.users| && j < |st.db.users|
      && st.db.users[i].id == acc[me] && st.db.users[j].id == acc[Competitor(st, me).value]
      && acc[me] != acc[Competitor(st, me).value]
    ensures var r := Win(st, me);
      && !r.raised
      && r.st.db.users[i] == st.db.users[i].(numGames := st.db.users[i].numGames + 1,
                                             numWins := st.db.users[i].numWins + 1, isPlaying := false)
      && r.st.db.users[j] == st.db.users[j].(numGames := st.db.users[j].numGames + 1, isPlaying := false)
      && r.out == Write(st, Competitor(st, me).value, "you-lose,")
  {
    var room := RoomOf(st, me).value;
    var acc := Accounts(st);
    var c := Competitor(st, me).value;
    assert Hits(room, acc, acc[me]) == 1;
    assert Hits(room, acc, acc[c]) == 1;
    WinRows(room, me, acc, st.db, i, j);
    var won := IncreaseWin(room, me, acc, IncreaseNumberOfGame(room, acc, st.db));
    assert Win(st, me) == Step(st.(db := SetUsersToNotPlaying(room, acc, won.value)), ToCompetitor(st, me, "you-lose,"), false);
  }

  /** Whichever of the two players reports the result, the winner saying
      `win` and the loser saying `lose` leave the store, the connections and
      the rooms in the same state. */
  lemma WinLoseAgree(st: State, me: nat, c: nat)
    requires Valid(st) && IsOpen(st, me) && IsOpen(st, c) && me != c
    requires st.conns[me].room.Some? && st.conns[c].room == st.conns[me].room
    requires var room := RoomOf(st, me).value;
      (room.user1 == Some(me) && room.user2 == Some(c)) || (room.user1 == Some(c) && room.user2 == Some(me))
    ensures Win(st, me).st == Lose(st, c).st && Win(st, me).raised == Lose(st, c).raised
  {
    var room := RoomOf(st, me).value;
    assert RoomOf(st, c) == Some(room);
    assert Competitor(st, c) == Some(me);
  }

  /** An accepted draw between two logged-in players with different
      accounts: both gain a game and a draw and stop playing, nobody gains a
      win, and the other player is told. */
  lemma DrawSettlement(st: State, me: nat, i: nat, j: nat)
    requires Valid(st) && IsOpen(st, me) && !st.db.failing
    requires RoomOf(st, me).Some?
    requires var room := RoomOf(st, me).value;
      room.user1.Some? && room.user2.Some? && room.user1.value != room.user2.value
      && (room.user1 == Some(me) || room.user2 == Some(me))
      && st.conns[room.user1.value].user.Some? && st.conns[room.user2.value].user.Some?
    requires Competitor(st, me).Some?
    requires var acc := Accounts(st);
      i < |st.db.users| && j < |st.db.users|
      && st.db.users[i].id == acc[me] && st.db.users[j].id == acc[Competitor(st, me).value]
      && acc[me] != acc[Competitor(st, me).value]
    ensures var r := DrawAccept(st, me);
      && r.st.db.users[i] == st.db.users[i].(numGames := st.db.users[i].numGames + 1,
                                             numDraws := st.db.users[i].numDraws + 1, isPlaying := false)
      && r.st.db.users[j] == st.db.users[j].(numGames := st.db.users[j].numGames + 1,
                                             numDraws := st.db.users[j].numDraws + 1, isPlaying := false)
      && r.out == Write(st, Competitor(st, me).value, "draw-accept,")
  {
    var room := RoomOf(st, me).value;
    var acc := Accounts(st);
    var c := Competitor(st, me).value;
    assert Hits(room, acc, acc[me]) == 1;
    assert Hits(room, acc, acc[c]) == 1;
    var settled := SetUsersToNotPlaying(room, acc, IncreaseDraw(room, acc, IncreaseNumberOfGame(room, acc, st.db)));
    DrawRow(room, acc, st.db, i);
    DrawRow(room, acc, st.db, j);
    var r := DrawAccept(st, me);
    assert r.st.db == settled;
    assert r.st.db.users[i] == settled.users[i];
    assert r.st.db.users[j] == settled.users[j];
    assert r.out == ToCompetitor(st, me, "draw-accept,");
  }
}

=== FILE: socket_handle.dfy ===
/** The client's side of the connection: what `write` puts on the wire, how
    the receive loop cuts the stream into messages, and how each message
    from the server is decoded into a call on the client. A message whose
    decoding raises (a failed `int()`) is dropped by the processing thread
    and nothing is called for it. */
module SocketHandle {
  import opened Wrappers
  import opened Text
  import opened Framing
  import opened Models
  import opened UserDao
  import opened ServerThread

  // ---------------------------------------------------------------------
  // The wire

  /** `write`: the message and one line feed while connected; nothing
      otherwise. */
  function Send(connected: bool, message: string): (wire: string)
    ensures connected ==> wire == Frame(message)
    ensures !connected ==> wire == ""
  {
    if connected then Frame(message) else ""
  }

  /** All reads concatenated. */
  function Concat(chunks: seq<string>): string
  {
    if |chunks| == 0 then "" else chunks[0] + Concat(chunks[1..])
  }

  /** `receive_messages`: every complete non-empty line is queued in order;
      an empty read (the server closed) ends the loop. */
  function Receive(buffer: string, chunks: seq<string>): (queued: seq<string>)
    ensures forall i :: 0 <= i < |queued| ==> queued[i] != "" && Newline !in queued[i]
    decreases |chunks|
  {
    if |chunks| == 0 || chunks[0] == "" then []
    else
      var d := Drain(buffer + chunks[0]);
      d.0 + Receive(d.1, chunks[1..])
  }

  /** Reads are reassembled: starting from a buffer without a complete
      line, and as long as no read is empty, the queued messages are those
      of the whole received text, however it was cut. */
  lemma {:induction false} ReceiveConcat(buffer: string, chunks: seq<string>)
    requires Newline !in buffer
    requires forall i :: 0 <= i < |chunks| ==> chunks[i] != ""
    ensures Receive(buffer, chunks) == Drain(buffer + Concat(chunks)).0
    decreases |chunks|
  {
    if |chunks| == 0 {
      assert buffer + Concat(chunks) == buffer;
      DrainTail(buffer);
    } else {
      var d := Drain(buffer + chunks[0]);
      ReceiveConcat(d.1, chunks[1..]);
      DrainChunks(buffer + chunks[0], Concat(chunks[1..]));
      assert Concat(chunks) == chunks[0] + Concat(chunks[1..]);
      Reassociate(buffer, chunks[0], Concat(chunks[1..]));
    }
  }

  lemma Reassociate(a: string, b: string, c: string)
    ensures a + (b + c) == (a + b) + c
  {
  }

  /** A buffer left over by a drain holds no complete line. */
  lemma DrainTail(buffer: string)
    requires Newline !in buffer
    ensures Drain(buffer) == ([], buffer)
  {
  }

  /** What the server writes is what the client queues: the framed
      messages, sent in one piece or in any non-empty reads, come out as
      exactly those messages. */
  lemma WritesReceived(messages: seq<string>, chunks: seq<string>)
    requires forall i :: 0 <= i < |messages| ==> messages[i] != "" && Newline !in messages[i]
    requires forall i :: 0 <= i < |chunks| ==> chunks[i] != ""
    requires Concat(chunks) == FrameAll(messages)
    ensures Receive("", chunks) == messages
  {
    ReceiveConcat("", chunks);
    DrainFrameAll(messages, "");
    assert "" + FrameAll(messages) == FrameAll(messages) + "";
  }

  // ---------------------------------------------------------------------
  // Decoding

  /** The calls `process_message` makes on the client. `Ignored` stands for
      a message that calls nothing: an unknown command, `server-send-id`
      (only printed), or a command whose length check fails. */
  datatype Event =
    | Ignored
    | OnLoginSuccess(user: User)
    | OnLoginError(reason: string)
    | OnRegisterError(reason: string)
    | OnChatMessage(text: string)
    | OnRoomList(rooms: seq<RoomEntry>)
    | OnNewRoom(room: RoomEntry)
    | OnCreateRoomSuccess(roomId: int)
    | OnGoToRoom(roomId: int, competitor: Option<User>, isHost: bool, competitorIp: string)
    | OnRoomError(reason: string)
    | OnFriendList(friends: seq<User>)
    | OnRankList(users: seq<User>)
    | OnCheckFriend(isFriend: bool)
    | OnStartGame
    | OnCompetitorMove(x: int, y: int)
    | OnGameResult(result: string)
    | OnDrawRequest
    | OnDrawAccept
    | OnCompetitorLeft
    | OnReceiveMessage(text: string)

  const WrongUserText: string := "T\U{00E0}i kho\U{1EA3}n ho\U{1EB7}c m\U{1EAD}t kh\U{1EA9}u kh\U{00F4}ng ch\U{00ED}nh x\U{00E1}c"
  const DuplicateLoginText: string := "T\U{00E0}i kho\U{1EA3}n \U{0111}\U{00E3} \U{0111}\U{0103}ng nh\U{1EAD}p \U{1EDF} n\U{01A1}i kh\U{00E1}c"
  const BannedText: string := "T\U{00E0}i kho\U{1EA3}n \U{0111}\U{00E3} b\U{1ECB} ban"
  const DuplicateUsernameText: string := "T\U{00EA}n t\U{00E0}i kho\U{1EA3}n \U{0111}\U{00E3} \U{0111}\U{01B0}\U{1EE3}c s\U{1EED} d\U{1EE5}ng"
  const RoomFullText: string := "Ph\U{00F2}ng ch\U{01A1}i \U{0111}\U{00E3} \U{0111}\U{1EE7} 2 ng\U{01B0}\U{1EDD}i ch\U{01A1}i"
  const RoomNotFoundText: string := "Kh\U{00F4}ng t\U{00EC}m th\U{1EA5}y ph\U{00F2}ng"
  const WrongPasswordText: string := "M\U{1EAD}t kh\U{1EA9}u ph\U{00F2}ng sai"

  /** The list decoders' loop: consecutive groups of `size` tokens, as
      many as fit; the incomplete rest (fewer than `size` tokens) is
      dropped. */
  function Chunks(tokens: seq<string>, size: nat): (groups: seq<seq<string>>)
    requires size > 0
    ensures forall k :: 0 <= k < |groups| ==> |groups[k]| == size
    ensures |groups| * size <= |tokens| < |groups| * size + size
    ensures Flatten(groups) == tokens[..|groups| * size]
    decreases |tokens|
  {
    if |tokens| < size then []
    else
      var rest := Chunks(tokens[size..], size);
      var n := |rest| * size;
      assert (|rest| + 1) * size == n + size;
      assert tokens[..size] + tokens[size..][..n] == tokens[..n + size];
      [tokens[..size]] + rest
  }

  /** Cutting the tokens of complete groups gives the groups back. */
  lemma {:induction false} ChunksFlatten(groups: seq<seq<string>>, size: nat)
    requires size > 0
    requires forall k :: 0 <= k < |groups| ==> |groups[k]| == size
    ensures Chunks(Flatten(groups), size) == groups
    decreases |groups|
  {
    if |groups| > 0 {
      var tokens := Flatten(groups);
      assert tokens == groups[0] + Flatten(groups[1..]);
      assert tokens[..size] == groups[0];
      assert tokens[size..] == Flatten(groups[1..]);
      ChunksFlatten(groups[1..], size);
      assert [groups[0]] + groups[1..] == groups;
    }
  }

  /** Decodes every group, raising as soon as one group raises. */
  function DecodeAll<T>(groups: seq<seq<string>>, decode: seq<string> --> Result<T>): (r: Result<seq<T>>)
    requires forall k :: 0 <= k < |groups| ==> decode.requires(groups[k])
    ensures r.Ok? <==> forall k :: 0 <= k < |groups| ==> decode(groups[k]).Ok?
    ensures r.Ok? ==> |r.value| == |groups|
                      && forall k :: 0 <= k < |groups| ==> r.value[k] == decode(groups[k]).value
  {
    if |groups| == 0 then Ok([])
    else
      match decode(groups[0])
      case Raised => Raised
      case Ok(first) =>
        match DecodeAll(groups[1..], decode)
        case Raised => Raised
        case Ok(rest) => Ok([first] + rest)
  }

  /** When every group decodes, the list decodes to the decoded groups. */
  lemma DecodeAllOk<T>(groups: seq<seq<string>>, decode: seq<string> --> Result<T>, want: seq<T>)
    requires |want| == |groups|
    requires forall k :: 0 <= k < |groups| ==> decode.requires(groups[k]) && decode(groups[k]) == Ok(want[k])
    ensures DecodeAll(groups, decode) == Ok(want)
  {
    var d := DecodeAll(groups, decode);
    assert d.Ok?;
    assert d.value == want;
  }

  /** One `room-list` group: id and player count through `int()`, the host
      nickname as is, and a password flag that is set only by `1`. */
  function RoomFrom(g: seq<string>): (r: Result<RoomEntry>)
    requires |g| == 4
    ensures r.Ok? <==> ParseInt(g[0]).Some? && ParseInt(g[1]).Some?
    ensures r.Ok? ==> Some(r.value.id) == ParseInt(g[0]) && Some(r.value.players) == ParseInt(g[1])
                      && r.value.host == g[2] && (r.value.hasPassword <==> g[3] == "1")
  {
    match (ParseInt(g[0]), ParseInt(g[1]))
    case (Some(id), Some(players)) => Ok(RoomEntry(id, players, g[2], g[3] == "1"))
    case _ => Raised
  }

  /** A friend as the client keeps it: id, nickname and the two flags;
      everything else at the constructor's defaults. */
  function AsFriend(id: int, nickname: string, online: bool, playing: bool): (u: User)
    ensures u.id == id && u.nickname == nickname && u.isOnline == online && u.isPlaying == playing
    ensures u.username == "" && u.password == "" && u.avatar == ""
    ensures u.numGames == 0 && u.numWins == 0 && u.numDraws == 0 && u.rank == 0
  {
    User(id, "", "", nickname, "", 0, 0, 0, online, playing, 0)
  }

  /** One `friend-list` group: id through `int()`, nickname, online flag,
      playing flag. */
  function FriendFrom(g: seq<string>): (r: Result<User>)
    requires |g| == 4
    ensures r.Ok? <==> ParseInt(g[0]).Some?
    ensures r.Ok? ==> r.value == AsFriend(ParseInt(g[0]).value, g[1], g[2] == "1", g[3] == "1")
  {
    match ParseInt(g[0])
    case Some(id) => Ok(AsFriend(id, g[1], g[2] == "1", g[3] == "1"))
    case None => Raised
  }

  /** `int(t)`, raising on a non-integer. */
  function IntOf(t: string): (r: Result<int>)
    ensures r.Ok? <==> ParseInt(t).Some?
    ensures r.Ok? ==> Some(r.value) == ParseInt(t)
  {
    match ParseInt(t)
    case Some(n) => Ok(n)
    case None => Raised
  }

  /** The commands `process_message` acts on. */
  const Commands: set<string> := {
    "server-send-id", "login-success", "wrong-user", "dupplicate-login", "banned-user",
    "duplicate-username", "chat-server", "room-list", "new-room", "create-room-success",
    "go-to-room", "room-fully", "room-not-found", "room-wrong-password", "friend-list",
    "return-get-rank-charts", "check-friend-response", "start-game", "competitor-move",
    "you-win", "you-lose", "draw-request", "draw-accept", "competitor-left", "receive-message"}

  /** The commands whose decoding can raise: they convert a token with
      `int()`. */
  const Converting: set<string> := {
    "server-send-id", "login-success", "room-list", "new-room", "create-room-success",
    "go-to-room", "friend-list", "return-get-rank-charts", "competitor-move"}

  /** `process_message`: the call a message from the server leads to. */
  function Decode(message: string): (r: Result<Event>)
  {
    var parts := Split(message, Comma);
    if parts[0] in Converting then DecodeConverting(parts) else DecodePlain(parts)
  }

  /** The branches of `process_message` that convert nothing: they never
      raise, and an unknown command calls nothing. */
  function DecodePlain(parts: seq<string>): (r: Result<Event>)
    requires |parts| >= 1
    ensures r.Ok?
    ensures parts[0] !in Commands ==> r == Ok(Ignored)
  {
    var command := parts[0];
    if command == "wrong-user" then Ok(OnLoginError(WrongUserText))
    else if command == "dupplicate-login" then Ok(OnLoginError(DuplicateLoginText))
    else if command == "banned-user" then Ok(OnLoginError(BannedText))
    else if command == "duplicate-username" then Ok(OnRegisterError(DuplicateUsernameText))
    else if command == "chat-server" then Ok(OnChatMessage(Tok(parts, 1, "")))
    else if command == "room-fully" then Ok(OnRoomError(RoomFullText))
    else if command == "room-not-found" then Ok(OnRoomError(RoomNotFoundText))
    else if command == "room-wrong-password" then Ok(OnRoomError(WrongPasswordText))
    else if command == "check-friend-response" then Ok(OnCheckFriend(Tok(parts, 1, "") == "1"))
    else if command == "start-game" then Ok(OnStartGame)
    else if command == "you-win" then Ok(OnGameResult("win"))
    else if command == "you-lose" then Ok(OnGameResult("lose"))
    else if command == "draw-request" then Ok(OnDrawRequest)
    else if command == "draw-accept" then Ok(OnDrawAccept)
    else if command == "competitor-left" then Ok(OnCompetitorLeft)
    else if command == "receive-message" then Ok(OnReceiveMessage(Rejoined(parts)))
    else Ok(Ignored)
  }

  /** Everything after the command, commas put back; empty without it. */
  function Rejoined(parts: seq<string>): (text: string)
    requires |parts| >= 1
  {
    if |parts| > 1 then Join(parts[1..], Comma) else ""
  }

  /** The branches of `process_message` that convert tokens. */
  function DecodeConverting(parts: seq<string>): (r: Result<Event>)
    requires |parts| >= 1
  {
    var command := parts[0];
    if command == "server-send-id" then
      if |parts| > 1 && ParseInt(parts[1]).None? then Raised else Ok(Ignored)
    else if command == "login-success" then DecodeLoginSuccess(parts)
    else if command == "room-list" then DecodeRoomList(parts)
    else if command == "new-room" then DecodeNewRoom(parts)
    else if command == "create-room-success" then
      if |parts| > 1 then
        match IntOf(parts[1])
        case Ok(id) => Ok(OnCreateRoomSuccess(id))
        case Raised => Raised
      else Ok(OnCreateRoomSuccess(0))
    else if command == "go-to-room" then DecodeGoToRoom(parts)
    else if command == "friend-list" then DecodeFriendList(parts)
    else if command == "return-get-rank-charts" then DecodeRankList(parts)
    else if command == "competitor-move" then DecodeMove(parts)
    else Ok(Ignored)
  }

  /** `login-success,<user>`: the client is told only when the rest decodes
      to a user. */
  function DecodeLoginSuccess(parts: seq<string>): (r: Result<Event>)
    requires |parts| >= 1
    ensures r.Raised? <==> FromString(Join(parts[1..], Comma)).Raised?
    ensures r == Ok(Ignored) <==> FromString(Join(parts[1..], Comma)) == Ok(None)
    ensures r.Ok? && r.value != Ignored ==>
              r.value.OnLoginSuccess? && FromString(Join(parts[1..], Comma)) == Ok(Some(r.value.user))
  {
    match FromString(Join(parts[1..], Comma))
    case Raised => Raised
    case Ok(None) => Ok(Ignored)
    case Ok(Some(u)) => Ok(OnLoginSuccess(u))
  }

  /** `room-list`: one room per complete group of four tokens. */
  function DecodeRoomList(parts: seq<string>): (r: Result<Event>)
    requires |parts| >= 1
    ensures r.Ok? ==> r.value.OnRoomList? && |r.value.rooms| == (|parts| - 1) / 4
  {
    var groups := Chunks(parts[1..], 4);
    match DecodeAll(groups, RoomFrom)
    case Raised => Raised
    case Ok(rooms) => Ok(OnRoomList(rooms))
  }

  /** `new-room,<id>,<players>,<host>[,<flag>]`: ignored with fewer than
      four tokens; the flag counts as unset when missing. */
  function DecodeNewRoom(parts: seq<string>): (r: Result<Event>)
    requires |parts| >= 1
    ensures |parts| < 4 ==> r == Ok(Ignored)
    ensures |parts| >= 4 && r.Ok? ==>
              r.value.OnNewRoom? && r.value.room.host == parts[3]
              && (r.value.room.hasPassword <==> |parts| > 4 && parts[4] == "1")
  {
    if |parts| < 4 then Ok(Ignored)
    else
      match (IntOf(parts[1]), IntOf(parts[2]))
      case (Ok(id), Ok(players)) =>
        Ok(OnNewRoom(RoomEntry(id, players, parts[3], |parts| > 4 && parts[4] == "1")))
      case _ => Raised
  }

  /** `go-to-room,<id>,<ip>,<flag>,<user>`: ignored with fewer than five
      tokens; the competitor is decoded from everything after the flag. */
  function DecodeGoToRoom(parts: seq<string>): (r: Result<Event>)
    requires |parts| >= 1
    ensures |parts| < 5 ==> r == Ok(Ignored)
    ensures |parts| >= 5 && r.Ok? ==>
              r.value.OnGoToRoom? && Some(r.value.roomId) == ParseInt(parts[1])
              && r.value.competitorIp == parts[2] && (r.value.isHost <==> parts[3] == "1")
              && Ok(r.value.competitor) == FromString(Join(parts[4..], Comma))
  {
    if |parts| < 5 then Ok(Ignored)
    else
      match (IntOf(parts[1]), FromString(Join(parts[4..], Comma)))
      case (Ok(id), Ok(competitor)) => Ok(OnGoToRoom(id, competitor, parts[3] == "1", parts[2]))
      case _ => Raised
  }

  /** `friend-list`: one friend per complete group of four tokens. */
  function DecodeFriendList(parts: seq<string>): (r: Result<Event>)
    requires |parts| >= 1
    ensures r.Ok? ==> r.value.OnFriendList? && |r.value.friends| == (|parts| - 1) / 4
  {
    match DecodeAll(Chunks(parts[1..], 4), FriendFrom)
    case Raised => Raised
    case Ok(friends) => Ok(OnFriendList(friends))
  }

  /** `return-get-rank-charts`: one user per complete group of nine tokens. */
  function DecodeRankList(parts: seq<string>): (r: Result<Event>)
    requires |parts| >= 1
    ensures r.Ok? ==> r.value.OnRankList? && |r.value.users| == (|parts| - 1) / 9
  {
    match DecodeAll(Chunks(parts[1..], 9), FromFields)
    case Raised => Raised
    case Ok(users) => Ok(OnRankList(users))
  }

  /** `competitor-move,<x>,<y>`: ignored with fewer than three tokens. */
  function DecodeMove(parts: seq<string>): (r: Result<Event>)
    requires |parts| >= 1
    ensures |parts| < 3 ==> r == Ok(Ignored)
    ensures |parts| >= 3 ==>
              (r.Raised? <==> ParseInt(parts[1]).None? || ParseInt(parts[2]).None?)
              && (r.Ok? ==> r == Ok(OnCompetitorMove(ParseInt(parts[1]).value, ParseInt(parts[2]).value)))
  {
    if |parts| < 3 then Ok(Ignored)
    else
      match (IntOf(parts[1]), IntOf(parts[2]))
      case (Ok(x), Ok(y)) => Ok(OnCompetitorMove(x, y))
      case _ => Raised
  }

  /** An unknown command calls nothing. */
  lemma UnknownIgnored(message: string)
    requires Split(message, Comma)[0] !in Commands
    ensures Decode(message) == Ok(Ignored)
  {
    assert Split(message, Comma)[0] !in Converting;
  }

  /** Only a command that converts tokens with `int()` can raise. */
  lemma OnlyConvertingRaises(message: string)
    ensures Decode(message).Raised? ==> Split(message, Comma)[0] in Converting
  {
  }

  // Which branch a command takes.

  lemma LoginSuccessBranch(m: string)
    requires Split(m, Comma)[0] == "login-success"
    ensures Decode(m) == DecodeLoginSuccess(Split(m, Comma))
  {
  }

  lemma RoomListBranch(m: string)
    requires Split(m, Comma)[0] == "room-list"
    ensures Decode(m) == DecodeRoomList(Split(m, Comma))
  {
  }

  lemma NewRoomBranch(m: string)
    requires Split(m, Comma)[0] == "new-room"
    ensures Decode(m) == DecodeNewRoom(Split(m, Comma))
  {
  }

  lemma GoToRoomBranch(m: string)
    requires Split(m, Comma)[0] == "go-to-room"
    ensures Decode(m) == DecodeGoToRoom(Split(m, Comma))
  {
  }

  lemma FriendListBranch(m: string)
    requires Split(m, Comma)[0] == "friend-list"
    ensures Decode(m) == DecodeFriendList(Split(m, Comma))
  {
  }

  lemma RankListBranch(m: string)
    requires Split(m, Comma)[0] == "return-get-rank-charts"
    ensures Decode(m) == DecodeRankList(Split(m, Comma))
  {
  }

  lemma MoveBranch(m: string)
    requires Split(m, Comma)[0] == "competitor-move"
    ensures Decode(m) == DecodeMove(Split(m, Comma))
  {
  }

  lemma ChatBranch(m: string)
    requires Split(m, Comma)[0] == "chat-server"
    ensures Decode(m) == Ok(OnChatMessage(Tok(Split(m, Comma), 1, "")))
  {
  }

  lemma ReceiveBranch(m: string)
    requires Split(m, Comma)[0] == "receive-message"
    ensures Decode(m) == Ok(OnReceiveMessage(Rejoined(Split(m, Comma))))
  {
  }

  /** The calls one message leads to: none when it raises or calls
      nothing, otherwise exactly one. */
  function CallsFor(message: string): (calls: seq<Event>)
    ensures |calls| <= 1
    ensures |calls| == 1 <==> Decode(message).Ok? && Decode(message).value != Ignored
    ensures |calls| == 1 ==> calls[0] == Decode(message).value
  {
    match Decode(message)
    case Ok(e) => if e == Ignored then [] else [e]
    case Raised => []
  }

  /** `_process_queue_thread`: the calls made for the queued messages, in
      order; a message that raises is dropped and the next one processed. */
  function ProcessQueue(messages: seq<string>): (calls: seq<Event>)
    ensures |calls| <= |messages|
    ensures Ignored !in calls
  {
    FlatMapBounded(CallsFor, messages, 1);
    FlatMapAvoids(CallsFor, messages, Ignored);
    FlatMap(CallsFor, messages)
  }

  /** The results of `f` on the elements of `s`, concatenated in order. */
  function FlatMap<T, U>(f: T -> seq<U>, s: seq<T>): (r: seq<U>)
  {
    if |s| == 0 then [] else f(s[0]) + FlatMap(f, s[1..])
  }

  lemma {:induction false} FlatMapBounded<T, U>(f: T -> seq<U>, s: seq<T>, k: nat)
    requires forall x :: |f(x)| <= k
    ensures |FlatMap(f, s)| <= k * |s|
    decreases |s|
  {
    if |s| > 0 {
      FlatMapBounded(f, s[1..], k);
    }
  }

  lemma {:induction false} FlatMapAvoids<T, U>(f: T -> seq<U>, s: seq<T>, u: U)
    requires forall x :: u !in f(x)
    ensures u !in FlatMap(f, s)
    decreases |s|
  {
    if |s| > 0 {
      FlatMapAvoids(f, s[1..], u);
    }
  }

  lemma {:induction false} FlatMapAppend<T, U>(f: T -> seq<U>, a: seq<T>, b: seq<T>)
    ensures FlatMap(f, a + b) == FlatMap(f, a) + FlatMap(f, b)
    decreases |a|
  {
    if |a| == 0 {
      assert a + b == b;
    } else {
      assert (a + b)[0] == a[0] && (a + b)[1..] == a[1..] + b;
      FlatMapAppend(f, a[1..], b);
    }
  }

  /** Messages are processed independently: a message that raises costs
      only its own call, and the calls for a longer queue are those of its
      parts, in order. */
  lemma ProcessQueueAppend(a: seq<string>, b: seq<string>)
    ensures ProcessQueue(a + b) == ProcessQueue(a) + ProcessQueue(b)
  {
    FlatMapAppend(CallsFor, a, b);
  }

  // ---------------------------------------------------------------------
  // Round trips with the server's messages

  /** Decoding a message that is a command followed by some tokens. */
  lemma CommandTokens(command: string, rest: seq<string>)
    requires Comma !in command && |rest| >= 1
    requires forall i :: 0 <= i < |rest| ==> Comma !in rest[i]
    ensures Split(Join([command] + rest, Comma), Comma) == [command] + rest
  {
    var all := [command] + rest;
    forall i | 0 <= i < |all|
      ensures Comma !in all[i]
    {
      if i > 0 {
        assert all[i] == rest[i - 1];
      }
    }
    SplitJoin(all, Comma);
  }

  /** A two-piece message whose command holds no comma splits into the
      command and the pieces of the text. */
  lemma CommandText(command: string, text: string)
    requires Comma !in command
    ensures Split(Join([command, text], Comma), Comma) == [command] + Split(text, Comma)
  {
    assert Join([command, text], Comma) == command + [Comma] + text;
    SplitCons(command, Comma, text);
  }

  /** The room list the server sends decodes to the rooms it listed, as
      long as no host nickname holds a comma. */
  lemma RoomListRoundTrip(es: seq<RoomEntry>)
    requires forall i :: 0 <= i < |es| ==> Comma !in es[i].host
    ensures Decode(RoomListMessage(es)) == Ok(OnRoomList(es))
  {
    RoomListDecoded(es);
    RoomListBranch(RoomListMessage(es));
  }

  lemma RoomListDecoded(es: seq<RoomEntry>)
    requires forall i :: 0 <= i < |es| ==> Comma !in es[i].host
    ensures var parts := Split(RoomListMessage(es), Comma);
      parts[0] == "room-list" && DecodeRoomList(parts) == Ok(OnRoomList(es))
  {
    var groups := seq(|es|, i requires 0 <= i < |es| => RoomTokens(es[i]));
    assert CommaFreeGroups(groups);
    SplitListing("room-list", groups);
    var parts := Split(RoomListMessage(es), Comma);
    assert parts[1..] == Flatten(groups);
    ChunksFlatten(groups, 4);
    forall k | 0 <= k < |groups| ensures RoomFrom(groups[k]) == Ok(es[k]) {
      RoomTokensDecode(es[k]);
    }
    DecodeAllOk(groups, RoomFrom, es);
    assert Chunks(parts[1..], 4) == groups;
  }

  /** One room's four tokens decode to that room. */
  lemma RoomTokensDecode(e: RoomEntry)
    ensures RoomFrom(RoomTokens(e)) == Ok(e)
  {
    IntRoundTrip(e.id);
    IntRoundTrip(e.players);
  }

  /** What the client keeps of each listed friend. */
  function FriendsKept(fs: seq<User>): (kept: seq<User>)
    ensures |kept| == |fs|
    ensures forall i :: 0 <= i < |fs| ==>
              kept[i] == AsFriend(fs[i].id, fs[i].nickname, fs[i].isOnline, fs[i].isPlaying)
  {
    seq(|fs|, i requires 0 <= i < |fs| => AsFriend(fs[i].id, fs[i].nickname, fs[i].isOnline, fs[i].isPlaying))
  }

  /** The friend list decodes to each friend's id, nickname and flags, as
      long as no nickname holds a comma. */
  lemma FriendListRoundTrip(fs: seq<User>)
    requires forall i :: 0 <= i < |fs| ==> Comma !in fs[i].nickname
    ensures Decode(FriendListMessage(fs)) == Ok(OnFriendList(FriendsKept(fs)))
  {
    FriendListDecoded(fs);
    FriendListBranch(FriendListMessage(fs));
  }

  lemma FriendListDecoded(fs: seq<User>)
    requires forall i :: 0 <= i < |fs| ==> Comma !in fs[i].nickname
    ensures var parts := Split(FriendListMessage(fs), Comma);
      parts[0] == "friend-list" && DecodeFriendList(parts) == Ok(OnFriendList(FriendsKept(fs)))
  {
    var groups := seq(|fs|, i requires 0 <= i < |fs| => FriendTokens(fs[i]));
    var want := FriendsKept(fs);
    assert CommaFreeGroups(groups);
    SplitListing("friend-list", groups);
    var parts := Split(FriendListMessage(fs), Comma);
    assert parts[1..] == Flatten(groups);
    ChunksFlatten(groups, 4);
    forall k | 0 <= k < |groups| ensures FriendFrom(groups[k]) == Ok(want[k]) {
      FriendTokensDecode(fs[k]);
    }
    DecodeAllOk(groups, FriendFrom, want);
  }

  /** One friend's four tokens decode to what the client keeps of it. */
  lemma FriendTokensDecode(f: User)
    ensures FriendFrom(FriendTokens(f)) == Ok(AsFriend(f.id, f.nickname, f.isOnline, f.isPlaying))
  {
    IntRoundTrip(f.id);
  }

  /** The friends listed for an account reach the client exactly as the
      store reports them. */
  lemma FriendEntriesSurvive(db: Db, id: int)
    requires forall a :: a in db.users ==> Comma !in a.nickname
    ensures Decode(FriendListMessage(GetListFriend(db, id))) == Ok(OnFriendList(GetListFriend(db, id)))
  {
    var fs := GetListFriend(db, id);
    forall i | 0 <= i < |fs| ensures Comma !in fs[i].nickname
      && AsFriend(fs[i].id, fs[i].nickname, fs[i].isOnline, fs[i].isPlaying) == fs[i] {
      assert fs[i] in fs;
    }
    FriendListRoundTrip(fs);
    assert FriendsKept(fs) == fs;
  }

  /** The users as the client decodes them: the two status flags, which
      are not sent, false. */
  function RanksKept(us: seq<User>): (kept: seq<User>)
    ensures |kept| == |us|
    ensures forall i :: 0 <= i < |us| ==> kept[i] == Received(us[i])
  {
    seq(|us|, i requires 0 <= i < |us| => Received(us[i]))
  }

  /** The rank chart decodes to the ranked users, as long as their text
      fields hold no comma. */
  lemma RankRoundTrip(us: seq<User>)
    requires forall i :: 0 <= i < |us| ==> CommaFree(us[i])
    ensures Decode(RankMessage(us)) == Ok(OnRankList(RanksKept(us)))
  {
    RankDecoded(us);
    RankListBranch(RankMessage(us));
  }

  lemma RankDecoded(us: seq<User>)
    requires forall i :: 0 <= i < |us| ==> CommaFree(us[i])
    ensures var parts := Split(RankMessage(us), Comma);
      parts[0] == "return-get-rank-charts" && DecodeRankList(parts) == Ok(OnRankList(RanksKept(us)))
  {
    var groups := RankGroups(us);
    RankParts(us);
    RankGroupsDecode(us);
    var parts := Split(RankMessage(us), Comma);
    assert parts[1..] == Flatten(groups);
  }

  /** The nine fields of each ranked user, in order. */
  function RankGroups(us: seq<User>): (groups: seq<seq<string>>)
    ensures |groups| == |us|
    ensures forall i :: 0 <= i < |us| ==> groups[i] == Fields(us[i])
  {
    seq(|us|, i requires 0 <= i < |us| => Fields(us[i]))
  }

  lemma RankParts(us: seq<User>)
    requires forall i :: 0 <= i < |us| ==> CommaFree(us[i])
    ensures Split(RankMessage(us), Comma) == ["return-get-rank-charts"] + Flatten(RankGroups(us))
  {
    var groups := RankGroups(us);
    assert RankMessage(us) == Listing("return-get-rank-charts", groups);
    assert CommaFreeGroups(groups) by {
      forall i | 0 <= i < |groups|
        ensures |groups[i]| >= 1 && forall j :: 0 <= j < |groups[i]| ==> Comma !in groups[i][j] {
        assert CommaFree(us[i]);
      }
    }
    SplitListing("return-get-rank-charts", groups);
  }

  lemma RankGroupsDecode(us: seq<User>)
    requires forall i :: 0 <= i < |us| ==> CommaFree(us[i])
    ensures DecodeAll(Chunks(Flatten(RankGroups(us)), 9), FromFields) == Ok(RanksKept(us))
  {
    var groups := RankGroups(us);
    var want := RanksKept(us);
    ChunksFlatten(groups, 9);
    forall k | 0 <= k < |groups| ensures FromFields(groups[k]) == Ok(want[k]) {
      FieldsRoundTrip(us[k]);
    }
    DecodeAllOk(groups, FromFields, want);
  }

  /** `go-to-room` reaches the client with the room, the address, the host
      flag and the competitor as sent. */
  lemma GoToRoomRoundTrip(room: int, ip: string, isHost: bool, u: User)
    requires Comma !in ip && CommaFree(u)
    ensures Decode(GoToRoomMessage(room, ip, isHost, u)) == Ok(OnGoToRoom(room, Some(Received(u)), isHost, ip))
  {
    GoToRoomDecoded(room, ip, isHost, u);
    GoToRoomBranch(GoToRoomMessage(room, ip, isHost, u));
  }

  lemma GoToRoomDecoded(room: int, ip: string, isHost: bool, u: User)
    requires Comma !in ip && CommaFree(u)
    ensures var parts := Split(GoToRoomMessage(room, ip, isHost, u), Comma);
      parts[0] == "go-to-room"
      && DecodeGoToRoom(parts) == Ok(OnGoToRoom(room, Some(Received(u)), isHost, ip))
  {
    var head := ["go-to-room", IntToString(room), ip, Flag(isHost)];
    JoinAppend(head, Fields(u), Comma);
    JoinAppend(head, [ToString(u)], Comma);
    CommandTokens("go-to-room", head[1..] + Fields(u));
    assert [head[0]] + (head[1..] + Fields(u)) == head + Fields(u);
    assert head + [ToString(u)] == ["go-to-room", IntToString(room), ip, Flag(isHost), ToString(u)];
    var parts := head + Fields(u);
    assert parts[4..] == Fields(u);
    IntRoundTrip(room);
    UserRoundTrip(u);
  }

  /** A login success carries the account, flags dropped. */
  lemma LoginSuccessRoundTrip(u: User)
    requires CommaFree(u)
    ensures Decode(LoginSuccess(u)) == Ok(OnLoginSuccess(Received(u)))
  {
    LoginSuccessDecoded(u);
    LoginSuccessBranch(LoginSuccess(u));
  }

  lemma LoginSuccessDecoded(u: User)
    requires CommaFree(u)
    ensures var parts := Split(LoginSuccess(u), Comma);
      parts[0] == "login-success" && DecodeLoginSuccess(parts) == Ok(OnLoginSuccess(Received(u)))
  {
    var parts := ["login-success"] + Fields(u);
    JoinAppend(["login-success"], Fields(u), Comma);
    assert ToString(u) == Join(Fields(u), Comma);
    assert Join(["login-success", ToString(u)], Comma) == "login-success" + [Comma] + ToString(u);
    assert Join(parts, Comma) == LoginSuccess(u);
    CommandTokens("login-success", Fields(u));
    assert parts[1..] == Fields(u);
    assert FromString(Join(parts[1..], Comma)) == Ok(Some(Received(u))) by { UserRoundTrip(u); }
  }

  /** A new-room notice reaches the client as a room with one player. */
  lemma NewRoomRoundTrip(id: int, host: string, hasPassword: bool)
    requires Comma !in host
    ensures Decode(NewRoomMessage(id, host, hasPassword)) == Ok(OnNewRoom(RoomEntry(id, 1, host, hasPassword)))
  {
    NewRoomDecoded(id, host, hasPassword);
    NewRoomBranch(NewRoomMessage(id, host, hasPassword));
  }

  lemma NewRoomDecoded(id: int, host: string, hasPassword: bool)
    requires Comma !in host
    ensures var parts := Split(NewRoomMessage(id, host, hasPassword), Comma);
      parts[0] == "new-room" && DecodeNewRoom(parts) == Ok(OnNewRoom(RoomEntry(id, 1, host, hasPassword)))
  {
    var tokens := [IntToString(id), "1", host, Flag(hasPassword)];
    CommandTokens("new-room", tokens);
    var parts := Split(NewRoomMessage(id, host, hasPassword), Comma);
    assert parts == ["new-room"] + tokens;
    IntRoundTrip(id);
    OneRoundTrip();
    NewRoomPartsDecode(parts, id, 1);
  }

  lemma NewRoomPartsDecode(parts: seq<string>, id: int, players: int)
    requires |parts| == 5 && ParseInt(parts[1]) == Some(id) && ParseInt(parts[2]) == Some(players)
    ensures DecodeNewRoom(parts) == Ok(OnNewRoom(RoomEntry(id, players, parts[3], parts[4] == "1")))
  {
  }

  /** A server chat line shows only its text up to the first comma. */
  lemma ChatServerDecoded(text: string)
    ensures Decode(ChatServer(text)) == Ok(OnChatMessage(Split(text, Comma)[0]))
    ensures Comma !in text ==> Decode(ChatServer(text)) == Ok(OnChatMessage(text))
  {
    ChatTokens(text);
    ChatBranch(ChatServer(text));
    if Comma !in text {
      SplitNoSep(text, Comma);
    }
  }

  lemma ChatTokens(text: string)
    ensures var parts := Split(ChatServer(text), Comma);
      parts[0] == "chat-server" && Tok(parts, 1, "") == Split(text, Comma)[0]
  {
    CommandText("chat-server", text);
  }

  /** In-game chat survives the relay whatever it contains: the client sends
      `send-message,<text>`, the server rejoins everything after the command
      into `receive-message,<...>`, and the client rejoins it again. */
  lemma ChatRelay(text: string)
    ensures var parts := Split(Join(["send-message", text], Comma), Comma);
      Decode(Join(["receive-message", Join(parts[1..], Comma)], Comma)) == Ok(OnReceiveMessage(text))
  {
    CommandText("send-message", text);
    JoinSplit(text, Comma);
    var parts := Split(Join(["send-message", text], Comma), Comma);
    assert parts[1..] == Split(text, Comma);
    ReceiveDecoded(text);
  }

  /** `receive-message,<text>` shows exactly `text`. */
  lemma ReceiveDecoded(text: string)
    ensures Decode(Join(["receive-message", text], Comma)) == Ok(OnReceiveMessage(text))
  {
    var m := Join(["receive-message", text], Comma);
    CommandText("receive-message", text);
    JoinSplit(text, Comma);
    assert Split(m, Comma)[1..] == Split(text, Comma);
    ReceiveBranch(m);
  }

  /** A move survives the relay: `user-move,x,y` from one player reaches
      the other as a call with the same coordinates. */
  lemma MoveRelay(x: int, y: int)
    ensures var parts := Split(Join(["user-move", IntToString(x), IntToString(y)], Comma), Comma);
      |parts| > 2
      && Decode(Join(["competitor-move", parts[1], parts[2]], Comma)) == Ok(OnCompetitorMove(x, y))
  {
    CommandTokens("user-move", [IntToString(x), IntToString(y)]);
    MoveDecoded(x, y);
    MoveBranch(Join(["competitor-move", IntToString(x), IntToString(y)], Comma));
  }

  lemma MoveDecoded(x: int, y: int)
    ensures var parts := Split(Join(["competitor-move", IntToString(x), IntToString(y)], Comma), Comma);
      parts[0] == "competitor-move" && DecodeMove(parts) == Ok(OnCompetitorMove(x, y))
  {
    CommandTokens("competitor-move", [IntToString(x), IntToString(y)]);
    IntRoundTrip(x);
    IntRoundTrip(y);
  }
}

=== FILE: store.dfy ===
/** The account store behind `UserDAO`: the `user`, `friend` and
    `banned_user` tables held in memory, with each SQL statement of the DAO
    rendered as a function over them. */
module UserDao {
  import opened Wrappers
  import opened Models

  /** A row of the `user` table. */
  datatype Account = Account(
    id: int,
    username: string,
    password: string,
    nickname: string,
    avatar: string,
    numGames: int,
    numWins: int,
    numDraws: int,
    isOnline: bool,
    isPlaying: bool)

  /** The database: `user` rows in primary-key order, `friend` rows
      (ID_User1, ID_User2), the banned ids, the AUTO_INCREMENT counter, and
      whether statements currently fail with a `mysql.connector.Error`. */
  datatype Db = Db(
    users: seq<Account>,
    friends: set<(int, int)>,
    banned: set<int>,
    nextId: int,
    failing: bool)

  /** The table constraints: ids are issued in increasing order below the
      counter, and usernames are UNIQUE. */
  ghost predicate Valid(db: Db)
  {
    && (forall i, j :: 0 <= i < j < |db.users| ==> db.users[i].id < db.users[j].id)
    && (forall i :: 0 <= i < |db.users| ==> db.users[i].id < db.nextId)
    && (forall i, j :: 0 <= i < j < |db.users| ==> db.users[i].username != db.users[j].username)
  }

  /** An empty, working database. */
  function EmptyDb(): (db: Db)
    ensures Valid(db) && !db.failing && |db.users| == 0
  {
    Db([], {}, {}, 1, false)
  }

  predicate HasId(db: Db, id: int)
  {
    exists i :: 0 <= i < |db.users| && db.users[i].id == id
  }

  /** The first row satisfying both credentials (`fetchone`). */
  function FindCredentials(users: seq<Account>, username: string, password: string): (r: Option<nat>)
    ensures r.Some? ==> r.value < |users| && users[r.value].username == username
                        && users[r.value].password == password
    ensures r.Some? ==> forall i :: 0 <= i < r.value ==>
                          !(users[i].username == username && users[i].password == password)
    ensures r.None? <==> forall i :: 0 <= i < |users| ==>
                          !(users[i].username == username && users[i].password == password)
  {
    if |users| == 0 then None
    else if users[0].username == username && users[0].password == password then Some(0)
    else match FindCredentials(users[1..], username, password)
      case None => None
      case Some(k) => Some(k + 1)
  }

  /** The row with primary key `id`, if any. */
  function FindId(users: seq<Account>, id: int): (r: Option<nat>)
    ensures r.Some? ==> r.value < |users| && users[r.value].id == id
    ensures r.None? <==> forall i :: 0 <= i < |users| ==> users[i].id != id
  {
    if |users| == 0 then None
    else if users[0].id == id then Some(0)
    else match FindId(users[1..], id)
      case None => None
      case Some(k) => Some(k + 1)
  }

  function AsUser(a: Account, rank: int): User
  {
    User(a.id, a.username, a.password, a.nickname, a.avatar,
         a.numGames, a.numWins, a.numDraws, a.isOnline, a.isPlaying, rank)
  }

  /** Some account has exactly these credentials. */
  predicate HasCredentials(db: Db, username: string, password: string)
  {
    exists i :: 0 <= i < |db.users| && db.users[i].username == username && db.users[i].password == password
  }

  /** `verify_user`: the account whose username AND password both match,
      with its computed rank; `None` when there is none or the store fails. */
  function VerifyUser(db: Db, username: string, password: string): (r: Option<User>)
    ensures r.Some? <==> !db.failing && HasCredentials(db, username, password)
    ensures r.Some? ==> r.value.username == username && r.value.password == password
                        && r.value.rank == GetRank(db, r.value.id)
                        && exists i :: 0 <= i < |db.users| && AsUser(db.users[i], r.value.rank) == r.value
  {
    if db.failing then None
    else match FindCredentials(db.users, username, password)
      case None => None
      case Some(k) =>
        var a := db.users[k];
        Some(AsUser(a, GetRank(db, a.id)))
  }

  /** `check_duplicated`: some account has this username (false when the
      store fails). */
  function CheckDuplicated(db: Db, username: string): (r: bool)
    ensures r <==> !db.failing && exists i :: 0 <= i < |db.users| && db.users[i].username == username
  {
    !db.failing && exists i :: 0 <= i < |db.users| && db.users[i].username == username
  }

  /** `check_is_banned` (false when the store fails). */
  function CheckIsBanned(db: Db, id: int): (r: bool)
    ensures r ==> !db.failing && id in db.banned
    ensures !db.failing && id in db.banned ==> r
  {
    !db.failing && id in db.banned
  }

  /** `add_user`: the INSERT fails (returning false, store unchanged) when the
      store fails or the username is taken; otherwise a new row with the next
      id and zeroed counters and flags is appended. */
  function AddUser(db: Db, username: string, password: string, nickname: string, avatar: string)
    : (r: (Db, bool))
    ensures Valid(db) ==> Valid(r.0)
    ensures r.1 <==> !db.failing && !CheckDuplicated(db, username)
    ensures !r.1 ==> r.0 == db
    ensures r.1 ==> r.0.users == db.users + [Account(db.nextId, username, password, nickname, avatar,
                                                      0, 0, 0, false, false)]
                    && r.0.nextId == db.nextId + 1
                    && r.0.friends == db.friends && r.0.banned == db.banned && !r.0.failing
  {
    if db.failing || CheckDuplicated(db, username) then (db, false)
    else
      var row := Account(db.nextId, username, password, nickname, avatar, 0, 0, 0, false, false);
      (db.(users := db.users + [row], nextId := db.nextId + 1), true)
  }

  /** A freshly registered account can log in straight away: its
      credentials find exactly the new row. */
  lemma RegisteredCanLogIn(db: Db, username: string, password: string, nickname: string, avatar: string)
    requires !db.failing && !CheckDuplicated(db, username)
    ensures var db1 := AddUser(db, username, password, nickname, avatar).0;
      var row := Account(db.nextId, username, password, nickname, avatar, 0, 0, 0, false, false);
      VerifyUser(db1, username, password) == Some(AsUser(row, GetRank(db1, row.id)))
  {
    var db1 := AddUser(db, username, password, nickname, avatar).0;
    var row := Account(db.nextId, username, password, nickname, avatar, 0, 0, 0, false, false);
    FindCredentialsAppend(db.users, row, username, password);
  }

  lemma {:induction false} FindCredentialsAppend(users: seq<Account>, row: Account, username: string, password: string)
    requires forall i :: 0 <= i < |users| ==> users[i].username != username
    requires row.username == username && row.password == password
    ensures FindCredentials(users + [row], username, password) == Some(|users|)
    decreases |users|
  {
    if |users| > 0 {
      assert (users + [row])[1..] == users[1..] + [row];
      FindCredentialsAppend(users[1..], row, username, password);
    }
  }

  /** `UPDATE user SET ... WHERE ID = id`: applies `f` to the row(s) with that
      primary key. */
  function UpdateRows(users: seq<Account>, id: int, f: Account -> Account): (r: seq<Account>)
    ensures |r| == |users|
    ensures forall i :: 0 <= i < |users| ==> r[i] == (if users[i].id == id then f(users[i]) else users[i])
  {
    if |users| == 0 then []
    else [if users[0].id == id then f(users[0]) else users[0]] + UpdateRows(users[1..], id, f)
  }

  /** The `user` table keeps its rows in place and the other tables, the
      counter and the failure mode are untouched. */
  ghost predicate SameTables(before: Db, after: Db)
  {
    && |after.users| == |before.users|
    && after.friends == before.friends && after.banned == before.banned
    && after.nextId == before.nextId && after.failing == before.failing
  }

  /** Every UPDATE is skipped when the store fails; otherwise it rewrites the
      rows with this id and nothing else. */
  function Update(db: Db, id: int, f: Account -> Account): (r: Db)
    ensures SameTables(db, r)
    ensures db.failing ==> r == db
    ensures !db.failing ==> r.users == UpdateRows(db.users, id, f)
  {
    if db.failing then db else db.(users := UpdateRows(db.users, id, f))
  }

  /** `update_to_online`: sets only the online flag of that account. The row with this id changes in that
      way only (none does when the store fails); every other row is kept. */
  function UpdateToOnline(db: Db, id: int): (r: Db)
    ensures SameTables(db, r)
    ensures forall i :: 0 <= i < |db.users| ==>
              r.users[i] == if !db.failing && db.users[i].id == id
                            then db.users[i].(isOnline := true) else db.users[i]
  {
    Update(db, id, (a: Account) => a.(isOnline := true))
  }

  /** `update_to_offline`: clears both the online and the playing flag. The row with this id changes in that
      way only (none does when the store fails); every other row is kept. */
  function UpdateToOffline(db: Db, id: int): (r: Db)
    ensures SameTables(db, r)
    ensures forall i :: 0 <= i < |db.users| ==>
              r.users[i] == if !db.failing && db.users[i].id == id
                            then db.users[i].(isOnline := false, isPlaying := false) else db.users[i]
  {
    Update(db, id, (a: Account) => a.(isOnline := false, isPlaying := false))
  }

  /** `update_to_playing`: sets only the playing flag. The row with this id changes in that
      way only (none does when the store fails); every other row is kept. */
  function UpdateToPlaying(db: Db, id: int): (r: Db)
    ensures SameTables(db, r)
    ensures forall i :: 0 <= i < |db.users| ==>
              r.users[i] == if !db.failing && db.users[i].id == id
                            then db.users[i].(isPlaying := true) else db.users[i]
  {
    Update(db, id, (a: Account) => a.(isPlaying := true))
  }

  /** `update_to_not_playing`: clears only the playing flag. The row with this id changes in that
      way only (none does when the store fails); every other row is kept. */
  function UpdateToNotPlaying(db: Db, id: int): (r: Db)
    ensures SameTables(db, r)
    ensures forall i :: 0 <= i < |db.users| ==>
              r.users[i] == if !db.failing && db.users[i].id == id
                            then db.users[i].(isPlaying := false) else db.users[i]
  {
    Update(db, id, (a: Account) => a.(isPlaying := false))
  }

  /** `add_game`: one more game for that account. The row with this id changes in that
      way only (none does when the store fails); every other row is kept. */
  function AddGame(db: Db, id: int): (r: Db)
    ensures SameTables(db, r)
    ensures forall i :: 0 <= i < |db.users| ==>
              r.users[i] == if !db.failing && db.users[i].id == id
                            then db.users[i].(numGames := db.users[i].numGames + 1) else db.users[i]
  {
    Update(db, id, (a: Account) => a.(numGames := a.numGames + 1))
  }

  /** `add_win`: one more win for that account. The row with this id changes in that
      way only (none does when the store fails); every other row is kept. */
  function AddWin(db: Db, id: int): (r: Db)
    ensures SameTables(db, r)
    ensures forall i :: 0 <= i < |db.users| ==>
              r.users[i] == if !db.failing && db.users[i].id == id
                            then db.users[i].(numWins := db.users[i].numWins + 1) else db.users[i]
  {
    Update(db, id, (a: Account) => a.(numWins := a.numWins + 1))
  }

  /** `add_draw`: one more draw for that account. The row with this id changes in that
      way only (none does when the store fails); every other row is kept. */
  function AddDraw(db: Db, id: int): (r: Db)
    ensures SameTables(db, r)
    ensures forall i :: 0 <= i < |db.users| ==>
              r.users[i] == if !db.failing && db.users[i].id == id
                            then db.users[i].(numDraws := db.users[i].numDraws + 1) else db.users[i]
  {
    Update(db, id, (a: Account) => a.(numDraws := a.numDraws + 1))
  }

  /** Updates keep the table constraints. */
  lemma UpdateValid(db: Db, id: int, f: Account -> Account)
    requires Valid(db)
    requires forall a :: f(a).id == a.id && f(a).username == a.username
    ensures Valid(Update(db, id, f))
  {
  }

  // ---------------------------------------------------------------------
  // Ranking

  /** How many rows have strictly more than `wins` wins. */
  function CountAbove(users: seq<Account>, wins: int): (n: nat)
    ensures n <= |users|
  {
    if |users| == 0 then 0
    else (if users[0].numWins > wins then 1 else 0) + CountAbove(users[1..], wins)
  }

  /** `get_rank`: one more than the number of accounts with strictly more
      wins; 1 for an unknown id (the sub-select yields NULL and nothing
      compares greater), 0 when the store fails. */
  function GetRank(db: Db, id: int): (r: int)
    ensures db.failing <==> r == 0
    ensures !db.failing ==> 1 <= r <= |db.users| + 1
    ensures !db.failing && FindId(db.users, id).None? ==> r == 1
    ensures !db.failing && FindId(db.users, id).Some? ==>
              r == 1 + CountAbove(db.users, db.users[FindId(db.users, id).value].numWins)
  {
    if db.failing then 0
    else match FindId(db.users, id)
      case None => 1
      case Some(k) => 1 + CountAbove(db.users, db.users[k].numWins)
  }

  /** More wins never count for fewer rows above. */
  lemma {:induction false} CountAboveMonotone(users: seq<Account>, lo: int, hi: int)
    requires lo <= hi
    ensures CountAbove(users, hi) <= CountAbove(users, lo)
    decreases |users|
  {
    if |users| > 0 {
      CountAboveMonotone(users[1..], lo, hi);
    }
  }

  /** A row with `hi` wins is counted above `lo` but not above `hi`. */
  lemma {:induction false} CountAboveStrict(users: seq<Account>, lo: int, hi: int, k: nat)
    requires lo < hi && k < |users| && users[k].numWins == hi
    ensures CountAbove(users, hi) < CountAbove(users, lo)
    decreases |users|
  {
    if k == 0 {
      CountAboveMonotone(users[1..], lo, hi);
    } else {
      CountAboveStrict(users[1..], lo, hi, k - 1);
    }
  }

  /** Ranks follow wins: accounts with equal wins share a rank, and strictly
      more wins means a strictly better (smaller) rank. */
  lemma RankOrder(db: Db, a: nat, b: nat)
    requires !db.failing && Valid(db) && a < |db.users| && b < |db.users|
    ensures db.users[a].numWins == db.users[b].numWins ==>
              GetRank(db, db.users[a].id) == GetRank(db, db.users[b].id)
    ensures db.users[a].numWins > db.users[b].numWins ==>
              GetRank(db, db.users[a].id) < GetRank(db, db.users[b].id)
  {
    var ka := FindId(db.users, db.users[a].id);
    var kb := FindId(db.users, db.users[b].id);
    assert ka == Some(a) by { FindIdUnique(db, a); }
    assert kb == Some(b) by { FindIdUnique(db, b); }
    if db.users[a].numWins > db.users[b].numWins {
      CountAboveStrict(db.users, db.users[b].numWins, db.users[a].numWins, a);
    }
  }

  lemma FindIdUnique(db: Db, k: nat)
    requires Valid(db) && k < |db.users|
    ensures FindId(db.users, db.users[k].id) == Some(k)
  {
  }

  /** Inserts `a` after every row with more wins and before the first row
      with at most as many, so rows with equal wins keep their order. */
  function InsertByWins(a: Account, sorted: seq<Account>): (r: seq<Account>)
    ensures multiset(r) == multiset(sorted) + multiset{a}
    ensures |r| == |sorted| + 1
    ensures forall x :: x in r ==> x == a || x in sorted
  {
    if |sorted| == 0 || sorted[0].numWins <= a.numWins then [a] + sorted
    else
      assert sorted == [sorted[0]] + sorted[1..];
      [sorted[0]] + InsertByWins(a, sorted[1..])
  }

  ghost predicate WinsNonIncreasing(s: seq<Account>)
  {
    forall i, j :: 0 <= i < j < |s| ==> s[i].numWins >= s[j].numWins
  }

  lemma {:induction false} InsertByWinsSorted(a: Account, sorted: seq<Account>)
    requires WinsNonIncreasing(sorted)
    ensures WinsNonIncreasing(InsertByWins(a, sorted))
    decreases |sorted|
  {
    var r := InsertByWins(a, sorted);
    if |sorted| == 0 || sorted[0].numWins <= a.numWins {
      forall i, j | 0 <= i < j < |r| ensures r[i].numWins >= r[j].numWins {
        if i == 0 {
          assert r[j] == sorted[j - 1];
        } else {
          assert r[i] == sorted[i - 1] && r[j] == sorted[j - 1];
        }
      }
    } else {
      var rest := InsertByWins(a, sorted[1..]);
      InsertByWinsSorted(a, sorted[1..]);
      assert r == [sorted[0]] + rest;
      forall i, j | 0 <= i < j < |r| ensures r[i].numWins >= r[j].numWins {
        if i == 0 {
          assert r[j] == rest[j - 1];
          assert r[j] in rest;
        } else {
          assert r[i] == rest[i - 1] && r[j] == rest[j - 1];
        }
      }
    }
  }

  /** `ORDER BY numberOfWin DESC`, ties in primary-key order. */
  function SortByWins(users: seq<Account>): (r: seq<Account>)
    ensures multiset(r) == multiset(users)
    ensures |r| == |users|
  {
    if |users| == 0 then []
    else
      assert users == [users[0]] + users[1..];
      InsertByWins(users[0], SortByWins(users[1..]))
  }

  lemma {:induction false} SortByWinsSorted(users: seq<Account>)
    ensures WinsNonIncreasing(SortByWins(users))
    decreases |users|
  {
    if |users| > 0 {
      SortByWinsSorted(users[1..]);
      InsertByWinsSorted(users[0], SortByWins(users[1..]));
    }
  }

  const RankListLimit: nat := 100

  /** The rows of `sorted` as users, numbered from `first`. */
  function Ranked(sorted: seq<Account>, first: int): (r: seq<User>)
    ensures |r| == |sorted|
    ensures forall i :: 0 <= i < |r| ==> r[i] == AsUser(sorted[i], first + i).(isOnline := false, isPlaying := false)
  {
    if |sorted| == 0 then []
    else [AsUser(sorted[0], first).(isOnline := false, isPlaying := false)] + Ranked(sorted[1..], first + 1)
  }

  /** `r` ranks the rows `top`, which are drawn from `users` without
      repetition. */
  ghost predicate RankedFrom(r: seq<User>, top: seq<Account>, users: seq<Account>)
  {
    multiset(top) <= multiset(users) && r == Ranked(top, 1)
  }

  /** The first 100 rows by non-increasing wins, ties in primary-key order. */
  function TopRows(users: seq<Account>): (top: seq<Account>)
    ensures multiset(top) <= multiset(users)
    ensures |top| == if |users| < RankListLimit then |users| else RankListLimit
    ensures WinsNonIncreasing(top)
  {
    var sorted := SortByWins(users);
    SortByWinsSorted(users);
    var top := if |sorted| < RankListLimit then sorted else sorted[..RankListLimit];
    assert sorted == top + sorted[|top|..];
    assert multiset(sorted) == multiset(top) + multiset(sorted[|top|..]);
    top
  }

  /** `get_rank_list`: at most 100 accounts, by non-increasing wins, each
      ranked by its position (1-based), drawn from the table without
      repetition; empty when the store fails. */
  function GetRankList(db: Db): (r: seq<User>)
    ensures db.failing ==> r == []
    ensures |r| <= RankListLimit
    ensures !db.failing ==> |r| == if |db.users| < RankListLimit then |db.users| else RankListLimit
    ensures forall i :: 0 <= i < |r| ==> r[i].rank == i + 1 && !r[i].isOnline && !r[i].isPlaying
    ensures forall i, j :: 0 <= i < j < |r| ==> r[i].numWins >= r[j].numWins
    ensures !db.failing ==> exists top: seq<Account> :: RankedFrom(r, top, db.users)
  {
    if db.failing then []
    else
      var top := TopRows(db.users);
      assert RankedFrom(Ranked(top, 1), top, db.users);
      Ranked(top, 1)
  }

  // ---------------------------------------------------------------------
  // Friendship

  /** `check_friend`: a friend row links the two ids in either order
      (false when the store fails). */
  function CheckFriend(db: Db, a: int, b: int): (r: bool)
    ensures r <==> !db.failing && ((a, b) in db.friends || (b, a) in db.friends)
  {
    !db.failing && ((a, b) in db.friends || (b, a) in db.friends)
  }

  /** Friendship as the DAO reports it is symmetric. */
  lemma CheckFriendSymmetric(db: Db, a: int, b: int)
    ensures CheckFriend(db, a, b) == CheckFriend(db, b, a)
  {
  }

  /** How many friend rows join account `id` with row `u` in the friend-list
      query: one per matching row, so a pair stored in both orders is listed
      twice. */
  function FriendRows(db: Db, id: int, other: int): (n: nat)
    ensures n > 0 <==> CheckFriend(db, id, other)
  {
    if db.failing then 0
    else if id == other then (if (id, id) in db.friends then 1 else 0)
    else (if (id, other) in db.friends then 1 else 0) + (if (other, id) in db.friends then 1 else 0)
  }

  function FriendEntry(a: Account): User
  {
    User(a.id, "", "", a.nickname, "", 0, 0, 0, a.isOnline, a.isPlaying, 0)
  }

  function FriendsIn(db: Db, users: seq<Account>, id: int): (r: seq<User>)
    ensures forall f :: f in r ==> exists i :: 0 <= i < |users| && f == FriendEntry(users[i])
                                              && CheckFriend(db, id, users[i].id)
    ensures forall i :: 0 <= i < |users| && CheckFriend(db, id, users[i].id) ==> FriendEntry(users[i]) in r
  {
    if |users| == 0 then []
    else
      var n := FriendRows(db, id, users[0].id);
      var rest := FriendsIn(db, users[1..], id);
      var here := seq(n, _ => FriendEntry(users[0]));
      assert forall f :: f in here ==> f == FriendEntry(users[0]);
      assert n > 0 ==> here[0] == FriendEntry(users[0]);
      here + rest
  }

  /** `get_list_friend`: exactly the accounts linked to `id` by a friend row,
      as (id, nickname, online, playing) entries; empty when the store fails. */
  function GetListFriend(db: Db, id: int): (r: seq<User>)
    ensures db.failing ==> r == []
    ensures forall f :: f in r ==> (CheckFriend(db, id, f.id)
                                  && exists i :: 0 <= i < |db.users| && f == FriendEntry(db.users[i]))
    ensures forall i :: 0 <= i < |db.users| && CheckFriend(db, id, db.users[i].id) ==>
              FriendEntry(db.users[i]) in r
  {
    if db.failing then [] else FriendsIn(db, db.users, id)
  }

  /** `add_friend`: the INSERT fails on a store error, on a duplicate
      primary key, or when either id has no account (foreign keys). */
  function AddFriend(db: Db, a: int, b: int): (r: (Db, bool))
    ensures r.1 <==> !db.failing && (a, b) !in db.friends && HasId(db, a) && HasId(db, b)
    ensures r.1 ==> r.0 == db.(friends := db.friends + {(a, b)}) && CheckFriend(r.0, b, a)
    ensures !r.1 ==> r.0 == db
  {
    if db.failing || (a, b) in db.friends || !HasId(db, a) || !HasId(db, b) then (db, false)
    else (db.(friends := db.friends + {(a, b)}), true)
  }
}

=== FILE: text.dfy ===
/** The handful of Python string operations the protocol is built from:
    `str.split(sep)`, `sep.join(parts)`, `str(int)`, `int(str)` and
    `str.strip()`. */
module Text {
  import opened Wrappers

  const Comma: char := ','

  /** Python `s.split(sep)`: the maximal sep-free pieces, in order. */
  function Split(s: string, sep: char): (parts: seq<string>)
    ensures |parts| >= 1
    ensures forall i :: 0 <= i < |parts| ==> sep !in parts[i]
    decreases |s|
  {
    if |s| == 0 then [""]
    else if s[0] == sep then [""] + Split(s[1..], sep)
    else
      var rest := Split(s[1..], sep);
      [[s[0]] + rest[0]] + rest[1..]
  }

  /** Python `sep.join(parts)`. */
  function Join(parts: seq<string>, sep: char): string
  {
    if |parts| == 0 then ""
    else if |parts| == 1 then parts[0]
    else parts[0] + [sep] + Join(parts[1..], sep)
  }

  /** Python `parts[i] if len(parts) > i else default`. */
  function Tok(parts: seq<string>, i: nat, default: string): (t: string)
    ensures i < |parts| ==> t == parts[i]
    ensures i >= |parts| ==> t == default
  {
    if i < |parts| then parts[i] else default
  }

  lemma {:induction false} SplitNoSep(p: string, sep: char)
    requires sep !in p
    ensures Split(p, sep) == [p]
    decreases |p|
  {
    if |p| > 0 {
      SplitNoSep(p[1..], sep);
      assert [p[0]] + p[1..] == p;
    }
  }

  /** Splitting at the first separator peels off the sep-free prefix. */
  lemma {:induction false} SplitCons(a: string, sep: char, rest: string)
    requires sep !in a
    ensures Split(a + [sep] + rest, sep) == [a] + Split(rest, sep)
    decreases |a|
  {
    var s := a + [sep] + rest;
    if |a| == 0 {
      assert s[1..] == rest;
    } else {
      assert s[1..] == a[1..] + [sep] + rest;
      SplitCons(a[1..], sep, rest);
      assert [a[0]] + a[1..] == a;
    }
  }

  /** Joining then splitting gives the pieces back, when no piece holds the separator. */
  lemma {:induction false} SplitJoin(parts: seq<string>, sep: char)
    requires |parts| >= 1
    requires forall i :: 0 <= i < |parts| ==> sep !in parts[i]
    ensures Split(Join(parts, sep), sep) == parts
    decreases |parts|
  {
    if |parts| == 1 {
      SplitNoSep(parts[0], sep);
    } else {
      SplitJoin(parts[1..], sep);
      SplitCons(parts[0], sep, Join(parts[1..], sep));
      assert [parts[0]] + parts[1..] == parts;
    }
  }

  /** Splitting then joining gives the string back, for every string. */
  lemma {:induction false} JoinSplit(s: string, sep: char)
    ensures Join(Split(s, sep), sep) == s
    decreases |s|
  {
    if |s| > 0 {
      JoinSplit(s[1..], sep);
      var rest := Split(s[1..], sep);
      if s[0] != sep && |rest| > 1 {
        assert Join(rest, sep) == rest[0] + [sep] + Join(rest[1..], sep);
        var parts := [[s[0]] + rest[0]] + rest[1..];
        assert parts[1..] == rest[1..];
      }
    }
  }

  /** Join distributes over a split point of the list of pieces. */
  lemma {:induction false} JoinAppend(a: seq<string>, b: seq<string>, sep: char)
    requires |a| >= 1 && |b| >= 1
    ensures Join(a + b, sep) == Join(a, sep) + [sep] + Join(b, sep)
    decreases |a|
  {
    if |a| == 1 {
      assert (a + b)[1..] == b;
    } else {
      JoinAppend(a[1..], b, sep);
      assert (a + b)[1..] == a[1..] + b;
    }
  }

  /** The tokens of several groups, one group after another. */
  function Flatten(groups: seq<seq<string>>): seq<string>
  {
    if |groups| == 0 then [] else groups[0] + Flatten(groups[1..])
  }

  lemma {:induction false} FlattenAppend(a: seq<seq<string>>, b: seq<seq<string>>)
    ensures Flatten(a + b) == Flatten(a) + Flatten(b)
    decreases |a|
  {
    if |a| == 0 {
      assert a + b == b;
    } else {
      assert (a + b)[1..] == a[1..] + b;
      FlattenAppend(a[1..], b);
    }
  }

  /** A header followed by groups of comma-separated fields, built the way
      the server builds its list replies: start from the header and append
      `,` and one joined group at a time. */
  function Listing(header: string, groups: seq<seq<string>>): string
  {
    if |groups| == 0 then header
    else Listing(header, groups[..|groups| - 1]) + [Comma] + Join(groups[|groups| - 1], Comma)
  }

  /** Every group has at least one token and no token holds a comma. */
  predicate CommaFreeGroups(groups: seq<seq<string>>)
  {
    forall i :: 0 <= i < |groups| ==>
      |groups[i]| >= 1 && forall j :: 0 <= j < |groups[i]| ==> Comma !in groups[i][j]
  }

  /** A listing splits back into its header and all group tokens, in order. */
  lemma {:induction false} SplitListing(header: string, groups: seq<seq<string>>)
    requires Comma !in header && CommaFreeGroups(groups)
    ensures Split(Listing(header, groups), Comma) == [header] + Flatten(groups)
    decreases |groups|
  {
    if |groups| == 0 {
      SplitNoSep(header, Comma);
    } else {
      var n := |groups| - 1;
      var init := groups[..n];
      assert CommaFreeGroups(init) by {
        forall i | 0 <= i < |init| ensures |init[i]| >= 1 && forall j :: 0 <= j < |init[i]| ==> Comma !in init[i][j] {
          assert init[i] == groups[i];
        }
      }
      SplitListing(header, init);
      SplitAppend(Listing(header, init), Comma, Join(groups[n], Comma));
      SplitJoin(groups[n], Comma);
      FlattenAppend(init, [groups[n]]);
      assert init + [groups[n]] == groups;
      assert Flatten([groups[n]]) == groups[n] + Flatten([]);
    }
  }

  /** Position of the first `c` in `s`. */
  function IndexOf(s: string, c: char): (k: nat)
    requires c in s
    ensures k < |s| && s[k] == c && c !in s[..k]
  {
    if s[0] == c then 0
    else
      var k := IndexOf(s[1..], c);
      assert s[1..][..k] == s[1..k + 1];
      k + 1
  }

  /** The first occurrence is the one with no earlier occurrence. */
  lemma {:induction false} IndexOfUnique(s: string, c: char, k: nat)
    requires k < |s| && s[k] == c
    requires forall i :: 0 <= i < k ==> s[i] != c
    ensures IndexOf(s, c) == k
  {
    if k > 0 {
      IndexOfUnique(s[1..], c, k - 1);
    }
  }

  /** Appending `sep` and more text keeps every piece of `s` and only adds
      the pieces of the appended text. */
  lemma {:induction false} SplitAppend(s: string, sep: char, extra: string)
    ensures Split(s + [sep] + extra, sep) == Split(s, sep) + Split(extra, sep)
    decreases |s|
  {
    if sep !in s {
      SplitNoSep(s, sep);
      SplitCons(s, sep, extra);
    } else {
      var k := IndexOf(s, sep);
      var a, b := s[..k], s[k + 1..];
      CutAround(s, k);
      SplitCons(a, sep, b);
      SplitAppend(b, sep, extra);
      Regroup(a, sep, b, extra);
      SplitCons(a, sep, b + [sep] + extra);
      assert [a] + (Split(b, sep) + Split(extra, sep)) == ([a] + Split(b, sep)) + Split(extra, sep);
    }
  }

  /** A string is what comes before a position, the character there, and
      what comes after. */
  lemma CutAround(s: string, k: nat)
    requires k < |s|
    ensures s == s[..k] + [s[k]] + s[k + 1..]
  {
  }

  lemma Regroup(a: string, sep: char, b: string, extra: string)
    ensures (a + [sep] + b) + [sep] + extra == a + [sep] + (b + [sep] + extra)
  {
  }

  // ---------------------------------------------------------------------
  // Decimal integers: Python `str(n)` and `int(s)`.

  predicate IsDigit(c: char) { '0' <= c <= '9' }

  predicate AllDigits(s: string) { forall i :: 0 <= i < |s| ==> IsDigit(s[i]) }

  function DigitChar(d: nat): (c: char)
    requires d < 10
    ensures IsDigit(c)
  {
    ['0', '1', '2', '3', '4', '5', '6', '7', '8', '9'][d]
  }

  function DigitValue(c: char): (d: nat)
    requires IsDigit(c)
    ensures d < 10
  {
    (c as int) - ('0' as int)
  }

  lemma DigitRoundTrip(d: nat)
    requires d < 10
    ensures DigitValue(DigitChar(d)) == d
  {
  }

  /** The value of a string of decimal digits, most significant first. */
  function DigitsValue(s: string): nat
    requires AllDigits(s)
    decreases |s|
  {
    if |s| == 0 then 0 else DigitsValue(s[..|s| - 1]) * 10 + DigitValue(s[|s| - 1])
  }

  /** Python `str(n)` for a non-negative integer. */
  function NatToString(n: nat): (s: string)
    ensures |s| >= 1 && AllDigits(s)
    decreases n
  {
    if n < 10 then [DigitChar(n)] else NatToString(n / 10) + [DigitChar(n % 10)]
  }

  lemma {:induction false} NatToStringValue(n: nat)
    ensures DigitsValue(NatToString(n)) == n
    decreases n
  {
    var s := NatToString(n);
    if n < 10 {
      DigitRoundTrip(n);
    } else {
      NatToStringValue(n / 10);
      DigitRoundTrip(n % 10);
      assert s[..|s| - 1] == NatToString(n / 10);
    }
  }

  /** Python `str(n)`. */
  function IntToString(n: int): (s: string)
    ensures |s| >= 1
    ensures Comma !in s
  {
    if n < 0 then "-" + NatToString(-n) else NatToString(n)
  }

  /** The characters Python's `str.strip()` removes (those with `isspace()`). */
  predicate IsSpace(c: char)
  {
    || c == ' ' || '\t' <= c <= '\r' || '\U{1C}' <= c <= '\U{1F}' || c == '\U{85}' || c == '\U{A0}'
    || c == '\U{1680}' || '\U{2000}' <= c <= '\U{200A}' || c == '\U{2028}' || c == '\U{2029}'
    || c == '\U{202F}' || c == '\U{205F}' || c == '\U{3000}'
  }

  /** Python `s.lstrip()`: drops the leading white space. */
  function TrimLeft(s: string): (t: string)
    ensures |t| <= |s| && t == s[|s| - |t|..]
    ensures |t| > 0 ==> !IsSpace(t[0])
    ensures forall i :: 0 <= i < |s| - |t| ==> IsSpace(s[i])
    ensures |s| > 0 && !IsSpace(s[0]) ==> t == s
    decreases |s|
  {
    if |s| > 0 && IsSpace(s[0]) then
      var t := TrimLeft(s[1..]);
      assert forall i :: 1 <= i < |s| - |t| ==> s[i] == s[1..][i - 1];
      t
    else s
  }

  /** Python `s.rstrip()`: drops the trailing white space. */
  function TrimRight(s: string): (t: string)
    ensures |t| <= |s| && t == s[..|t|]
    ensures |t| > 0 ==> !IsSpace(t[|t| - 1])
    ensures forall i :: |t| <= i < |s| ==> IsSpace(s[i])
    ensures |s| > 0 && !IsSpace(s[|s| - 1]) ==> t == s
    decreases |s|
  {
    if |s| > 0 && IsSpace(s[|s| - 1]) then
      var t := TrimRight(s[..|s| - 1]);
      assert forall i :: |t| <= i < |s| - 1 ==> s[i] == s[..|s| - 1][i];
      t
    else s
  }

  /** `t` occurs in `s` starting at position `k`. */
  predicate InfixAt(t: string, s: string, k: int)
  {
    0 <= k <= |s| - |t| && t == s[k..k + |t|]
  }

  /** Python `s.strip()`: an infix of `s` that neither starts nor ends with
      white space, and `s` itself when `s` does not. */
  function Strip(s: string): (t: string)
    ensures |t| <= |s|
    ensures exists k :: InfixAt(t, s, k)
    ensures |t| > 0 ==> !IsSpace(t[0]) && !IsSpace(t[|t| - 1])
    ensures |s| > 0 && !IsSpace(s[0]) && !IsSpace(s[|s| - 1]) ==> t == s
  {
    var l := TrimLeft(s);
    var t := TrimRight(l);
    StripShape(s, l, t);
    t
  }

  /** `t` is the infix of `s` at `k`, and everything around it is white
      space. */
  predicate TrimmedAt(s: string, t: string, k: int)
  {
    && InfixAt(t, s, k)
    && (forall i :: 0 <= i < k ==> IsSpace(s[i]))
    && (forall i :: k + |t| <= i < |s| ==> IsSpace(s[i]))
  }

  /** Everything `strip` cuts off, at either end, is white space. */
  lemma StripCutsOnlySpace(s: string)
    ensures exists k :: TrimmedAt(s, Strip(s), k)
  {
    var l := TrimLeft(s);
    var t := TrimRight(l);
    var k := |s| - |l|;
    StripShape(s, l, t);
    assert Strip(s) == t;
  }

  /** What a left trim followed by a right trim leaves, from their
      contracts alone. */
  lemma StripShape(s: string, l: string, t: string)
    requires |l| <= |s| && l == s[|s| - |l|..] && (|l| > 0 ==> !IsSpace(l[0]))
    requires |s| > 0 && !IsSpace(s[0]) ==> l == s
    requires |t| <= |l| && t == l[..|t|] && (|t| > 0 ==> !IsSpace(t[|t| - 1]))
    requires |l| > 0 && !IsSpace(l[|l| - 1]) ==> t == l
    requires forall i :: 0 <= i < |s| - |l| ==> IsSpace(s[i])
    requires forall i :: |t| <= i < |l| ==> IsSpace(l[i])
    ensures TrimmedAt(s, t, |s| - |l|)
    ensures |t| > 0 ==> !IsSpace(t[0])
    ensures |s| > 0 && !IsSpace(s[0]) && !IsSpace(s[|s| - 1]) ==> t == s
  {
    var k := |s| - |l|;
    assert s[k..][..|t|] == s[k..k + |t|];
    if |t| > 0 {
      assert t[0] == l[0];
    }
    forall i | k + |t| <= i < |s| ensures IsSpace(s[i]) {
      assert s[i] == l[i - k];
    }
  }

  /** The digit string Python accepts inside `int()`: digits, with single
      underscores allowed between two digits. */
  predicate IsDigitBody(b: string)
  {
    && |b| > 0
    && IsDigit(b[0]) && IsDigit(b[|b| - 1])
    && (forall i :: 0 <= i < |b| ==> IsDigit(b[i]) || b[i] == '_')
    && (forall i :: 0 <= i < |b| - 1 ==> b[i] == '_' ==> b[i + 1] != '_')
  }

  function DropUnderscores(b: string): (d: string)
    requires forall i :: 0 <= i < |b| ==> IsDigit(b[i]) || b[i] == '_'
    ensures AllDigits(d) && |d| <= |b|
    ensures AllDigits(b) ==> d == b
  {
    if |b| == 0 then ""
    else if b[0] == '_' then DropUnderscores(b[1..])
    else [b[0]] + DropUnderscores(b[1..])
  }

  /** Python `int(s)` in base 10: surrounding white space is ignored, one
      optional sign, then a digit body; anything else raises `ValueError`,
      shown here as `None`. */
  function ParseInt(s: string): (r: Option<int>)
    ensures r.Some? ==> |Strip(s)| > 0
  {
    ParseSigned(Strip(s))
  }

  /** `int()` on a string that has no surrounding white space. */
  function ParseSigned(t: string): (r: Option<int>)
    ensures r.Some? ==> |t| > 0
  {
    var signed := |t| > 0 && (t[0] == '-' || t[0] == '+');
    var body := if signed then t[1..] else t;
    if !IsDigitBody(body) then None
    else
      var v: int := DigitsValue(DropUnderscores(body));
      Some(if signed && t[0] == '-' then -v else v)
  }

  lemma DigitsAreBody(d: string)
    requires |d| > 0 && AllDigits(d)
    ensures IsDigitBody(d) && DropUnderscores(d) == d
  {
  }

  lemma DigitNotSpace(c: char)
    requires IsDigit(c) || c == '-'
    ensures !IsSpace(c)
  {
  }

  /** `int(str(n)) == n` for every integer. */
  lemma IntRoundTrip(n: int)
    ensures ParseInt(IntToString(n)) == Some(n)
  {
    var m: nat := if n < 0 then -n else n;
    var digits := NatToString(m);
    NatToStringValue(m);
    DigitsAreBody(digits);
    var s := IntToString(n);
    DigitNotSpace(s[0]);
    DigitNotSpace(s[|s| - 1]);
    assert Strip(s) == s;
    if n < 0 {
      assert s == "-" + digits;
      assert s[1..] == digits;
    } else {
      assert s == digits;
      assert !(s[0] == '-' || s[0] == '+');
    }
  }

  /** The literal `1` the server writes as a player count is `str(1)`. */
  lemma OneRoundTrip()
    ensures IntToString(1) == "1" && ParseInt("1") == Some(1)
  {
    IntRoundTrip(1);
    assert NatToString(1) == "1";
  }
}

=== FILE: wrappers.dfy ===
/** Optional values and Python-style failures shared by every module. */
module Wrappers {

  /** Python's `None` versus a present value. */
  datatype Option<+T> = None | Some(value: T)

  /** The outcome of a Python expression that may raise: either a value, or
      an exception that unwinds the caller (a `ValueError` from `int(...)`,
      an `AttributeError` on `None`, a `KeyError`). */
  datatype Result<+T> = Ok(value: T) | Raised
}
